=== FILE: README.md ===
# Messenger core in Dafny

A model of the Android messenger app's client logic, written against its Java
sources. The app keeps chats and messages in Firestore. This model covers:

- the bean classes `Chat`, `Message` and `User`, with their constructors,
  setters and the display-name fallback of `User.getName`;
- the chat-list screen (`ChatListActivity` and `ChatListAdapter`):
  - applying the ADDED/MODIFIED/REMOVED changes of the chats query to the
    in-memory list;
  - the All/Groups/Favourites tab views and the name search;
  - the group-creation dialog;
- the chat screen (`ChatActivity` and `MessageAdapter`):
  - applying message changes after the per-user `deletedFor` lookup;
  - the timestamp sort on the initial load;
  - sending a message, with the chat summary and the unread counters;
  - the read receipts;
  - the favourite toggle;
  - the two ways of deleting a message, and the chat summary recomputed
    after each;
- the new-chat screen (`NewChatActivity` and `UserAdapter`): the users list,
  the name search and the find-or-create of a direct chat;
- the group-participant dialog (`GroupParticipantsAdapter`): opening or
  creating the direct chat with a participant;
- the login and profile screens: input validation, button states, the
  `isSaving` guard, and the user document that registration writes;
- the avatar helper (`TextDrawableHelper`): the initial and the palette
  colour.

Each screen is a class whose fields are the screen state the Java code
updates: the lists, flags, input texts and error messages. Each callback is a
method that changes those fields.

The Firestore documents one chat screen touches are the class
`Store.ChatStore`:

- the chat document;
- the `messages` sub-collection in timestamp order;
- the `deletedFor` markers.

A write to the database is an assignment to `ChatStore`.

Queries and callbacks are not modelled as calls. What a query answers
(documents, change lists, success flags, server times, new document keys) is
a parameter of the method that models the callback.

The Java lists that two objects share are holder classes, so both sides see
the same updates:

- `MessageList`, shared by `ChatActivity` and `MessageAdapter`;
- `UserList`, shared by `NewChatActivity` and `UserAdapter`.

Each list of objects is tied to a list of values through `ChatValues` and
`MessageValues`. Most properties are stated over those value lists.

Exceptions that end a listener are modelled as results:

- `add(index, x)` with an index out of range gives `crashed` from the list
  updates of the chat list and the chat screen;
- a chat document without participants, read by `createOrOpenChat` of the
  user adapter, gives `LookupCrashed`;
- `email.split("@")[0]` on an email made only of '@' gives `None` from
  `DisplayName`; the screens that then call `getName()` report `crashed`
  (`GroupCandidates`, `OnUserLoaded`) or leave the callback without its
  remaining writes (`OnRegisterResult`);
- a negative palette index gives `None` from `ColorIndexAsWritten`, and
  `OnUserLoaded` reports `crashed`.

In the following places the intended behaviour of the app and the code
differ. The model follows the code, except for the final summary query of
`deleteMessageForMe`: there the model computes the intended summary and
states the code's as a separate function (see "Delete for me" below):

- **Message order.** The message list is meant to stay in ascending
  timestamp order after any sequence of changes. The code keeps that order
  for every ADDED and REMOVED change, and for a MODIFIED change that does not
  move a shown message to another timestamp (`ChangeKeepsAscending`). A
  MODIFIED change that gives a shown message a new timestamp replaces it in
  place and unsorts the list (`ModifiedCanUnsort`).
- **Duplicate messages.** The message list is meant to hold no duplicates.
  ADDED inserts without looking for an existing id (`AddedMessageInserts`).
  The chat list does check for an existing id on ADDED, and keeps its ids
  distinct (`ChatChangeKeepsUnique`, `ApplyAllKeepsUnique`).
- **Delete for me.** The last-message summary is meant to show the newest
  message the viewer has not deleted for themself. The final query of
  `deleteMessageForMe` does not do that (`ForMeSummaryAsWritten`); see
  "## Findings".
- **Stored message order.** Every message query orders by `timestamp`, so
  the last stored document is the newest only while the documents are in
  time order (`Store.InTimeOrder`). Deleting and status writes keep that
  order. Sending keeps it when the server time of the new message is not
  earlier than any stored one.

The model also records the following behaviour of the code:

- The name check of the login form is `TextUtils.isEmpty`, so a name made of
  blanks passes. The account is then stored under the part of the email
  before '@' (`BlankNamePasses`).
- The password length is checked on the untrimmed text, but the trimmed text
  is sent.
- A successful profile save leaves `isSaving` set (`OnSaveSucceeded`). The
  screen refuses further saves until it is closed.
- Two lookups treat a group differently. The new-chat screen opens the first
  chat that contains the other user, which can be a group (`GroupMatches`).
  The participant dialog accepts only a two-person chat (`LookupsDiffer`).

## Model

| member | source | states |
|---|---|---|
| Platform.Trim | app/src/main/java/com/example/messenger/ChatActivity.java:291 | `String.trim`: the result is a contiguous slice of the input. It has no character `<= ' '` at either end, and everything cut off, at the front and at the back, is such a character. |
| Platform.TrimEmptyIff | app/src/main/java/com/example/messenger/ChatActivity.java:291-292 | A trimmed text is empty exactly when every character of the input is `<= ' '`. So a blank message is never sent. |
| Platform.TrimTwice | app/src/main/java/com/example/messenger/ProfileSettingsActivity.java:100 | Trimming is idempotent: trimming an already trimmed name changes nothing. |
| Platform.ToLower | app/src/main/java/com/example/messenger/ChatListAdapter.java:144 | `toLowerCase` keeps the length and lower-cases each character. |
| Platform.ContainsEmpty | app/src/main/java/com/example/messenger/NewChatActivity.java:119 | `contains("")` holds for every text. |
| Platform.LocalPart | app/src/main/java/com/example/messenger/User.java:39 | `email.split("@")[0]`: the text before the first '@'. It fails exactly when the email is non-empty and made only of '@'. |
| Platform.WrapInt | app/src/main/java/com/example/messenger/utils/TextDrawableHelper.java:43 | 32-bit wrap-around: the result lies in the `int` range and is congruent to the input modulo 2^32. |
| Platform.JavaAbs | app/src/main/java/com/example/messenger/utils/TextDrawableHelper.java:43 | `Math.abs` on `int` gives `Integer.MIN_VALUE` back exactly for `MIN_VALUE`. Every other input gives a non-negative `int`. |
| Platform.JavaRem | app/src/main/java/com/example/messenger/utils/TextDrawableHelper.java:44 | Java's `%` truncates, so the remainder has the sign of the dividend, lies strictly within `b` of 0, and is what is left of the dividend after the truncated quotient `JavaQuot` times `b`. |
| Platform.JavaRemUnique | app/src/main/java/com/example/messenger/utils/TextDrawableHelper.java:44 | Those bounds and that division equation leave exactly one remainder and one quotient, so the contract pins down Java's `%`. |
| Platform.JavaRemAgrees | app/src/main/java/com/example/messenger/utils/TextDrawableHelper.java:44 | Java's `%` equals the Euclidean one on a non-negative dividend, and negating the dividend negates the remainder. |
| Chats.Chat.constructor | app/src/main/java/com/example/messenger/Chat.java:12-21 | The empty constructor: not a group, an empty favourite list and no unread counts. |
| Chats.Chat.FromDocument | app/src/main/java/com/example/messenger/ChatListActivity.java:177 | `toObject(Chat.class)`: every field holds the document's value. |
| Chats.Chat.OfParticipants | app/src/main/java/com/example/messenger/Chat.java:23-28 | The chat is a group exactly when it has more than two participants. The other fields keep their defaults. |
| Chats.Chat.WithGroup | app/src/main/java/com/example/messenger/Chat.java:30-36 | The given group flag and name are kept whatever the number of participants. |
| Chats.Chat.SetId | app/src/main/java/com/example/messenger/Chat.java:42-44 | Sets only the id. |
| Chats.Chat.SetParticipants | app/src/main/java/com/example/messenger/Chat.java:50-52 | Sets only the participants. |
| Chats.Chat.SetOtherUserName | app/src/main/java/com/example/messenger/Chat.java:58-60 | Sets only the other user's name. |
| Chats.Chat.SetLastMessageText | app/src/main/java/com/example/messenger/Chat.java:66-68 | Sets only the last-message text. |
| Chats.Chat.SetLastMessageTime | app/src/main/java/com/example/messenger/Chat.java:74-76 | Sets only the last-message time. |
| Chats.Chat.SetGroup | app/src/main/java/com/example/messenger/Chat.java:82-84 | Sets only the group flag. |
| Chats.Chat.SetGroupName | app/src/main/java/com/example/messenger/Chat.java:91-94 | Sets only the group name. |
| Chats.Chat.SetFavourite | app/src/main/java/com/example/messenger/Chat.java:100-102 | Sets only the favourite list. |
| Chats.Chat.SetUnreadCounts | app/src/main/java/com/example/messenger/Chat.java:108-110 | Sets only the unread counts. |
| Chats.FirstOther | app/src/main/java/com/example/messenger/ChatListActivity.java:188-194 | The first participant that is not the current user. It is `None` exactly when every participant is the current user. |
| Chats.FindOtherParticipant | app/src/main/java/com/example/messenger/ChatListActivity.java:188-194 | The loop that breaks at the first other participant returns `FirstOther`. |
| Users.DisplayName | app/src/main/java/com/example/messenger/User.java:39 | A non-blank name is kept. Otherwise the result is the '@'-free prefix of the email that stops at its first '@', and it fails only for an email made only of '@'. |
| Users.DisplayNameIdempotent | app/src/main/java/com/example/messenger/User.java:17-39 | The constructor stores the fallback name, and `getName` applies the fallback again. Doing so leaves the name unchanged. |
| Users.User.constructor | app/src/main/java/com/example/messenger/User.java:14-20 | Stores the fallback name. The user starts offline, last seen at the given clock reading. |
| Users.User.GetName | app/src/main/java/com/example/messenger/User.java:38-40 | The stored name is passed through the same fallback each time it is read, so a blank stored name is shown as the email's local part. |
| Users.User.SetUid | app/src/main/java/com/example/messenger/User.java:26-28 | Sets only the uid. |
| Users.User.SetEmail | app/src/main/java/com/example/messenger/User.java:34-36 | Sets only the email. |
| Users.User.SetName | app/src/main/java/com/example/messenger/User.java:42-44 | Sets only the name. |
| Users.User.SetOnline | app/src/main/java/com/example/messenger/User.java:50-52 | Sets only the online flag. |
| Users.User.SetLastSeen | app/src/main/java/com/example/messenger/User.java:58-60 | Sets only the last-seen time. |
| Users.UserList.constructor | app/src/main/java/com/example/messenger/NewChatActivity.java:55 | The shared user list starts empty. |
| Messages.Message.FromDocument | app/src/main/java/com/example/messenger/ChatActivity.java:145 | `toObject(Message.class)`: every field holds the document's value. |
| Messages.Message.Outgoing | app/src/main/java/com/example/messenger/Message.java:17-22 | A new message has status "sent", one of the three documented statuses, and no id or chat id yet. |
| Messages.Message.SetId | app/src/main/java/com/example/messenger/Message.java:28-30 | Sets only the id. |
| Messages.Message.SetChatId | app/src/main/java/com/example/messenger/Message.java:36-38 | Sets only the chat id. |
| Messages.Message.SetSenderId | app/src/main/java/com/example/messenger/Message.java:44-46 | Sets only the sender. |
| Messages.Message.SetText | app/src/main/java/com/example/messenger/Message.java:52-54 | Sets only the text. |
| Messages.Message.SetTimestamp | app/src/main/java/com/example/messenger/Message.java:60-62 | Sets only the timestamp. |
| Messages.Message.SetStatus | app/src/main/java/com/example/messenger/Message.java:68-70 | Sets only the status. |
| Messages.MessageList.constructor | app/src/main/java/com/example/messenger/ChatActivity.java:99 | The shared message list starts empty. |
| Messages.MessageList.Insert | app/src/main/java/com/example/messenger/ChatActivity.java:168 | `add(i, m)` inserts at `i`, keeping every other element in order. |
| Messages.MessageList.Set | app/src/main/java/com/example/messenger/ChatActivity.java:181 | `set(i, m)` replaces one element. |
| Messages.MessageList.Remove | app/src/main/java/com/example/messenger/ChatActivity.java:189 | `remove(i)` deletes one element, keeping the rest in order. |
| Messages.MessageIndex | app/src/main/java/com/example/messenger/ChatActivity.java:227-234 | The first position with the id. It is -1 exactly when no message has that id. |
| Store.WithStatus | app/src/main/java/com/example/messenger/MessageAdapter.java:88-95 | `update("status", s)` changes the status of the document with that key only. Keys, order and every other field are kept, so is the time order, and a missing key changes nothing. |
| Store.LastIsNewest | app/src/main/java/com/example/messenger/MessageAdapter.java:171-175 | With the documents in time order, the last one is a newest one: what the `timestamp`-descending `limit(1)` query returns. |
| Store.AppendInTimeOrder | app/src/main/java/com/example/messenger/ChatActivity.java:306-315 | Adding a message whose time is not earlier than any stored one keeps the time order. |
| Store.KeepIfInTimeOrder | app/src/main/java/com/example/messenger/MessageAdapter.java:217-222 | Deleting documents keeps the time order of the others. |
| TextDrawable.Initial | app/src/main/java/com/example/messenger/utils/TextDrawableHelper.java:30 | "?" for a missing or empty name, otherwise the upper-cased first character. |
| TextDrawable.InitialOfFirstChar | app/src/main/java/com/example/messenger/utils/TextDrawableHelper.java:30 | The initial depends only on the first character. |
| TextDrawable.HashCode | app/src/main/java/com/example/messenger/utils/TextDrawableHelper.java:43 | `String.hashCode` stays within the `int` range. |
| TextDrawable.HashCodeClosedForm | app/src/main/java/com/example/messenger/utils/TextDrawableHelper.java:43 | `hashCode` equals the documented sum `s[0]*31^(n-1) + ... + s[n-1]` wrapped to the `int` range modulo 2^32. |
| TextDrawable.ColorIndexAsWritten | app/src/main/java/com/example/messenger/utils/TextDrawableHelper.java:43-44 | The index as written. It fails exactly when the name's hash code is `Integer.MIN_VALUE`; otherwise it is a valid palette index, 0 for a missing name. |
| TextDrawable.MinValueNameCrashes | app/src/main/java/com/example/messenger/utils/TextDrawableHelper.java:43-44 | "polygenelubricants" hashes to `Integer.MIN_VALUE`, so the colour lookup fails for that name. |
| TextDrawable.ColorIndex | app/src/main/java/com/example/messenger/utils/TextDrawableHelper.java:43-44 | The intended index, `abs(hash % 9)`, is always a valid palette index. |
| TextDrawable.ColorIndexAgrees | app/src/main/java/com/example/messenger/utils/TextDrawableHelper.java:43-44 | Wherever the written index does not fail, it equals the intended one. |
| TextDrawable.ColorFor | app/src/main/java/com/example/messenger/utils/TextDrawableHelper.java:37-45 | The avatar colour is always one of the nine palette colours, and the first for a missing name. |
| ChatListAdapters.SearchViewSpec | app/src/main/java/com/example/messenger/ChatListAdapter.java:139-162 | The search keeps exactly the chats whose group name or other-user name contains the lower-cased text, keeps them in list order, and keeps everything for the empty text. |
| ChatListAdapters.ClickIntent | app/src/main/java/com/example/messenger/ChatListAdapter.java:108-131 | A group opens by id and group name. A direct chat opens with the first other participant, and does not open when there is none. |
| ChatListAdapters.ClickIntentOpens | app/src/main/java/com/example/messenger/ChatListAdapter.java:108-131 | Every click on a chat with an id that opens something produces extras the chat screen accepts. |
| ChatListAdapters.ChatListAdapter.constructor | app/src/main/java/com/example/messenger/ChatListAdapter.java:31-38 | Both the full list and the shown list are the given list. |
| ChatListAdapters.ChatListAdapter.Filter | app/src/main/java/com/example/messenger/ChatListAdapter.java:139-162 | The shown rows become the search view of the full list, and the full list is untouched. |
| ChatListAdapters.ChatListAdapter.MatchingChats | app/src/main/java/com/example/messenger/ChatListAdapter.java:144-159 | The loop collects exactly the search view, in order, using objects from the full list. |
| ChatListAdapters.ChatListAdapter.SetChats | app/src/main/java/com/example/messenger/ChatListAdapter.java:164-168 | Both lists become the given chats, so an active search is dropped. |
| ChatListAdapters.ChatListAdapter.OnItemClick | app/src/main/java/com/example/messenger/ChatListAdapter.java:108-131 | The click handler opens `ClickIntent` of the row's chat. |
| ChatListActivities.OtherUserNameSpec | app/src/main/java/com/example/messenger/ChatListActivity.java:186-201 | A direct chat is named by the `userNames` entry of the first other participant. It is "?" when there is no such participant or no such entry. |
| ChatListActivities.Prepared | app/src/main/java/com/example/messenger/ChatListActivity.java:177-202 | The chat built from a change takes the document id. When the document has an unread count for the current user, that count is put into the map, and no other count changes. A direct chat gets the other user's name. |
| ChatListActivities.ChatIndex | app/src/main/java/com/example/messenger/ChatListActivity.java:263-270 | The first position with the id. It is -1 exactly when no chat has that id. |
| ChatListActivities.AddedNewInserts | app/src/main/java/com/example/messenger/ChatListActivity.java:205-212 | ADDED for a new id inserts at the new index, where the id then occurs once, and the rest of the list is unchanged. It fails exactly when the index is out of range. |
| ChatListActivities.AddedPresentReplaces | app/src/main/java/com/example/messenger/ChatListActivity.java:213-219 | ADDED for a known id replaces that entry in place. |
| ChatListActivities.ModifiedMoves | app/src/main/java/com/example/messenger/ChatListActivity.java:221-230 | MODIFIED moves the entry to the new index and keeps the length. It fails exactly when the index is outside the shortened list. |
| ChatListActivities.ModifiedAbsentAdds | app/src/main/java/com/example/messenger/ChatListActivity.java:231-236 | MODIFIED for an unknown id behaves as ADDED. |
| ChatListActivities.RemovedDeletes | app/src/main/java/com/example/messenger/ChatListActivity.java:238-246 | REMOVED deletes the entry with the id, or changes nothing, and never fails. Afterwards the id is absent. |
| ChatListActivities.RemovedIdempotent | app/src/main/java/com/example/messenger/ChatListActivity.java:238-246 | Applying a REMOVED change twice is the same as applying it once. |
| ChatListActivities.ChatChangeKeepsUnique | app/src/main/java/com/example/messenger/ChatListActivity.java:204-247 | Every change keeps the chat ids of the list distinct. |
| ChatListActivities.ApplyAllStopsAtCrash | app/src/main/java/com/example/messenger/ChatListActivity.java:176-248 | Once a change fails, no later change of the snapshot is applied. |
| ChatListActivities.ApplyAllKeepsUnique | app/src/main/java/com/example/messenger/ChatListActivity.java:176-248 | A whole snapshot keeps the chat ids distinct. |
| ChatListActivities.TabViewSpec | app/src/main/java/com/example/messenger/ChatListActivity.java:414-452 | The Groups tab keeps exactly the groups, Favourites keeps exactly the chats the user marked, and any other tab keeps everything, all in list order. |
| ChatListActivities.Checked | app/src/main/java/com/example/messenger/ChatListActivity.java:493-497 | The selection holds only offered users, and is empty exactly when no box is checked. |
| ChatListActivities.GroupRequest | app/src/main/java/com/example/messenger/ChatListActivity.java:489-503 | Nothing is created for a blank name or an empty selection. Otherwise the group has the trimmed name and at least two participants, the current user first and then only offered users. |
| ChatListActivities.ChatListActivity.constructor | app/src/main/java/com/example/messenger/ChatListActivity.java:89-147 | An empty list shared with a new adapter, the "All" tab selected, and the Create Group button hidden. |
| ChatListActivities.ChatListActivity.FindChatIndex | app/src/main/java/com/example/messenger/ChatListActivity.java:263-270 | The loop returns `ChatIndex` of the list. |
| ChatListActivities.ChatListActivity.GroupChats | app/src/main/java/com/example/messenger/ChatListActivity.java:427-434 | The loop collects exactly the Groups tab view. |
| ChatListActivities.ChatListActivity.FavouriteChats | app/src/main/java/com/example/messenger/ChatListActivity.java:435-442 | The loop collects exactly the Favourites tab view. |
| ChatListActivities.ChatListActivity.FilterChatsByTab | app/src/main/java/com/example/messenger/ChatListActivity.java:414-452 | The adapter is handed the current tab's view of the list. The button shows exactly on the Groups tab. |
| ChatListActivities.ChatListActivity.TabChats | app/src/main/java/com/example/messenger/ChatListActivity.java:424-450 | The chats kept for the current tab are the tab's view of the list: group chats on Groups, the user's favourites on Favourites, and every chat otherwise, including when no tab is set. Every kept chat is one of the list's own objects. |
| ChatListActivities.ChatListActivity.OnTabSelected | app/src/main/java/com/example/messenger/ChatListActivity.java:136-139 | The selected tab becomes current and the view is rebuilt for it. |
| ChatListActivities.ChatListActivity.PrepareChat | app/src/main/java/com/example/messenger/ChatListActivity.java:177-202 | The listener's chat object has the fields `Prepared` gives. |
| ChatListActivities.ChatListActivity.InsertChat | app/src/main/java/com/example/messenger/ChatListActivity.java:210 | `add(index, chat)` inserts in range and fails out of range. |
| ChatListActivities.ChatListActivity.RemoveChat | app/src/main/java/com/example/messenger/ChatListActivity.java:226 | `remove(index)` deletes exactly that entry. |
| ChatListActivities.ChatListActivity.ApplyToList | app/src/main/java/com/example/messenger/ChatListActivity.java:204-247 | The switch on the change kind performs the list surgery `Reconcile` specifies. It reports a change exactly when the listener re-filters. |
| ChatListActivities.ChatListActivity.ApplyChange | app/src/main/java/com/example/messenger/ChatListActivity.java:176-247 | One pass of the loop follows `ApplyChatChange` and keeps the ids distinct. Any change to the list re-filters the tab view and sets the Create-group button for the tab. A crash, or removing an id that is not listed, leaves the adapter and the button as they were. |
| ChatListActivities.ChatListActivity.ApplyChanges | app/src/main/java/com/example/messenger/ChatListActivity.java:176-247 | The loop over the changes of one snapshot: the list becomes `ApplyAll` of the changes up to the first crash, ids stay distinct, and the button is either unchanged or matches the tab. |
| ChatListActivities.ChatListActivity.OnChatsSnapshot | app/src/main/java/com/example/messenger/ChatListActivity.java:168-258 | An error changes nothing: the list, both adapter lists and the button are kept. A null snapshot clears the list and sets the button for the tab. Otherwise the changes apply in order up to the first failure; without a failure the adapter shows the whole list whatever the tab. Chat ids stay distinct throughout. |
| ChatListActivities.ChatListActivity.OnAllUsersLoaded | app/src/main/java/com/example/messenger/ChatListActivity.java:455-461 | The loaded users replace the earlier ones. |
| ChatListActivities.ChatListActivity.GroupCandidates | app/src/main/java/com/example/messenger/ChatListActivity.java:477-485 | The dialog offers the loaded users except the current one, in order, up to the first other user whose `getName()` throws; it reports a crash exactly when there is such a user. |
| ChatListActivities.CandidatesLoop | app/src/main/java/com/example/messenger/ChatListActivity.java:477-485 | The check-box loop on ids and names: the ids kept are those before the first failing name, without the current user, and the loop fails exactly when such a name exists. |
| ChatListActivities.ListablePrefix | app/src/main/java/com/example/messenger/ChatListActivity.java:478-480 | The length of the longest prefix of users whose row can be built: each is the current user or has a name, and the next is neither. |
| ChatListActivities.ChatListActivity.OnCreateGroupConfirmed | app/src/main/java/com/example/messenger/ChatListActivity.java:489-518 | No chat is built exactly when `GroupRequest` refuses. Otherwise the chat is a group with the requested name and participants, and with "Group created" as its text. |
| ChatListActivities.ChatListActivity.OnGroupCreated | app/src/main/java/com/example/messenger/ChatListActivity.java:525-529 | The Groups tab ends up selected. From another tab the adapter shows the group view and the button appears; when Groups was already selected, `select()` reselects it and the adapter and button are unchanged. |
| MessageAdapters.ViewType | app/src/main/java/com/example/messenger/MessageAdapter.java:40-48 | A row is drawn as sent exactly when the current user sent it. |
| MessageAdapters.MarkReadOnce | app/src/main/java/com/example/messenger/MessageAdapter.java:74-77 | Once a receipt is stored, binding the row again writes nothing. The user's own messages never get a receipt. |
| MessageAdapters.VisibleTailSummarySpec | app/src/main/java/com/example/messenger/MessageAdapter.java:114-215 | The intended summary is that of the newest message the user has not hidden. It is ("", null) when they have hidden every message. |
| MessageAdapters.ForMeSummaryAgreement | app/src/main/java/com/example/messenger/MessageAdapter.java:176-207 | The written summary is the intended one whenever the newest message is not hidden, or every message is hidden. |
| MessageAdapters.ForMeSummaryClearsVisibleMessage | app/src/main/java/com/example/messenger/MessageAdapter.java:188-199 | A two-message chat whose newer message was just hidden: the written summary is cleared although the older message is still visible. |
| MessageAdapters.DeleteForEveryoneSummary | app/src/main/java/com/example/messenger/MessageAdapter.java:217-243 | After delete-for-everyone, exactly the other messages remain. The summary is that of the last of them, or ("", null) when none remain. With the documents in time order, the rest stays in order and no remaining message is later than the summary. |
| MessageAdapters.VisibleTailIsNewest | app/src/main/java/com/example/messenger/MessageAdapter.java:171-207 | With the documents in time order, no message the user can see is later than the visible summary. |
| MessageAdapters.MessageAdapter.constructor | app/src/main/java/com/example/messenger/MessageAdapter.java:32-38 | The adapter holds the chat screen's own list object. |
| MessageAdapters.MessageAdapter.ItemCount | app/src/main/java/com/example/messenger/MessageAdapter.java:250-253 | The row count is the size of the list shared with the chat screen. |
| MessageAdapters.MessageAdapter.GetItemViewType | app/src/main/java/com/example/messenger/MessageAdapter.java:40-48 | The row type is `ViewType` of the row's message. |
| MessageAdapters.MessageAdapter.OnBindViewHolder | app/src/main/java/com/example/messenger/MessageAdapter.java:63-95 | Binding writes the "read" status for an unread message from someone else, and writes nothing otherwise. The time order of the documents is kept. |
| MessageAdapters.MessageAdapter.OnLongClick | app/src/main/java/com/example/messenger/MessageAdapter.java:80-85 | Delete options are offered exactly to the sender. |
| MessageAdapters.MessageAdapter.FindMessageIndex | app/src/main/java/com/example/messenger/MessageAdapter.java:267-274 | The loop returns `MessageIndex`, given that every message has an id. |
| MessageAdapters.MessageAdapter.DeleteMessageForEveryone | app/src/main/java/com/example/messenger/MessageAdapter.java:217-248 | The document with the key is gone, the time order of the rest is kept, and the chat summary is that of the last remaining message or ("", null). |
| MessageAdapters.MessageAdapter.NewestVisible | app/src/main/java/com/example/messenger/MessageAdapter.java:133-160 | A search from the newest message down returns the summary of the newest message the user has not hidden. |
| MessageAdapters.MessageAdapter.DeleteMessageForMe | app/src/main/java/com/example/messenger/MessageAdapter.java:114-215 | Only the user's marker is added. When the message was the last row, the summary becomes the newest message the user still sees; otherwise the chat is untouched. |
| MessageAdapters.MessageAdapter.RefreshForMeSummary | app/src/main/java/com/example/messenger/MessageAdapter.java:171-208 | The intended final query (see "## Findings"): the chat summary becomes the newest message the user still sees, or is cleared when there is none; nothing else in the chat changes. |
| ChatActivities.InsertIndex | app/src/main/java/com/example/messenger/ChatActivity.java:237-245 | The first position holding a strictly later message, or the end. No earlier message is later. |
| ChatActivities.InsertKeepsAscending | app/src/main/java/com/example/messenger/ChatActivity.java:163-168 | Inserting at `InsertIndex` keeps a list in timestamp order. |
| ChatActivities.ReplaceKeepsAscending | app/src/main/java/com/example/messenger/ChatActivity.java:176-186 | Replacing a shown message by one with the same timestamp keeps the list in timestamp order. |
| ChatActivities.RemoveKeepsAscending | app/src/main/java/com/example/messenger/ChatActivity.java:194-201 | Removing a message keeps a list in timestamp order. |
| ChatActivities.AddedMessageInserts | app/src/main/java/com/example/messenger/ChatActivity.java:163-175 | ADDED inserts a message the user has not hidden at its timestamp position, without a duplicate check, and skips a hidden one. |
| ChatActivities.ModifiedMessage | app/src/main/java/com/example/messenger/ChatActivity.java:176-193 | MODIFIED replaces a present message in place, or removes it when hidden. An absent message is ignored. |
| ChatActivities.RemovedMessage | app/src/main/java/com/example/messenger/ChatActivity.java:194-201 | REMOVED deletes the first message with the id, or changes nothing. |
| ChatActivities.ChangeKeepsAscending | app/src/main/java/com/example/messenger/ChatActivity.java:162-202 | Every change keeps the list in timestamp order, provided a MODIFIED change to a shown message keeps its timestamp. |
| ChatActivities.ModifiedCanUnsort | app/src/main/java/com/example/messenger/ChatActivity.java:176-186 | A MODIFIED change that gives a shown message a later timestamp leaves the list unsorted. |
| ChatActivities.SortByTimestampSpec | app/src/main/java/com/example/messenger/ChatActivity.java:209-215 | The initial-load sort orders by timestamp, is a permutation, and leaves an ordered list unchanged. |
| ChatActivities.SortByTimestampStable | app/src/main/java/com/example/messenger/ChatActivity.java:209-215 | The sort is stable: the messages with any one timestamp keep their relative order. |
| ChatActivities.InsertKeepsTimeGroups | app/src/main/java/com/example/messenger/ChatActivity.java:209-215 | Inserting a message before every later one adds it at the end of its own timestamp group and leaves every other group as it was. |
| ChatActivities.SortByTime | app/src/main/java/com/example/messenger/ChatActivity.java:212-215 | The sort rearranges the same message objects, and their values are `SortByTimestamp` of the input. |
| ChatActivities.Incremented | app/src/main/java/com/example/messenger/ChatActivity.java:318-333 | Each selected count goes up by one, a missing count counting from 0. Every other count is unchanged. |
| ChatActivities.SendIncrementsOthers | app/src/main/java/com/example/messenger/ChatActivity.java:318-333 | Sending raises every other participant's unread count by one. The sender's count and all non-participants' counts are unchanged. |
| ChatActivities.ReadReceipts | app/src/main/java/com/example/messenger/ChatActivity.java:247-258 | Each document gets its receipt, and the order is kept. |
| ChatActivities.ReadReceiptsSpec | app/src/main/java/com/example/messenger/ChatActivity.java:247-258 | After opening, no message from someone else is still "sent". Only status fields change, so the time order is kept, and applying the receipts again changes nothing. |
| ChatActivities.ToggledSpec | app/src/main/java/com/example/messenger/ChatActivity.java:371-389 | The toggle touches no other user's entry. When the user occurs at most once, the toggle flips their membership, and toggling twice restores the same entries. |
| ChatActivities.ChatActivity.constructor | app/src/main/java/com/example/messenger/ChatActivity.java:52-102 | The screen finishes exactly when the chat id, or for a direct chat the other user's id, is missing. The message list is shared with a new adapter. |
| ChatActivities.ChatActivity.FindMessageIndex | app/src/main/java/com/example/messenger/ChatActivity.java:227-234 | The loop returns `MessageIndex` of the list. |
| ChatActivities.ChatActivity.FindMessageInsertIndex | app/src/main/java/com/example/messenger/ChatActivity.java:237-245 | The loop returns `InsertIndex` of the list. |
| ChatActivities.ChatActivity.PrepareMessage | app/src/main/java/com/example/messenger/ChatActivity.java:145-147 | The message built from a change takes the document key as id and the screen's chat id. |
| ChatActivities.ChatActivity.InsertMessage | app/src/main/java/com/example/messenger/ChatActivity.java:167-168 | The message is inserted at its `InsertIndex`. |
| ChatActivities.ChatActivity.ReplaceMessage | app/src/main/java/com/example/messenger/ChatActivity.java:181 | One position is replaced. |
| ChatActivities.ChatActivity.RemoveMessage | app/src/main/java/com/example/messenger/ChatActivity.java:189 | One position is removed. |
| ChatActivities.ChatActivity.OnDeletedForResult | app/src/main/java/com/example/messenger/ChatActivity.java:155-203 | The list follows `ApplyMessageChange` for the change and the lookup's answer. |
| ChatActivities.ChatActivity.ApplyAdded | app/src/main/java/com/example/messenger/ChatActivity.java:163-175 | An ADDED message the user has not hidden is inserted at its timestamp position; a hidden one leaves the list as it was. |
| ChatActivities.ChatActivity.ApplyModified | app/src/main/java/com/example/messenger/ChatActivity.java:176-193 | A MODIFIED message that is shown replaces its row when the user has not hidden it and is removed when the user has; a message not shown changes nothing. |
| ChatActivities.ChatActivity.ApplyRemoved | app/src/main/java/com/example/messenger/ChatActivity.java:194-201 | A REMOVED message that is shown is taken out of the list; otherwise the list is unchanged. |
| ChatActivities.ChatActivity.OnMessagesSnapshot | app/src/main/java/com/example/messenger/ChatActivity.java:133-221 | On the initial load the list is sorted by timestamp as a permutation of the same objects. Otherwise it is unchanged. |
| ChatActivities.ChatActivity.OthersOf | app/src/main/java/com/example/messenger/ChatActivity.java:322-329 | The loop collects every participant other than the sender. |
| ChatActivities.ChatActivity.SendMessage | app/src/main/java/com/example/messenger/ChatActivity.java:290-349 | Blank input writes nothing. Otherwise the chat summary is updated, the message is appended with its key, chat id and "sent", the other participants' counts go up, and the input is cleared. Each failure stops at the step it hits. A message time not earlier than any stored one keeps the documents in time order. |
| ChatActivities.ChatActivity.BumpUnread | app/src/main/java/com/example/messenger/ChatActivity.java:316-333 | Every other participant's unread count goes up by one, and the rest of the chat stays as the summary update left it. |
| ChatActivities.ChatActivity.MarkMessagesAsRead | app/src/main/java/com/example/messenger/ChatActivity.java:247-263 | The documents become their read receipts, keeping their time order, and the user's unread count becomes 0. |
| ChatActivities.ChatActivity.ToggleFavourite | app/src/main/java/com/example/messenger/ChatActivity.java:371-389 | The flag is set exactly when the user was not in the stored list, whether or not the update succeeds. A successful update makes the stored list `Toggled`; a failed one leaves the chat document unchanged, so the flag and the stored list can then disagree. |
| ChatActivities.ChatActivity.OnFavouriteLoaded | app/src/main/java/com/example/messenger/ChatActivity.java:114-125 | The lookup can only switch the flag on, and does so exactly when the user is in the stored list. |
| NewChats.EmptyQueryMatches | app/src/main/java/com/example/messenger/NewChatActivity.java:119 | The empty query matches every name. |
| NewChats.NamedPrefix | app/src/main/java/com/example/messenger/NewChatActivity.java:94-98 | The loops stop at the first user whose name cannot be computed, and every earlier name can be. |
| NewChats.MatchingOnlyMatches | app/src/main/java/com/example/messenger/NewChatActivity.java:117-123 | Every user the search keeps has a matching name. |
| NewChats.MatchingKeepsMatches | app/src/main/java/com/example/messenger/NewChatActivity.java:117-123 | Every user with a matching name is kept. |
| NewChats.MatchingSubsequence | app/src/main/java/com/example/messenger/NewChatActivity.java:117-123 | The search keeps the result order, and the empty query keeps everyone. |
| NewChats.SearchLoop | app/src/main/java/com/example/messenger/NewChatActivity.java:117-123 | The loop keeps the matching users up to the first failing name, and reports the failure. |
| NewChats.LoadLoop | app/src/main/java/com/example/messenger/NewChatActivity.java:94-98 | The loop keeps every user up to the first failing name, and reports the failure. |
| NewChats.NewChatActivity.constructor | app/src/main/java/com/example/messenger/NewChatActivity.java:55-57 | An empty list shared with a new adapter. |
| NewChats.NewChatActivity.OnUsersSnapshot | app/src/main/java/com/example/messenger/NewChatActivity.java:84-103 | An error changes nothing, and a null snapshot leaves the list empty. Otherwise the list is the snapshot's users up to the first failing name. |
| NewChats.NewChatActivity.OnSearchResults | app/src/main/java/com/example/messenger/NewChatActivity.java:114-125 | The list becomes the matching users up to the first failing name. |
| UserAdapters.StopIndex | app/src/main/java/com/example/messenger/UserAdapter.java:59-66 | The loop stops at the first chat that contains the other user or has null participants. |
| UserAdapters.LookupResultSpec | app/src/main/java/com/example/messenger/UserAdapter.java:58-69 | The chat opened is the first that contains the other user. A new chat is created exactly when none does. |
| UserAdapters.GroupMatches | app/src/main/java/com/example/messenger/UserAdapter.java:61 | A group containing the other user is opened as their direct chat. |
| UserAdapters.UserAdapter.constructor | app/src/main/java/com/example/messenger/UserAdapter.java:26-31 | The adapter holds the screen's own list object. |
| UserAdapters.UserAdapter.ItemCount | app/src/main/java/com/example/messenger/UserAdapter.java:112-115 | The row count is the size of the shared list. |
| UserAdapters.UserAdapter.CreateOrOpenChat | app/src/main/java/com/example/messenger/UserAdapter.java:58-69 | The loop returns `LookupResult`. |
| UserAdapters.UserAdapter.CreateNewChat | app/src/main/java/com/example/messenger/UserAdapter.java:74-94 | The new chat has the two users, "Chat started", the current time, and both display names, with "" for a missing current-user document. No chat is written exactly when one of the two names cannot be computed. |
| UserAdapters.UserAdapter.OpenChat | app/src/main/java/com/example/messenger/UserAdapter.java:104-110 | Opens a direct chat with the other user that the chat screen accepts. |
| GroupParticipantsAdapters.DirectChatIndex | app/src/main/java/com/example/messenger/GroupParticipantsAdapter.java:63-72 | The first chat with exactly two participants including the clicked one, or -1 when there is none. |
| GroupParticipantsAdapters.DirectChatIsPair | app/src/main/java/com/example/messenger/GroupParticipantsAdapter.java:63-72 | Since every chat found includes the current user, the found chat is exactly the pair of them. |
| GroupParticipantsAdapters.LookupsDiffer | app/src/main/java/com/example/messenger/GroupParticipantsAdapter.java:64-72 | A group containing "b" is opened by the new-chat screen but is not a direct chat here. |
| GroupParticipantsAdapters.GroupParticipantsAdapter.constructor | app/src/main/java/com/example/messenger/GroupParticipantsAdapter.java:25-29 | The adapter holds the given participants. |
| GroupParticipantsAdapters.GroupParticipantsAdapter.ItemCount | app/src/main/java/com/example/messenger/GroupParticipantsAdapter.java:98-101 | The row count is the number of participants. |
| GroupParticipantsAdapters.GroupParticipantsAdapter.FindDirectChat | app/src/main/java/com/example/messenger/GroupParticipantsAdapter.java:63-72 | The loop that breaks finds the chat at `DirectChatIndex`, or none. |
| GroupParticipantsAdapters.GroupParticipantsAdapter.OnParticipantClick | app/src/main/java/com/example/messenger/GroupParticipantsAdapter.java:49-95 | Clicking oneself does nothing. Otherwise the click opens the direct chat found, or creates a non-group chat of the two users with empty text and no time and opens that. Every opened chat is direct with the participant. |
| Logins.IsValidEmail | app/src/main/java/com/example/messenger/LoginActivity.java:126-128 | An email is valid only when it is non-empty and matches the pattern. |
| Logins.BlankNamePasses | app/src/main/java/com/example/messenger/LoginActivity.java:155-164 | Any non-empty name made of blanks passes validation. The account is then stored under the local part of the trimmed email, not under the typed name. |
| Logins.LoginActivity.constructor | app/src/main/java/com/example/messenger/LoginActivity.java:51-56 | A signed-in user is sent on at once. The form starts empty, with no errors and both buttons enabled. |
| Logins.LoginActivity.ValidateInputs | app/src/main/java/com/example/messenger/LoginActivity.java:105-124 | The inputs are valid exactly when all three checks pass. Each failing field gets its error, and no error is cleared. |
| Logins.LoginActivity.OnEmailFocusChange | app/src/main/java/com/example/messenger/LoginActivity.java:80-86 | Leaving the field with an invalid email shows the error, and any other focus change clears it. |
| Logins.LoginActivity.OnPasswordFocusChange | app/src/main/java/com/example/messenger/LoginActivity.java:88-94 | Leaving the field with fewer than 6 characters shows the error, and any other focus change clears it. |
| Logins.LoginActivity.OnNameFocusChange | app/src/main/java/com/example/messenger/LoginActivity.java:96-102 | Leaving the field empty shows the error, and any other focus change clears it. |
| Logins.LoginActivity.OnSubmit | app/src/main/java/com/example/messenger/LoginActivity.java:59-73 | Each invalid field gets its error message and a valid field keeps its error. The request is sent exactly when the inputs are valid, and then both buttons are disabled. Otherwise the buttons are unchanged. |
| Logins.LoginActivity.OnLoginResult | app/src/main/java/com/example/messenger/LoginActivity.java:140-152 | Success hands over to the chat list. Failure enables both buttons again. |
| Logins.LoginActivity.OnRegisterResult | app/src/main/java/com/example/messenger/LoginActivity.java:155-188 | The user document has the trimmed email and the fallback of the trimmed name. Saving it finishes the screen, and any failure enables both buttons again. When the account is created but the name cannot be computed, the callback throws: the buttons stay disabled and the screen is not finished. |
| ProfileSettings.ProfileSettingsActivity.constructor | app/src/main/java/com/example/messenger/ProfileSettingsActivity.java:64-73 | While loading, the progress shows and the button is disabled. |
| ProfileSettings.ProfileSettingsActivity.ShowLoading | app/src/main/java/com/example/messenger/ProfileSettingsActivity.java:149-157 | The progress shows exactly when the button is disabled. |
| ProfileSettings.ProfileSettingsActivity.OnUserLoaded | app/src/main/java/com/example/messenger/ProfileSettingsActivity.java:77-86 | The field shows the loaded name and the avatar its initial and palette colour, and loading ends. It crashes exactly when `getName()` or the palette index throws; the name field is set only if `getName()` returned, and the avatar and loading state are then kept. |
| ProfileSettings.ProfileSettingsActivity.OnLoadFailed | app/src/main/java/com/example/messenger/ProfileSettingsActivity.java:87-91 | Loading ends. |
| ProfileSettings.ProfileSettingsActivity.SaveProfile | app/src/main/java/com/example/messenger/ProfileSettingsActivity.java:94-112 | Nothing happens while a save is in flight or for a blank name. Otherwise saving starts, the button is disabled, and the trimmed name is sent. |
| ProfileSettings.ProfileSettingsActivity.HandleSaveComplete | app/src/main/java/com/example/messenger/ProfileSettingsActivity.java:144-147 | Saving ends and the button is enabled. |
| ProfileSettings.ProfileSettingsActivity.OnSaveSucceeded | app/src/main/java/com/example/messenger/ProfileSettingsActivity.java:120-135 | The button is enabled, but `isSaving` is outside the method's frame and stays set. Confirming the dialog closes the screen. |
| ProfileSettings.ProfileSettingsActivity.OnSaveFailed | app/src/main/java/com/example/messenger/ProfileSettingsActivity.java:137-141 | A failed save ends the save. |
| ProfileSettings.ProfileSettingsActivity.OnSupportNavigateUp | app/src/main/java/com/example/messenger/ProfileSettingsActivity.java:159-166 | Back navigation closes the screen exactly when no save is in flight. |
| ProfileSettings.ProfileSettingsActivity.OnDestroy | app/src/main/java/com/example/messenger/ProfileSettingsActivity.java:168-172 | Closing the screen always ends any save. |
| ProfileSettings.SavedNameKept | app/src/main/java/com/example/messenger/ProfileSettingsActivity.java:114-116 | A saved name is non-blank once trimmed, so the stored user keeps it rather than falling back to the email. |

## Left out

- Firestore, Firebase Auth and the network are left out: queries, listeners and completion callbacks are not modelled. Their answers are method parameters, and each callback is applied when the caller says, one at a time.
- The order in which callbacks arrive is not modelled. The `deletedFor` lookups of one messages snapshot can answer in any order, and the caller chooses it by the order of its `OnDeletedForResult` calls. The initial-load sort is taken to run before any of those answers, because `runOnUiThread` on the main thread runs at once.
- Rendering is left out: view holders, bitmaps, date formatting, scrolling, toolbar titles, toasts, logging, animations, menus and navigation between screens.
- ChatListActivity: several functions are not modelled because they only write fixed or test data to the database, or only show data:
  - `onResume` registering a second listener;
  - `resetData` / `createTestUsers`;
  - `createUserIfNotExists`;
  - `createChatIfNotExists`;
  - the hard-coded `createParentChatDocument` call;
  - `showGroupInfoDialog`;
  - the profile menu and dialog;
  - `setUserOnlineStatus`.
- ChatActivity: `createChatIfNotExists` has no caller and is not modelled. `showGroupInfoDialog` only builds the dialog whose adapter is modelled. The unused `updatedMessageList` copy is not modelled.
- ChatActivities.ChatActivity.constructor: it builds the list and adapter even when the screen finishes at once. The Java code returns before building them, and nothing uses them afterwards.
- ChatActivities.SortByTime: this is a stable insertion sort with the app's comparator (`SortByTimestampStable`). It equals `List.sort` when every message has a timestamp. With missing timestamps the comparator is not a consistent order, and the result of Java's sort is not pinned down.
- ChatActivities.ChatActivity.SendMessage: a failure of the unread-count read, and a failure of the id/timestamp update of the new message, are not modelled. Both are taken to succeed. The unread counts are incremented over the participants stored in the chat document.
- MessageAdapters.MessageAdapter.DeleteMessageForMe: this models the intended summary, the newest message the user still sees, as the Findings row explains. The `limit(10)` loop that also writes summaries (MessageAdapter.java lines 133-162) races with the final query, and is not modelled.
- MessageAdapters.MessageAdapter.RefreshForMeSummary: this is the corrected final query of `deleteMessageForMe`; the code's `limit(1)` query, which clears the summary when the newest message is the one just hidden, is `ForMeSummaryAsWritten`.
- Logins.IsValidEmail: `Patterns.EMAIL_ADDRESS` is a parameter, because the platform pattern is not part of this model.
- Platform.ToLower: `toLowerCase` and `toUpperCase` map only ASCII letters. Locale-dependent Unicode case mapping is not modelled.
- Timestamps are integers. Server timestamps and device clock readings are parameters.
- ChatActivities.ChatActivity.SendMessage: keeps `Store.InTimeOrder` only when the server time given to the new message is not earlier than any stored one; that the server clock does not go backwards is a premise of the model, not something it shows. The store's initial contents are likewise taken to be in time order where a lemma asks for it.
- Strings are sequences of Unicode characters, not of UTF-16 code units. The three members below differ from Java only on characters outside the Basic Multilingual Plane.
- TextDrawable.HashCode: Java's `String.hashCode` folds in the two surrogate code units of such a character; the model folds in one code point.
- TextDrawable.Initial: Java's `charAt(0)` gives the high surrogate alone for such a character; the model gives the whole character.
- Logins.PasswordOk: Java's `length()` counts such a character twice; the model counts it once.
- ChatListActivities.ChatListActivity.OnGroupCreated: the second snapshot listener that `loadChats()` registers is not modelled, since listener registration is left out; its first snapshot is an ordinary `OnChatsSnapshot` call.
- ChatListActivities.ChatListActivity.OnChatsSnapshot: after a crash the adapter lists are stated only to be unchanged or to show the whole chat list, because the exception ends the listener wherever it is thrown.
- Unread counts are unbounded integers rather than Java `long`.
- ChatListActivities.ChatListActivity.constructor: it models `onCreate` for a signed-in user. Redirecting a signed-out user to the login screen is not modelled.
- UserAdapters.UserAdapter.OpenChat: it does not model `finish()` of the new-chat screen.
- `WakeWordManager`, `WakeWordService`, `SplashActivity`, `MessengerApplication` and `ErrorHandler` are not part of this model.

## Findings

| source | as written | input that shows it | evidently intended | confidence | as-written member | corrected member |
|---|---|---|---|---|---|---|
| app/src/main/java/com/example/messenger/utils/TextDrawableHelper.java:43-44 | `Math.abs(name.hashCode()) % colors.length` is negative when the hash code is `Integer.MIN_VALUE`, and indexing the palette then throws | the name "polygenelubricants", whose hash code is `Integer.MIN_VALUE` | a palette index in 0..8 for every name, e.g. `Math.abs(hash % 9)` | high, not executed | TextDrawable.MinValueNameCrashes | TextDrawable.ColorFor |
| app/src/main/java/com/example/messenger/MessageAdapter.java:171-207 | after the newest row is deleted for me, the final `limit(1)` query reads the newest message. That message is the one just hidden, so the chat summary is cleared | messages "hello" (older) and "bye" (newer); "bye" is deleted for me | the summary shows the newest message the user has not hidden ("hello") | high, not executed | MessageAdapters.ForMeSummaryClearsVisibleMessage | MessageAdapters.MessageAdapter.DeleteMessageForMe |

=== FILE: chat.dfy ===
/** The chat bean: one document of the `chats` collection as the app holds it,
    with the three constructors, the `isGroup` derivation and the setters, plus
    the participant lookup every screen repeats. */
module Chats {
  import opened Platform

  /** The fields of a chat, as a value. A Firestore chat document is read as
      one of these; a `Chat` object exposes its current fields as one. */
  datatype ChatValue = ChatValue(
    id: Option<string>,
    participants: seq<string>,
    otherUserName: Option<string>,
    lastMessageText: string,
    lastMessageTime: Option<Timestamp>,
    isGroup: bool,
    groupName: Option<string>,
    favourite: Option<seq<string>>,
    unreadCounts: map<string, int>)

  /** The field values of a chat built by the empty constructor. Java leaves
      `participants` and `lastMessageText` null there; the model has no null
      list or text and uses the empty ones, and every chat the app reads is
      then filled in from its document. */
  const DefaultChat: ChatValue :=
    ChatValue(None, [], None, "", None, false, None, Some([]), map[])

  class Chat {
    var id: Option<string>
    var participants: seq<string>
    var otherUserName: Option<string>
    var lastMessageText: string
    var lastMessageTime: Option<Timestamp>
    var isGroup: bool
    var groupName: Option<string>
    var favourite: Option<seq<string>>
    var unreadCounts: map<string, int>

    /** The current fields of this chat. */
    function Value(): ChatValue
      reads this
    {
      ChatValue(id, participants, otherUserName, lastMessageText, lastMessageTime,
                isGroup, groupName, favourite, unreadCounts)
    }

    /** The empty constructor Firestore uses: not a group, no favourites and
        no unread counts. */
    constructor ()
      ensures Value() == DefaultChat
      ensures !isGroup && favourite == Some([]) && unreadCounts == map[]
    {
      id := None;
      participants := [];
      otherUserName := None;
      lastMessageText := "";
      lastMessageTime := None;
      isGroup := false;
      groupName := None;
      favourite := Some([]);
      unreadCounts := map[];
    }

    /** `toObject(Chat.class)`: the empty constructor followed by one setter
        per stored field, so every field holds the document's value. */
    constructor FromDocument(doc: ChatValue)
      ensures Value() == doc
    {
      id := doc.id;
      participants := doc.participants;
      otherUserName := doc.otherUserName;
      lastMessageText := doc.lastMessageText;
      lastMessageTime := doc.lastMessageTime;
      isGroup := doc.isGroup;
      groupName := doc.groupName;
      favourite := doc.favourite;
      unreadCounts := doc.unreadCounts;
    }

    /** The three-argument constructor: a chat is a group exactly when it has
        more than two participants. The other fields keep their defaults. */
    constructor OfParticipants(ps: seq<string>, text: string, time: Option<Timestamp>)
      ensures participants == ps && lastMessageText == text && lastMessageTime == time
      ensures isGroup <==> |ps| > 2
      ensures id == None && otherUserName == None && groupName == None
      ensures favourite == Some([]) && unreadCounts == map[]
    {
      id := None;
      participants := ps;
      otherUserName := None;
      lastMessageText := text;
      lastMessageTime := time;
      isGroup := |ps| > 2;
      groupName := None;
      favourite := Some([]);
      unreadCounts := map[];
    }

    /** The five-argument constructor keeps the given group flag and name
        whatever the number of participants. */
    constructor WithGroup(ps: seq<string>, text: string, time: Option<Timestamp>,
                          group: bool, name: Option<string>)
      ensures participants == ps && lastMessageText == text && lastMessageTime == time
      ensures isGroup == group && groupName == name
      ensures id == None && otherUserName == None
      ensures favourite == Some([]) && unreadCounts == map[]
    {
      id := None;
      participants := ps;
      otherUserName := None;
      lastMessageText := text;
      lastMessageTime := time;
      isGroup := group;
      groupName := name;
      favourite := Some([]);
      unreadCounts := map[];
    }

    method SetId(v: Option<string>)
      modifies this`id
      ensures id == v
    {
      id := v;
    }

    method SetParticipants(v: seq<string>)
      modifies this`participants
      ensures participants == v
    {
      participants := v;
    }

    method SetOtherUserName(v: Option<string>)
      modifies this`otherUserName
      ensures otherUserName == v
    {
      otherUserName := v;
    }

    method SetLastMessageText(v: string)
      modifies this`lastMessageText
      ensures lastMessageText == v
    {
      lastMessageText := v;
    }

    method SetLastMessageTime(v: Option<Timestamp>)
      modifies this`lastMessageTime
      ensures lastMessageTime == v
    {
      lastMessageTime := v;
    }

    method SetGroup(v: bool)
      modifies this`isGroup
      ensures isGroup == v
    {
      isGroup := v;
    }

    method SetGroupName(v: Option<string>)
      modifies this`groupName
      ensures groupName == v
    {
      groupName := v;
    }

    method SetFavourite(v: Option<seq<string>>)
      modifies this`favourite
      ensures favourite == v
    {
      favourite := v;
    }

    method SetUnreadCounts(v: map<string, int>)
      modifies this`unreadCounts
      ensures unreadCounts == v
    {
      unreadCounts := v;
    }
  }

  /** The fields of every chat of `s`, in order. */
  function ChatValues(s: seq<Chat>): (r: seq<ChatValue>)
    reads s
    ensures |r| == |s|
    ensures forall i :: 0 <= i < |s| ==> r[i] == s[i].Value()
  {
    seq(|s|, i requires 0 <= i < |s| reads s => s[i].Value())
  }

  lemma ChatValuesAppend(s: seq<Chat>, c: Chat)
    ensures ChatValues(s + [c]) == ChatValues(s) + [c.Value()]
  {
    assert (s + [c])[..|s|] == s;
  }

  lemma ChatValuesPrefix(s: seq<Chat>, i: nat)
    requires i < |s|
    ensures ChatValues(s[..i + 1]) == ChatValues(s[..i]) + [s[i].Value()]
  {
    assert s[..i + 1] == s[..i] + [s[i]];
    ChatValuesAppend(s[..i], s[i]);
  }

  lemma ChatValuesInsert(s: seq<Chat>, i: nat, c: Chat)
    requires i <= |s|
    ensures ChatValues(InsertAt(s, i, c)) == InsertAt(ChatValues(s), i, c.Value())
  {
  }

  lemma ChatValuesRemove(s: seq<Chat>, i: nat)
    requires i < |s|
    ensures ChatValues(RemoveAt(s, i)) == RemoveAt(ChatValues(s), i)
  {
  }

  lemma ChatValuesUpdate(s: seq<Chat>, i: nat, c: Chat)
    requires i < |s|
    ensures ChatValues(s[i := c]) == ChatValues(s)[i := c.Value()]
  {
  }

  /** A document of a chats query as the adapters read it: its key and its
      `participants` field, which is null when the field is missing. */
  datatype ChatDoc = ChatDoc(id: string, participants: Option<seq<string>>)

  /** The extras a chat screen is started with: `chatId`, `otherUserId`,
      `isGroup` (false when absent) and `groupName`. */
  datatype ChatIntent = ChatIntent(
    chatId: Option<string>,
    otherUserId: Option<string>,
    isGroup: bool,
    groupName: Option<string>)

  /** The chat screen stays open only with a chat id and, for a direct chat,
      the other user's id; otherwise it finishes at once. */
  predicate Opens(intent: ChatIntent)
  {
    intent.chatId.Some? && (intent.isGroup || intent.otherUserId.Some?)
  }

  /** The first participant that is not `uid`, or `None` when every
      participant is `uid`. */
  function FirstOther(ps: seq<string>, uid: string): (r: Option<string>)
    ensures r.None? <==> forall i :: 0 <= i < |ps| ==> ps[i] == uid
    ensures r.Some? ==> r.value != uid && exists i :: FirstOtherIndex(ps, uid, i) && ps[i] == r.value
  {
    if ps == [] then None
    else if ps[0] != uid then Some(ps[0])
    else
      var r := FirstOther(ps[1..], uid);
      if r.Some? then
        var i :| FirstOtherIndex(ps[1..], uid, i) && ps[1..][i] == r.value;
        assert FirstOtherIndex(ps, uid, i + 1);
        r
      else r
  }

  /** `ps[i]` is the first participant that is not `uid`. */
  predicate FirstOtherIndex(ps: seq<string>, uid: string, i: int)
  {
    0 <= i < |ps| && ps[i] != uid && forall j :: 0 <= j < i ==> ps[j] == uid
  }

  /** The loop over the participants, breaking at the first one that is not
      the current user. */
  method FindOtherParticipant(ps: seq<string>, uid: string) returns (r: Option<string>)
    ensures r == FirstOther(ps, uid)
  {
    r := None;
    var i := 0;
    while i < |ps|
      invariant 0 <= i <= |ps|
      invariant forall j :: 0 <= j < i ==> ps[j] == uid
    {
      if ps[i] != uid {
        r := Some(ps[i]);
        FirstOtherAt(ps, uid, i);
        return;
      }
      i := i + 1;
    }
  }

  /** When every participant before `i` is `uid` and `ps[i]` is not, the first
      other participant is `ps[i]`. */
  lemma {:induction false} FirstOtherAt(ps: seq<string>, uid: string, i: nat)
    requires i < |ps| && ps[i] != uid
    requires forall j :: 0 <= j < i ==> ps[j] == uid
    ensures FirstOther(ps, uid) == Some(ps[i])
  {
    if i > 0 {
      FirstOtherAt(ps[1..], uid, i - 1);
    }
  }
}

=== FILE: chat_activity.dfy ===
/** The chat screen: how the changes reported by the messages query are
    applied to the message list, the sort on the initial load, sending a
    message, the read receipts and unread-count reset on opening, and the
    favourite toggle. */
module ChatActivities {
  import opened Platform
  import opened Chats
  import opened Messages
  import opened Store
  import opened MessageAdapters

  /** One document change of the messages query: its kind, the document key
      and the document as a message. */
  datatype MessageChange = MessageChange(kind: ChangeKind, docId: string, doc: MessageValue)

  /** The message the listener builds: the document with its key as id and
      the screen's chat id. */
  function PreparedMessage(ch: MessageChange, chatId: Option<string>): MessageValue
  {
    ch.doc.(id := Some(ch.docId), chatId := chatId)
  }

  /** `m` is strictly later than a message with timestamp `t`; a missing
      timestamp on either side is never later. */
  predicate Later(m: MessageValue, t: Option<Timestamp>)
  {
    t.Some? && m.timestamp.Some? && t.value < m.timestamp.value
  }

  /** `findMessageInsertIndex`: the first position holding a message later
      than `t`, or the size when there is none. */
  function InsertIndex(s: seq<MessageValue>, t: Option<Timestamp>): (r: nat)
    ensures r <= |s|
    ensures r < |s| ==> Later(s[r], t)
    ensures forall i :: 0 <= i < r ==> !Later(s[i], t)
  {
    if s == [] then 0
    else if Later(s[0], t) then 0
    else 1 + InsertIndex(s[1..], t)
  }

  /** Every two messages that both have a timestamp are in timestamp
      order. */
  predicate Ascending(s: seq<MessageValue>)
  {
    forall i, j :: 0 <= i < j < |s| && s[i].timestamp.Some? && s[j].timestamp.Some? ==>
      s[i].timestamp.value <= s[j].timestamp.value
  }

  /** Inserting at `InsertIndex` keeps a list in timestamp order, and puts a
      message after every earlier message with the same timestamp. */
  lemma InsertKeepsAscending(s: seq<MessageValue>, m: MessageValue)
    requires Ascending(s)
    ensures Ascending(InsertAt(s, InsertIndex(s, m.timestamp), m))
  {
    var k := InsertIndex(s, m.timestamp);
    var r := InsertAt(s, k, m);
    forall a, b | 0 <= a < b < |r| && r[a].timestamp.Some? && r[b].timestamp.Some?
      ensures r[a].timestamp.value <= r[b].timestamp.value
    {
      InsertAtElem(s, k, m, a);
      InsertAtElem(s, k, m, b);
      if a == k {
        // every later position holds a message at or after s[k], which is later than m
        assert Later(s[k], m.timestamp);
      } else if b == k {
        // every earlier position holds a message that is not later than m
        assert !Later(s[a], m.timestamp);
      }
    }
  }

  /** Removing a message keeps a list in timestamp order. */
  lemma RemoveKeepsAscending(s: seq<MessageValue>, i: nat)
    requires i < |s| && Ascending(s)
    ensures Ascending(RemoveAt(s, i))
  {
    var t := RemoveAt(s, i);
    RemoveAtIndex(s, i);
    forall a, b | 0 <= a < b < |t| && t[a].timestamp.Some? && t[b].timestamp.Some?
      ensures t[a].timestamp.value <= t[b].timestamp.value
    {
      assert t[a] == s[if a < i then a else a + 1];
      assert t[b] == s[if b < i then b else b + 1];
    }
  }

  /** The switch of the messages listener on one change, once the
      `deletedFor` lookup for the current user has answered `deleted`. */
  function ApplyMessageChange(s: seq<MessageValue>, kind: ChangeKind, id: string, m: MessageValue, deleted: bool)
    : seq<MessageValue>
  {
    var i := MessageIndex(s, id);
    match kind
    case Added => if deleted then s else InsertAt(s, InsertIndex(s, m.timestamp), m)
    case Modified => if i == -1 then s else if deleted then RemoveAt(s, i) else s[i := m]
    case Removed => if i == -1 then s else RemoveAt(s, i)
  }

  /** ADDED inserts a message the user has not hidden at its timestamp
      position, with no check for an existing id, and a hidden one not at
      all. */
  lemma AddedMessageInserts(s: seq<MessageValue>, id: string, m: MessageValue, deleted: bool)
    ensures var r := ApplyMessageChange(s, Added, id, m, deleted);
      && (deleted ==> r == s)
      && (!deleted ==>
            var k := InsertIndex(s, m.timestamp);
            |r| == |s| + 1 && r[k] == m && RemoveAt(r, k) == s)
  {
    if !deleted {
      RemoveAtInsertAt(s, InsertIndex(s, m.timestamp), m);
    }
  }

  /** MODIFIED replaces a present message in place, removes it when the user
      has hidden it, and ignores a message not in the list. */
  lemma ModifiedMessage(s: seq<MessageValue>, id: string, m: MessageValue, deleted: bool)
    ensures var r := ApplyMessageChange(s, Modified, id, m, deleted);
      var i := MessageIndex(s, id);
      && (i == -1 ==> r == s)
      && (i != -1 && !deleted ==> |r| == |s| && r[i] == m && forall j :: 0 <= j < |s| && j != i ==> r[j] == s[j])
      && (i != -1 && deleted ==> r == RemoveAt(s, i) && |r| == |s| - 1)
  {
  }

  /** REMOVED deletes the first message with the id, or changes nothing. */
  lemma RemovedMessage(s: seq<MessageValue>, id: string, m: MessageValue, deleted: bool)
    ensures var r := ApplyMessageChange(s, Removed, id, m, deleted);
      var i := MessageIndex(s, id);
      && (i == -1 ==> r == s)
      && (i != -1 ==> r == RemoveAt(s, i) && multiset(r) == multiset(s) - multiset{s[i]})
  {
  }

  /** Every change keeps the list in timestamp order, except a MODIFIED that
      moves a shown message to another timestamp, which is replaced where it
      stands. */
  lemma ChangeKeepsAscending(s: seq<MessageValue>, kind: ChangeKind, id: string, m: MessageValue, deleted: bool)
    requires Ascending(s)
    requires kind == Modified && !deleted && MessageIndex(s, id) != -1 ==>
      s[MessageIndex(s, id)].timestamp == m.timestamp
    ensures Ascending(ApplyMessageChange(s, kind, id, m, deleted))
  {
    var i := MessageIndex(s, id);
    var r := ApplyMessageChange(s, kind, id, m, deleted);
    if kind == Added && !deleted {
      assert r == InsertAt(s, InsertIndex(s, m.timestamp), m);
      InsertKeepsAscending(s, m);
    } else if kind != Added && i != -1 && (kind == Removed || deleted) {
      assert r == RemoveAt(s, i);
      RemoveKeepsAscending(s, i);
    } else if kind == Modified && i != -1 {
      assert r == s[i := m];
      ReplaceKeepsAscending(s, i, m);
    } else {
      assert r == s;
    }
  }

  /** Replacing a message by one with the same timestamp keeps a list in
      timestamp order. */
  lemma ReplaceKeepsAscending(s: seq<MessageValue>, i: nat, m: MessageValue)
    requires i < |s| && Ascending(s) && s[i].timestamp == m.timestamp
    ensures Ascending(s[i := m])
  {
    var t := s[i := m];
    assert forall a :: 0 <= a < |t| ==> t[a].timestamp == s[a].timestamp;
  }

  /** A MODIFIED change that gives a shown message a later timestamp leaves
      the list out of order. */
  lemma ModifiedCanUnsort()
    ensures var a := MessageValue(Some("a"), None, "u", "x", Some(1), None);
      var b := MessageValue(Some("b"), None, "u", "y", Some(2), None);
      && Ascending([a, b])
      && !Ascending(ApplyMessageChange([a, b], Modified, "a", a.(timestamp := Some(3)), false))
  {
    var a := MessageValue(Some("a"), None, "u", "x", Some(1), None);
    var b := MessageValue(Some("b"), None, "u", "y", Some(2), None);
    var r := ApplyMessageChange([a, b], Modified, "a", a.(timestamp := Some(3)), false);
    assert MessageIndex([a, b], "a") == 0;
    assert r[0].timestamp == Some(3) && r[1].timestamp == Some(2);
  }

  /** The initial-load sort: the messages inserted one by one, in list order,
      each at its `InsertIndex`, which is a stable sort by timestamp that
      leaves a message without a timestamp where the comparator puts it. */
  function SortByTimestamp(s: seq<MessageValue>): (r: seq<MessageValue>)
    ensures |r| == |s|
  {
    if s == [] then []
    else
      var t := SortByTimestamp(s[..|s| - 1]);
      InsertAt(t, InsertIndex(t, s[|s| - 1].timestamp), s[|s| - 1])
  }

  lemma SortByTimestampSnoc(s: seq<MessageValue>, m: MessageValue)
    ensures var t := SortByTimestamp(s);
      SortByTimestamp(s + [m]) == InsertAt(t, InsertIndex(t, m.timestamp), m)
  {
    assert (s + [m])[..|s|] == s;
  }

  /** The sort orders by timestamp, keeps every message, and leaves a list
      already in order as it is. */
  lemma {:induction false} SortByTimestampSpec(s: seq<MessageValue>)
    ensures Ascending(SortByTimestamp(s))
    ensures multiset(SortByTimestamp(s)) == multiset(s)
    ensures Ascending(s) ==> SortByTimestamp(s) == s
  {
    if s != [] {
      var n := |s| - 1;
      var p := s[..n];
      assert s == p + [s[n]];
      SortByTimestampSpec(p);
      var t := SortByTimestamp(p);
      InsertKeepsAscending(t, s[n]);
      if Ascending(s) {
        assert Ascending(p);
        assert InsertIndex(t, s[n].timestamp) == n;
      }
    }
  }

  /** The test for one timestamp value, a missing one included. */
  function AtTime(u: Option<Timestamp>): MessageValue -> bool
  {
    (m: MessageValue) => m.timestamp == u
  }

  /** No message at or after the insert position has the timestamp of the
      message being inserted. */
  lemma AfterInsertIndexDiffers(t: seq<MessageValue>, m: MessageValue)
    requires Ascending(t)
    ensures forall j :: InsertIndex(t, m.timestamp) <= j < |t| ==> t[j].timestamp != m.timestamp
  {
    var k := InsertIndex(t, m.timestamp);
    forall j | k <= j < |t|
      ensures t[j].timestamp != m.timestamp
    {
      assert Later(t[k], m.timestamp);
    }
  }

  /** Inserting at a position from which on no message has the new
      message's timestamp puts it after every message of the list with that
      timestamp, and moves none of them. */
  lemma InsertKeepsTimeGroups(t: seq<MessageValue>, k: nat, m: MessageValue, u: Option<Timestamp>)
    requires k <= |t|
    requires forall j :: k <= j < |t| ==> t[j].timestamp != m.timestamp
    ensures KeepIf(InsertAt(t, k, m), AtTime(u)) == KeepIf(t, AtTime(u)) + (if m.timestamp == u then [m] else [])
  {
    if m.timestamp == u {
      KeepIfInsertLast(t, k, m, AtTime(u));
    } else {
      KeepIfInsertFailing(t, k, m, AtTime(u));
    }
  }

  /** The sort is stable: for every timestamp, the messages that carry it
      come out in the order they came in. */
  lemma {:induction false} SortByTimestampStable(s: seq<MessageValue>, u: Option<Timestamp>)
    ensures KeepIf(SortByTimestamp(s), AtTime(u)) == KeepIf(s, AtTime(u))
  {
    if s != [] {
      var n := |s| - 1;
      var p := s[..n];
      assert s == p + [s[n]];
      SortByTimestampStable(p, u);
      SortByTimestampSpec(p);
      var sorted := SortByTimestamp(p);
      AfterInsertIndexDiffers(sorted, s[n]);
      InsertKeepsTimeGroups(sorted, InsertIndex(sorted, s[n].timestamp), s[n], u);
      KeepIfSnoc(p, s[n], AtTime(u));
    }
  }

  /** `List.sort` with the timestamp comparator, applied to the message
      objects themselves: the same objects, carrying the sorted fields. */
  method SortByTime(s: seq<Message>) returns (r: seq<Message>)
    ensures MessageValues(r) == SortByTimestamp(MessageValues(s))
    ensures multiset(r) == multiset(s)
  {
    r := [];
    var i := 0;
    assert MessageValues(s[..i]) == [];
    while i < |s|
      invariant 0 <= i <= |s|
      invariant MessageValues(r) == SortByTimestamp(MessageValues(s[..i]))
      invariant multiset(r) == multiset(s[..i])
    {
      var k := InsertIndex(MessageValues(r), s[i].timestamp);
      var next := InsertAt(r, k, s[i]);
      SortByTimeStep(s, i, r, next);
      r, i := next, i + 1;
    }
    assert s[..i] == s;
    assert MessageValues(s[..i]) == MessageValues(s);
  }

  /** One step of the loop above: inserting the next object keeps the values
      sorted and the objects a permutation of those seen so far. */
  lemma SortByTimeStep(s: seq<Message>, i: nat, r: seq<Message>, next: seq<Message>)
    requires i < |s|
    requires MessageValues(r) == SortByTimestamp(MessageValues(s[..i]))
    requires multiset(r) == multiset(s[..i])
    requires next == InsertAt(r, InsertIndex(MessageValues(r), s[i].timestamp), s[i])
    ensures MessageValues(next) == SortByTimestamp(MessageValues(s[..i + 1]))
    ensures multiset(next) == multiset(s[..i + 1])
  {
    var vr := MessageValues(r);
    var done := MessageValues(s[..i]);
    var x := s[i].Value();
    var k := InsertIndex(vr, s[i].timestamp);
    MessageValuesInsert(r, k, s[i]);
    assert MessageValues(InsertAt(r, k, s[i])) == InsertAt(vr, k, x);
    SortByTimestampSnoc(done, x);
    assert InsertAt(vr, k, x) == SortByTimestamp(done + [x]);
    MessageValuesPrefix(s, i);
    MultisetPrefix(s, i);
  }

  /** The ids of the participants to whom a message from `sender` is
      unread: every participant but the sender. */
  function Others(ps: seq<string>, sender: string): set<string>
  {
    set i | 0 <= i < |ps| && ps[i] != sender :: ps[i]
  }

  /** `FieldValue.increment(1)` on `unreadCounts.<k>` for every `k` of `ks`;
      a missing count counts from 0. */
  function Incremented(counts: map<string, int>, ks: set<string>): (r: map<string, int>)
    ensures forall k :: k in ks ==> k in r && r[k] == (if k in counts then counts[k] else 0) + 1
    ensures forall k :: k !in ks ==> (k in r <==> k in counts) && (k in counts ==> r[k] == counts[k])
  {
    map k | k in counts.Keys + ks :: if k in ks then (if k in counts then counts[k] else 0) + 1 else counts[k]
  }

  /** Sending raises the unread count of every other participant by one and
      leaves the sender's count and every non-participant's as it was. */
  lemma SendIncrementsOthers(counts: map<string, int>, ps: seq<string>, sender: string)
    ensures var r := Incremented(counts, Others(ps, sender));
      && (forall i :: 0 <= i < |ps| && ps[i] != sender ==>
            ps[i] in r && r[ps[i]] == (if ps[i] in counts then counts[ps[i]] else 0) + 1)
      && (sender in r <==> sender in counts)
      && (sender in counts ==> r[sender] == counts[sender])
      && (forall k :: k !in ps ==> (k in r <==> k in counts) && (k in counts ==> r[k] == counts[k]))
      && ((forall i :: 0 <= i < |ps| ==> ps[i] == sender) ==> r == counts)
  {
    var ks := Others(ps, sender);
    forall i | 0 <= i < |ps| && ps[i] != sender
      ensures ps[i] in ks
    {
    }
    if forall i :: 0 <= i < |ps| ==> ps[i] == sender {
      assert ks == {};
    }
  }

  /** The read receipt of the opening query for one document: a message of
      someone else with status "sent" becomes "read". */
  function Receipt(d: MessageDoc, uid: string): MessageDoc
  {
    if d.fields.senderId != uid && d.fields.status == Some(SENT)
    then d.(fields := d.fields.(status := Some(READ)))
    else d
  }

  function ReadReceipts(ds: seq<MessageDoc>, uid: string): (r: seq<MessageDoc>)
    ensures |r| == |ds|
    ensures forall i :: 0 <= i < |ds| ==> r[i] == Receipt(ds[i], uid)
  {
    seq(|ds|, i requires 0 <= i < |ds| => Receipt(ds[i], uid))
  }

  /** After opening, no message of someone else is left at "sent"; keys,
      order, texts and senders are unchanged, and the user's own messages
      and every message not at "sent" are untouched. */
  lemma ReadReceiptsSpec(ds: seq<MessageDoc>, uid: string)
    ensures var r := ReadReceipts(ds, uid);
      && (forall i :: 0 <= i < |r| && r[i].fields.senderId != uid ==> r[i].fields.status != Some(SENT))
      && (forall i :: 0 <= i < |r| ==>
            r[i].key == ds[i].key && r[i].fields.(status := ds[i].fields.status) == ds[i].fields)
      && (forall i :: 0 <= i < |r| && (ds[i].fields.senderId == uid || ds[i].fields.status != Some(SENT)) ==>
            r[i] == ds[i])
      && ReadReceipts(r, uid) == r
      && (InTimeOrder(ds) ==> InTimeOrder(r))
  {
    var r := ReadReceipts(ds, uid);
    assert forall i :: 0 <= i < |r| ==> Receipt(r[i], uid) == r[i];
  }

  /** The favourite list after a toggle: a missing list is empty; the
      current user is removed when present and added otherwise. */
  function Toggled(fav: Option<seq<string>>, uid: string): (r: seq<string>)
  {
    var f := if fav.Some? then fav.value else [];
    if uid in f then RemoveFirst(f, uid) else f + [uid]
  }

  /** The toggle touches no other user's entry; when the user occurred at
      most once, their membership flips, and toggling twice gives back the
      same entries. */
  lemma ToggledSpec(fav: Option<seq<string>>, uid: string)
    ensures var f := if fav.Some? then fav.value else [];
      var r := Toggled(fav, uid);
      && (forall x :: x != uid ==> multiset(r)[x] == multiset(f)[x])
      && (multiset(f)[uid] <= 1 ==> (uid in r <==> uid !in f))
      && (multiset(f)[uid] <= 1 ==> multiset(Toggled(Some(r), uid)) == multiset(f))
  {
    var f := if fav.Some? then fav.value else [];
    var r := Toggled(fav, uid);
    if uid in f {
      assert multiset(r) == multiset(f) - multiset{uid};
      if multiset(f)[uid] <= 1 {
        assert multiset(r)[uid] == 0;
        assert uid !in r;
        assert multiset(r + [uid]) == multiset(r) + multiset{uid};
      }
    } else {
      assert multiset(r) == multiset(f) + multiset{uid};
      assert uid in r;
      assert multiset(RemoveFirst(r, uid)) == multiset(r) - multiset{uid};
    }
  }

  class ChatActivity {
    const currentUserId: string
    const chatId: Option<string>
    const otherUserId: Option<string>
    const isGroup: bool
    const groupName: Option<string>
    /** `finish()` was called in `onCreate`. */
    const finished: bool
    /** The list object shared with the adapter. */
    const messages: MessageList
    const adapter: MessageAdapter
    var isFavourite: bool
    var inputText: string

    /** `onCreate`: the screen closes at once without a chat id or, for a
        direct chat, without the other user's id; otherwise an empty message
        list is shared with a new adapter. */
    constructor (uid: string, intent: ChatIntent)
      ensures finished <==> !Opens(intent)
      ensures currentUserId == uid && chatId == intent.chatId && otherUserId == intent.otherUserId
      ensures isGroup == intent.isGroup && groupName == intent.groupName
      ensures fresh(messages) && messages.items == []
      ensures fresh(adapter) && adapter.messages == messages
      ensures adapter.currentUserId == uid && adapter.chatId == chatId
      ensures !isFavourite && inputText == ""
    {
      currentUserId := uid;
      chatId := intent.chatId;
      otherUserId := intent.otherUserId;
      isGroup := intent.isGroup;
      groupName := intent.groupName;
      finished := intent.chatId.None? || (!intent.isGroup && intent.otherUserId.None?);
      var list := new MessageList();
      messages := list;
      adapter := new MessageAdapter(uid, list, intent.chatId);
      isFavourite := false;
      inputText := "";
    }

    /** `findMessageIndex`, which skips messages without an id. */
    method FindMessageIndex(id: string) returns (r: int)
      ensures r == MessageIndex(MessageValues(messages.items), id)
    {
      var i := 0;
      while i < |messages.items|
        invariant 0 <= i <= |messages.items|
        invariant forall j :: 0 <= j < i ==> messages.items[j].id != Some(id)
      {
        if messages.items[i].id.Some? && messages.items[i].id.value == id {
          return i;
        }
        i := i + 1;
      }
      return -1;
    }

    /** `findMessageInsertIndex`. */
    method FindMessageInsertIndex(t: Option<Timestamp>) returns (r: nat)
      ensures r == InsertIndex(MessageValues(messages.items), t)
    {
      var i := 0;
      while i < |messages.items|
        invariant 0 <= i <= |messages.items|
        invariant forall j :: 0 <= j < i ==> !Later(messages.items[j].Value(), t)
      {
        var ts := messages.items[i].timestamp;
        if t.Some? && ts.Some? && t.value < ts.value {
          assert Later(messages.items[i].Value(), t);
          return i;
        }
        i := i + 1;
      }
      return |messages.items|;
    }

    /** The message built from a change. */
    method PrepareMessage(ch: MessageChange) returns (m: Message)
      ensures fresh(m) && m.Value() == PreparedMessage(ch, chatId)
    {
      m := new Message.FromDocument(ch.doc);
      m.SetId(Some(ch.docId));
      m.SetChatId(chatId);
    }

    /** `messageList.add(findMessageInsertIndex(m), m)`. */
    method InsertMessage(m: Message)
      modifies messages
      ensures var s := old(MessageValues(messages.items));
        MessageValues(messages.items) == InsertAt(s, InsertIndex(s, m.timestamp), m.Value())
    {
      var k := FindMessageInsertIndex(m.timestamp);
      ghost var after := InsertAt(MessageValues(messages.items), k, m.Value());
      MessageValuesInsert(messages.items, k, m);
      assert MessageValues(InsertAt(messages.items, k, m)) == after;
      messages.Insert(k, m);
      assert MessageValues(messages.items) == after;
    }

    /** `messageList.set(i, m)`. */
    method ReplaceMessage(i: nat, m: Message)
      requires i < |messages.items|
      modifies messages
      ensures MessageValues(messages.items) == old(MessageValues(messages.items))[i := m.Value()]
    {
      MessageValuesUpdate(messages.items, i, m);
      messages.Set(i, m);
    }

    /** `messageList.remove(i)`. */
    method RemoveMessage(i: nat)
      requires i < |messages.items|
      modifies messages
      ensures MessageValues(messages.items) == RemoveAt(old(MessageValues(messages.items)), i)
    {
      MessageValuesRemove(messages.items, i);
      messages.Remove(i);
    }

    /** The callback of the `deletedFor` lookup of one change: the list
      follows `ApplyMessageChange`. */
    method OnDeletedForResult(ch: MessageChange, deleted: bool)
      modifies messages
      ensures MessageValues(messages.items) ==
        ApplyMessageChange(old(MessageValues(messages.items)), ch.kind, ch.docId, PreparedMessage(ch, chatId), deleted)
    {
      var m := PrepareMessage(ch);
      match ch.kind {
        case Added => ApplyAdded(ch.docId, m, deleted);
        case Modified => ApplyModified(ch.docId, m, deleted);
        case Removed => ApplyRemoved(ch.docId, m, deleted);
      }
    }

    /** The ADDED case of the listener's switch. */
    method ApplyAdded(id: string, m: Message, deleted: bool)
      modifies messages
      ensures MessageValues(messages.items) ==
        ApplyMessageChange(old(MessageValues(messages.items)), Added, id, m.Value(), deleted)
    {
      if !deleted {
        InsertMessage(m);
      }
    }

    /** The MODIFIED case of the listener's switch. */
    method ApplyModified(id: string, m: Message, deleted: bool)
      modifies messages
      ensures MessageValues(messages.items) ==
        ApplyMessageChange(old(MessageValues(messages.items)), Modified, id, m.Value(), deleted)
    {
      var i := FindMessageIndex(id);
      if !deleted && i != -1 {
        ReplaceMessage(i, m);
      } else if deleted && i != -1 {
        RemoveMessage(i);
      }
    }

    /** The REMOVED case of the listener's switch. */
    method ApplyRemoved(id: string, m: Message, deleted: bool)
      modifies messages
      ensures MessageValues(messages.items) ==
        ApplyMessageChange(old(MessageValues(messages.items)), Removed, id, m.Value(), deleted)
    {
      var i := FindMessageIndex(id);
      if i != -1 {
        RemoveMessage(i);
      }
    }

    /** The messages listener itself. The lookups it starts answer later,
      one `OnDeletedForResult` each; when every document of the snapshot
      is a change (the initial load) it sorts the list at once, before
      any of those answers. */
    method OnMessagesSnapshot(failed: bool, changeCount: nat, size: nat)
      modifies messages
      ensures !failed && changeCount == size ==>
        && MessageValues(messages.items) == SortByTimestamp(old(MessageValues(messages.items)))
        && multiset(messages.items) == multiset(old(messages.items))
      ensures failed || changeCount != size ==> messages.items == old(messages.items)
    {
      if !failed && changeCount == size {
        var sorted := SortByTime(messages.items);
        messages.items := sorted;
      }
    }

    /** The loop that collects the participants to notify. */
    method OthersOf(ps: seq<string>) returns (ks: set<string>)
      ensures ks == Others(ps, currentUserId)
    {
      ks := {};
      var i := 0;
      while i < |ps|
        invariant 0 <= i <= |ps|
        invariant ks == set j | 0 <= j < i && ps[j] != currentUserId :: ps[j]
      {
        if ps[i] != currentUserId {
          ks := ks + {ps[i]};
        }
        i := i + 1;
      }
    }

    /** `sendMessage`, with the device clock reading `now`, the server clock
      reading `serverTime` when the chat is updated and `messageTime` when
      the new document is updated, the key the new document gets, and
      whether the chat update and the add succeed. Blank input writes
      nothing. Otherwise the chat summary is updated; the message is added
      and then given its key, the chat id and the server time; every other
      participant's unread count goes up by one; the input is cleared. */
    method SendMessage(store: ChatStore, now: Timestamp, serverTime: Timestamp, messageTime: Timestamp,
                       newKey: string, chatUpdateOk: bool, addOk: bool)
      requires !finished
      modifies this`inputText, store`chat, store`messages
      ensures var text := Trim(old(inputText));
        && (text == [] || !chatUpdateOk ==>
              store.chat == old(store.chat) && store.messages == old(store.messages) && inputText == old(inputText))
        && (text != [] && chatUpdateOk && !addOk ==>
              store.chat == WithSummary(old(store.chat), Summary(text, Some(serverTime)))
              && store.messages == old(store.messages) && inputText == old(inputText))
        && (text != [] && chatUpdateOk && addOk ==>
              && store.messages == old(store.messages) +
                   [MessageDoc(newKey, MessageValue(Some(newKey), chatId, currentUserId, text, Some(messageTime), Some(SENT)))]
              && store.chat == WithSummary(old(store.chat), Summary(text, Some(serverTime))).(
                   unreadCounts := Incremented(old(store.chat).unreadCounts, Others(old(store.chat).participants, currentUserId)))
              && inputText == "")
      ensures (&& InTimeOrder(old(store.messages))
               && forall d :: d in old(store.messages) ==> NotLater(d.fields.timestamp, Some(messageTime)))
        ==> InTimeOrder(store.messages)
    {
      var text := Trim(inputText);
      if text == [] {
        return;
      }
      var message := new Message.Outgoing(currentUserId, text, Some(now));
      if !chatUpdateOk {
        return;
      }
      ghost var c0 := store.chat;
      var summarized := WithSummary(store.chat, Summary(text, Some(serverTime)));
      store.chat := summarized;
      if !addOk {
        return;
      }
      message.SetId(Some(newKey));
      message.SetChatId(chatId);
      message.SetTimestamp(Some(messageTime));
      var sent := MessageValue(Some(newKey), chatId, currentUserId, text, Some(messageTime), Some(SENT));
      assert message.Value() == sent;
      if InTimeOrder(store.messages) && forall d :: d in store.messages ==> NotLater(d.fields.timestamp, Some(messageTime)) {
        AppendInTimeOrder(store.messages, MessageDoc(newKey, sent));
      }
      store.messages := store.messages + [MessageDoc(newKey, sent)];
      assert summarized.participants == c0.participants && summarized.unreadCounts == c0.unreadCounts;
      BumpUnread(store, summarized);
      inputText := "";
    }

    /** The unread-count update of `sendMessage`, on the chat as the summary
      update left it: one more for every other participant, and no write
      when there is none. */
    method BumpUnread(store: ChatStore, summarized: ChatValue)
      requires store.chat == summarized
      modifies store`chat
      ensures store.chat == summarized.(unreadCounts := Incremented(summarized.unreadCounts, Others(summarized.participants, currentUserId)))
    {
      var others := OthersOf(summarized.participants);
      if others != {} {
        store.chat := summarized.(unreadCounts := Incremented(summarized.unreadCounts, others));
      } else {
        assert Incremented(summarized.unreadCounts, others) == summarized.unreadCounts;
      }
    }

    /** `markMessagesAsRead`: every message someone else sent that is still
      "sent" becomes "read", and the user's unread count is reset to 0. */
    method MarkMessagesAsRead(store: ChatStore)
      modifies store`messages, store`chat
      ensures store.messages == ReadReceipts(old(store.messages), currentUserId)
      ensures store.chat == old(store.chat).(unreadCounts := old(store.chat).unreadCounts[currentUserId := 0])
      ensures InTimeOrder(old(store.messages)) ==> InTimeOrder(store.messages)
    {
      ghost var ds := store.messages;
      var i := 0;
      while i < |store.messages|
        invariant 0 <= i <= |store.messages| && |store.messages| == |ds|
        invariant forall j :: 0 <= j < i ==> store.messages[j] == Receipt(ds[j], currentUserId)
        invariant forall j :: i <= j < |ds| ==> store.messages[j] == ds[j]
        invariant store.chat == old(store.chat)
      {
        var d := store.messages[i];
        if d.fields.senderId != currentUserId && d.fields.status == Some(SENT) {
          store.messages := store.messages[i := d.(fields := d.fields.(status := Some(READ)))];
        }
        i := i + 1;
      }
      ReadReceiptsSpec(ds, currentUserId);
      store.chat := store.chat.(unreadCounts := store.chat.unreadCounts[currentUserId := 0]);
    }

    /** `toggleFavourite`, from the answer of its `get`, with `updateOk` saying
        whether the `favourite` update succeeds. The flag is flipped before
        the update is sent, so a failed update (for instance on a chat
        document that does not exist) leaves the flag flipped and the
        stored list as it was. */
    method ToggleFavourite(store: ChatStore, updateOk: bool)
      modifies this`isFavourite, store`chat
      ensures store.chat == if updateOk
        then old(store.chat).(favourite := Some(Toggled(old(store.chat).favourite, currentUserId)))
        else old(store.chat)
      ensures var f := old(store.chat).favourite;
        isFavourite <==> !(f.Some? && currentUserId in f.value)
    {
      var fav := if store.chat.favourite.Some? then store.chat.favourite.value else [];
      if currentUserId in fav {
        fav := RemoveFirst(fav, currentUserId);
        isFavourite := false;
      } else {
        fav := fav + [currentUserId];
        isFavourite := true;
      }
      if updateOk {
        store.chat := store.chat.(favourite := Some(fav));
      }
    }

    /** The favourite lookup of `onCreate`: it can only switch the flag on. */
    method OnFavouriteLoaded(exists_: bool, fav: Option<seq<string>>)
      modifies this`isFavourite
      ensures isFavourite <==> old(isFavourite) || (exists_ && fav.Some? && currentUserId in fav.value)
    {
      if exists_ && fav.Some? && currentUserId in fav.value {
        isFavourite := true;
      }
    }
  }
}

=== FILE: chat_list_activity.dfy ===
/** The chat-list screen: how the changes reported by the chats query are
    applied to the in-memory chat list, the All/Groups/Favourites tab views
    handed to the adapter, and the group-creation dialog. */
module ChatListActivities {
  import opened Platform
  import opened Chats
  import opened Users
  import opened ChatListAdapters

  /** One document change of the chats query, reduced to what the listener
      reads from it: its kind, the document id, the document as a chat, the
      `unreadCounts.<uid>` entry, the `userNames` map and the new index. */
  datatype ChatChange = ChatChange(
    kind: ChangeKind,
    docId: string,
    doc: ChatValue,
    unreadCount: Option<int>,
    userNames: Option<map<string, string>>,
    newIndex: int)

  /** The name shown for a direct chat: the `userNames` entry of the first
      participant other than `uid`, or "?" when there is none. */
  function OtherUserName(ps: seq<string>, uid: string, names: Option<map<string, string>>): string
  {
    match FirstOther(ps, uid)
    case None => "?"
    case Some(o) => if names.Some? && o in names.value then names.value[o] else "?"
  }

  /** The name is looked up for the first participant that is not the current
      user, and is "?" when every participant is the current user. */
  lemma OtherUserNameSpec(ps: seq<string>, uid: string, names: Option<map<string, string>>)
    ensures (forall i :: 0 <= i < |ps| ==> ps[i] == uid) ==> OtherUserName(ps, uid, names) == "?"
    ensures forall i :: FirstOtherIndex(ps, uid, i) ==>
      OtherUserName(ps, uid, names) == (if names.Some? && ps[i] in names.value then names.value[ps[i]] else "?")
  {
    var r := FirstOther(ps, uid);
    if r.Some? {
      var k :| FirstOtherIndex(ps, uid, k) && ps[k] == r.value;
      assert forall i :: FirstOtherIndex(ps, uid, i) ==> i == k;
    }
  }

  /** The chat the listener builds from a change before applying it: the
      document id as its id, the current user's unread count put into the
      map when the document has one, and, for a direct chat, the other
      user's name. */
  function Prepared(ch: ChatChange, uid: string): (r: ChatValue)
    ensures r.id == Some(ch.docId)
    ensures r.(id := ch.doc.id, unreadCounts := ch.doc.unreadCounts, otherUserName := ch.doc.otherUserName) == ch.doc
    ensures ch.unreadCount.None? ==> r.unreadCounts == ch.doc.unreadCounts
    ensures ch.unreadCount.Some? ==> uid in r.unreadCounts && r.unreadCounts[uid] == ch.unreadCount.value
    ensures r.unreadCounts - {uid} == ch.doc.unreadCounts - {uid}
    ensures r.isGroup ==> r.otherUserName == ch.doc.otherUserName
    ensures !r.isGroup ==> r.otherUserName == Some(OtherUserName(r.participants, uid, ch.userNames))
  {
    var d := ch.doc.(id := Some(ch.docId));
    var d := if ch.unreadCount.Some? then d.(unreadCounts := d.unreadCounts[uid := ch.unreadCount.value]) else d;
    if d.isGroup then d
    else d.(otherUserName := Some(OtherUserName(d.participants, uid, ch.userNames)))
  }

  /** `findChatIndex`: the first position whose id is `id`, or -1. */
  function ChatIndex(s: seq<ChatValue>, id: string): (r: int)
    ensures -1 <= r < |s|
    ensures r == -1 <==> forall i :: 0 <= i < |s| ==> s[i].id != Some(id)
    ensures r >= 0 ==> s[r].id == Some(id) && forall i :: 0 <= i < r ==> s[i].id != Some(id)
  {
    if s == [] then -1
    else if s[0].id == Some(id) then 0
    else
      var r := ChatIndex(s[1..], id);
      if r == -1 then -1 else r + 1
  }

  /** No two chats of the list carry the same id. */
  predicate UniqueIds(s: seq<ChatValue>)
  {
    forall i, j :: 0 <= i < j < |s| && s[i].id.Some? ==> s[i].id != s[j].id
  }

  /** `s[k]` is the one chat of `s` whose id is `id`. */
  predicate OnlyAt(s: seq<ChatValue>, id: string, k: int)
  {
    0 <= k < |s| && s[k].id == Some(id) && forall j :: 0 <= j < |s| && j != k ==> s[j].id != Some(id)
  }

  /** The list after a change, and whether applying it threw: `add(index, x)`
      with an index outside `[0, size]` throws, which ends the listener. */
  datatype Outcome = Outcome(chats: seq<ChatValue>, crashed: bool)

  function InsertOrCrash(s: seq<ChatValue>, k: int, c: ChatValue): Outcome
  {
    if 0 <= k <= |s| then Outcome(InsertAt(s, k, c), false) else Outcome(s, true)
  }

  /** The switch of the chats listener on one change whose chat, once
      prepared, is `c`. */
  function Reconcile(s: seq<ChatValue>, kind: ChangeKind, id: string, newIndex: int, c: ChatValue): Outcome
  {
    var i := ChatIndex(s, id);
    match kind
    case Added =>
      if i == -1 then InsertOrCrash(s, newIndex, c) else Outcome(s[i := c], false)
    case Modified =>
      InsertOrCrash(if i == -1 then s else RemoveAt(s, i), newIndex, c)
    case Removed =>
      Outcome(if i == -1 then s else RemoveAt(s, i), false)
  }

  /** One change applied to the list of chat values. */
  function ApplyChatChange(s: seq<ChatValue>, ch: ChatChange, uid: string): Outcome
  {
    Reconcile(s, ch.kind, ch.docId, ch.newIndex, Prepared(ch, uid))
  }

  /** ADDED for an id not in the list inserts the chat at the new index and
      grows the list by one; the id then occurs exactly there. */
  lemma AddedNewInserts(s: seq<ChatValue>, ch: ChatChange, uid: string)
    requires ch.kind == Added && ChatIndex(s, ch.docId) == -1
    ensures var o := ApplyChatChange(s, ch, uid);
      && (o.crashed <==> !(0 <= ch.newIndex <= |s|))
      && (!o.crashed ==>
            && |o.chats| == |s| + 1
            && o.chats[ch.newIndex] == Prepared(ch, uid)
            && RemoveAt(o.chats, ch.newIndex) == s
            && OnlyAt(o.chats, ch.docId, ch.newIndex))
  {
    if 0 <= ch.newIndex <= |s| {
      var c := Prepared(ch, uid);
      RemoveAtInsertAt(s, ch.newIndex, c);
      var r := InsertAt(s, ch.newIndex, c);
      forall j | 0 <= j < |r| && j != ch.newIndex
        ensures r[j].id != Some(ch.docId)
      {
        if j < ch.newIndex {
          assert r[j] == r[..ch.newIndex][j];
        } else {
          assert r[j] == r[ch.newIndex + 1..][j - ch.newIndex - 1];
        }
      }
    }
  }

  /** ADDED for an id already in the list replaces that entry in place: the
      length and every other position are unchanged, and the id still
      occurs once. */
  lemma AddedPresentReplaces(s: seq<ChatValue>, ch: ChatChange, uid: string)
    requires ch.kind == Added && UniqueIds(s)
    requires ChatIndex(s, ch.docId) != -1
    ensures var i := ChatIndex(s, ch.docId);
      var o := ApplyChatChange(s, ch, uid);
      && !o.crashed
      && o.chats == s[i := Prepared(ch, uid)]
      && OnlyAt(o.chats, ch.docId, i)
  {
  }

  /** MODIFIED for an id in the list moves it: the new chat sits at the new
      index, the rest of the list is what it was without the old entry, and
      the length is unchanged. */
  lemma ModifiedMoves(s: seq<ChatValue>, ch: ChatChange, uid: string)
    requires ch.kind == Modified && UniqueIds(s)
    requires ChatIndex(s, ch.docId) != -1
    ensures var i := ChatIndex(s, ch.docId);
      var o := ApplyChatChange(s, ch, uid);
      && (o.crashed <==> !(0 <= ch.newIndex < |s|))
      && (!o.crashed ==>
            && |o.chats| == |s|
            && o.chats[ch.newIndex] == Prepared(ch, uid)
            && RemoveAt(o.chats, ch.newIndex) == RemoveAt(s, i)
            && OnlyAt(o.chats, ch.docId, ch.newIndex))
  {
    var i := ChatIndex(s, ch.docId);
    var t := RemoveAt(s, i);
    forall j | 0 <= j < |t|
      ensures t[j].id != Some(ch.docId)
    {
      if j < i {
        assert t[j] == t[..i][j] == s[j];
      } else {
        assert t[j] == t[i..][j - i] == s[j + 1];
      }
    }
    assert ChatIndex(t, ch.docId) == -1;
    AddedNewInserts(t, ch.(kind := Added), uid);
  }

  /** MODIFIED for an id not in the list falls back to ADDED. */
  lemma ModifiedAbsentAdds(s: seq<ChatValue>, ch: ChatChange, uid: string)
    requires ch.kind == Modified && ChatIndex(s, ch.docId) == -1
    ensures ApplyChatChange(s, ch, uid) == ApplyChatChange(s, ch.(kind := Added), uid)
  {
    assert Prepared(ch, uid) == Prepared(ch.(kind := Added), uid);
  }

  /** REMOVED deletes the entry with the id if there is one and otherwise
      changes nothing; it never throws, and afterwards the id is gone. */
  lemma RemovedDeletes(s: seq<ChatValue>, ch: ChatChange, uid: string)
    requires ch.kind == Removed && UniqueIds(s)
    ensures var o := ApplyChatChange(s, ch, uid);
      && !o.crashed
      && (ChatIndex(s, ch.docId) == -1 ==> o.chats == s)
      && (ChatIndex(s, ch.docId) != -1 ==> o.chats == RemoveAt(s, ChatIndex(s, ch.docId)))
      && ChatIndex(o.chats, ch.docId) == -1
  {
    var i := ChatIndex(s, ch.docId);
    if i != -1 {
      var t := RemoveAt(s, i);
      forall j | 0 <= j < |t|
        ensures t[j].id != Some(ch.docId)
      {
        if j < i {
          assert t[j] == t[..i][j] == s[j];
        } else {
          assert t[j] == t[i..][j - i] == s[j + 1];
        }
      }
    }
  }

  /** Applying the same REMOVED change twice is applying it once. */
  lemma RemovedIdempotent(s: seq<ChatValue>, ch: ChatChange, uid: string)
    requires ch.kind == Removed && UniqueIds(s)
    ensures var o := ApplyChatChange(s, ch, uid);
      ApplyChatChange(o.chats, ch, uid) == o
  {
    RemovedDeletes(s, ch, uid);
  }

  /** Removing an entry keeps the ids distinct. */
  lemma RemoveKeepsUnique(s: seq<ChatValue>, i: nat)
    requires i < |s| && UniqueIds(s)
    ensures UniqueIds(RemoveAt(s, i))
  {
    var t := RemoveAt(s, i);
    RemoveAtIndex(s, i);
    forall a, b | 0 <= a < b < |t| && t[a].id.Some?
      ensures t[a].id != t[b].id
    {
      assert t[a] == s[if a < i then a else a + 1];
      assert t[b] == s[if b < i then b else b + 1];
    }
  }

  /** Inserting a chat whose id is absent keeps the ids distinct. */
  lemma InsertKeepsUnique(s: seq<ChatValue>, k: nat, c: ChatValue)
    requires k <= |s| && UniqueIds(s)
    requires c.id.Some? && ChatIndex(s, c.id.value) == -1
    ensures UniqueIds(InsertAt(s, k, c))
  {
    var t := InsertAt(s, k, c);
    InsertAtIndex(s, k, c);
    forall a, b | 0 <= a < b < |t| && t[a].id.Some?
      ensures t[a].id != t[b].id
    {
      if a == k {
        assert t[b] == s[b - 1];
      } else if b == k {
        assert t[a] == s[a];
      } else {
        assert t[a] == s[if a < k then a else a - 1];
        assert t[b] == s[if b < k then b else b - 1];
      }
    }
  }

  /** Every change keeps the ids of the list distinct. */
  lemma ChatChangeKeepsUnique(s: seq<ChatValue>, ch: ChatChange, uid: string)
    requires UniqueIds(s)
    ensures UniqueIds(ApplyChatChange(s, ch, uid).chats)
  {
    var c := Prepared(ch, uid);
    var i := ChatIndex(s, ch.docId);
    match ch.kind
    case Added =>
      if i == -1 && 0 <= ch.newIndex <= |s| {
        InsertKeepsUnique(s, ch.newIndex, c);
      }
    case Modified =>
      if i == -1 {
        if 0 <= ch.newIndex <= |s| {
          InsertKeepsUnique(s, ch.newIndex, c);
        }
      } else {
        RemoveKeepsUnique(s, i);
        RemovedDeletes(s, ch.(kind := Removed), uid);
        if 0 <= ch.newIndex < |s| {
          InsertKeepsUnique(RemoveAt(s, i), ch.newIndex, c);
        }
      }
    case Removed =>
      if i != -1 {
        RemoveKeepsUnique(s, i);
      }
  }

  /** The changes of one snapshot, in order, stopping at the first that
      throws. */
  function ApplyAll(s: seq<ChatValue>, cs: seq<ChatChange>, uid: string): Outcome
  {
    if cs == [] then Outcome(s, false)
    else
      var o := ApplyAll(s, cs[..|cs| - 1], uid);
      if o.crashed then o else ApplyChatChange(o.chats, cs[|cs| - 1], uid)
  }

  lemma ApplyAllSnoc(s: seq<ChatValue>, cs: seq<ChatChange>, k: nat, uid: string)
    requires k < |cs|
    ensures var o := ApplyAll(s, cs[..k], uid);
      ApplyAll(s, cs[..k + 1], uid) == if o.crashed then o else ApplyChatChange(o.chats, cs[k], uid)
  {
    assert cs[..k + 1][..k] == cs[..k];
  }

  /** Once a change has thrown, the later changes are never applied. */
  lemma {:induction false} ApplyAllStopsAtCrash(s: seq<ChatValue>, cs: seq<ChatChange>, k: nat, uid: string)
    requires k <= |cs| && ApplyAll(s, cs[..k], uid).crashed
    ensures ApplyAll(s, cs, uid) == ApplyAll(s, cs[..k], uid)
  {
    if k < |cs| {
      assert cs[..|cs| - 1][..k] == cs[..k];
      ApplyAllStopsAtCrash(s, cs[..|cs| - 1], k, uid);
    } else {
      assert cs[..k] == cs;
    }
  }

  /** A whole snapshot keeps the ids of the list distinct. */
  lemma {:induction false} ApplyAllKeepsUnique(s: seq<ChatValue>, cs: seq<ChatChange>, uid: string)
    requires UniqueIds(s)
    ensures UniqueIds(ApplyAll(s, cs, uid).chats)
  {
    if cs != [] {
      ApplyAllKeepsUnique(s, cs[..|cs| - 1], uid);
      var o := ApplyAll(s, cs[..|cs| - 1], uid);
      if !o.crashed {
        ChatChangeKeepsUnique(o.chats, cs[|cs| - 1], uid);
      }
    }
  }

  /** Whether a chat is shown under the tab: "Groups" keeps the groups,
      "Favourites" the chats whose favourite list holds the current user,
      any other tab keeps everything. */
  predicate InTab(c: ChatValue, tab: Option<string>, uid: string)
  {
    if tab == Some("Groups") then c.isGroup
    else if tab == Some("Favourites") then c.favourite.Some? && uid in c.favourite.value
    else true
  }

  function TabTest(tab: Option<string>, uid: string): ChatValue -> bool
  {
    c => InTab(c, tab, uid)
  }

  /** The chats `filterChatsByTab` hands to the adapter. */
  function TabView(s: seq<ChatValue>, tab: Option<string>, uid: string): seq<ChatValue>
  {
    KeepIf(s, TabTest(tab, uid))
  }

  /** The tab view keeps exactly the chats of the tab, in list order, and
      every chat for a tab other than Groups and Favourites. */
  lemma TabViewSpec(s: seq<ChatValue>, tab: Option<string>, uid: string)
    ensures forall c :: c in TabView(s, tab, uid) <==> c in s && InTab(c, tab, uid)
    ensures IsSubsequence(TabView(s, tab, uid), s)
    ensures tab != Some("Groups") && tab != Some("Favourites") ==> TabView(s, tab, uid) == s
  {
    KeepIfMembership(s, TabTest(tab, uid));
    KeepIfSubsequence(s, TabTest(tab, uid));
    if tab != Some("Groups") && tab != Some("Favourites") {
      KeepIfAll(s, TabTest(tab, uid));
    }
  }

  /** The user ids the dialog offers: the checked-box tags. */
  function Checked(candidates: seq<string>, checked: seq<bool>): (r: seq<string>)
    requires |checked| == |candidates|
    ensures |r| <= |candidates|
    ensures r == [] <==> forall i :: 0 <= i < |checked| ==> !checked[i]
    ensures forall x :: x in r ==> x in candidates
  {
    if candidates == [] then []
    else
      var n := |candidates| - 1;
      Checked(candidates[..n], checked[..n]) + (if checked[n] then [candidates[n]] else [])
  }

  function NotSelf(uid: string): string -> bool
  {
    u => u != uid
  }

  /** How many leading users the Create Group dialog can label, given their
      ids and display names: `getName()` throws on the first user other than
      `uid` whose name cannot be computed. */
  function ListablePrefix(ids: seq<string>, names: seq<Option<string>>, uid: string): (r: nat)
    requires |names| == |ids|
    ensures r <= |ids|
    ensures forall i :: 0 <= i < r ==> ids[i] == uid || names[i].Some?
    ensures r < |ids| ==> ids[r] != uid && names[r].None?
  {
    ListableFrom(ids, names, uid, 0)
  }

  /** The first position from `i` on at which the dialog's labels stop. */
  function ListableFrom(ids: seq<string>, names: seq<Option<string>>, uid: string, i: nat): (r: nat)
    requires |names| == |ids| && i <= |ids|
    ensures i <= r <= |ids|
    ensures forall j :: i <= j < r ==> ids[j] == uid || names[j].Some?
    ensures r < |ids| ==> ids[r] != uid && names[r].None?
    decreases |ids| - i
  {
    if i == |ids| || (ids[i] != uid && names[i].None?) then i
    else ListableFrom(ids, names, uid, i + 1)
  }

  /** The loop of the Create Group dialog over the loaded users' ids and
      display names: every id but `uid`, up to the first label that throws. */
  method CandidatesLoop(uids: seq<string>, names: seq<Option<string>>, uid: string)
    returns (ids: seq<string>, crashed: bool)
    requires |names| == |uids|
    ensures var k := ListablePrefix(uids, names, uid);
      (crashed <==> k < |uids|) && ids == KeepIf(uids[..k], NotSelf(uid))
    ensures uid !in ids
  {
    var p := NotSelf(uid);
    ghost var k := ListablePrefix(uids, names, uid);
    ids := [];
    var i := 0;
    while i < |uids|
      invariant 0 <= i <= k
      invariant ids == KeepIf(uids[..i], p)
    {
      if uids[i] != uid && names[i].None? {
        KeepIfMembership(uids[..i], p);
        return ids, true;
      }
      KeepIfPrefix(uids, i, p);
      if uids[i] != uid {
        ids := ids + [uids[i]];
      }
      i := i + 1;
    }
    assert uids[..i] == uids;
    KeepIfMembership(uids, p);
    crashed := false;
  }

  /** The group the Create button asks for: the trimmed name and the
      current user followed by the checked users, or `None` when the name is
      blank or no user is checked. */
  function GroupRequest(nameText: string, uid: string, candidates: seq<string>, checked: seq<bool>)
    : (r: Option<(string, seq<string>)>)
    requires |checked| == |candidates|
    ensures r.None? <==> Blank(nameText) || forall i :: 0 <= i < |checked| ==> !checked[i]
    ensures r.Some? ==> r.value.0 == Trim(nameText) && r.value.0 != []
    ensures r.Some? ==> |r.value.1| >= 2 && r.value.1[0] == uid
    ensures r.Some? ==> forall x :: x in r.value.1[1..] ==> x in candidates
  {
    var name := Trim(nameText);
    var selected := [uid] + Checked(candidates, checked);
    if name == [] || |selected| < 2 then None
    else
      assert selected[1..] == Checked(candidates, checked);
      Some((name, selected))
  }

  class ChatListActivity {
    const currentUserId: string
    const adapter: ChatListAdapter
    var chatList: seq<Chat>
    var currentTab: Option<string>
    var createGroupButtonVisible: bool
    var allUsers: seq<User>

    /** `onCreate` for a signed-in user: an empty list shared with a new
        adapter, the "All" tab, and the Create Group button hidden. */
    constructor (uid: string)
      ensures currentUserId == uid && chatList == [] && allUsers == []
      ensures currentTab == Some("All") && !createGroupButtonVisible
      ensures fresh(adapter) && adapter.currentUserId == uid
      ensures adapter.chatList == [] && adapter.filteredList == []
    {
      currentUserId := uid;
      chatList := [];
      currentTab := Some("All");
      createGroupButtonVisible := false;
      allUsers := [];
      adapter := new ChatListAdapter(uid, []);
    }

    /** `findChatIndex`, the loop over the list. */
    method FindChatIndex(id: string) returns (r: int)
      ensures r == ChatIndex(ChatValues(chatList), id)
    {
      var i := 0;
      while i < |chatList|
        invariant 0 <= i <= |chatList|
        invariant forall j :: 0 <= j < i ==> chatList[j].id != Some(id)
      {
        if chatList[i].id.Some? && chatList[i].id.value == id {
          return i;
        }
        i := i + 1;
      }
      return -1;
    }

    /** The Groups loop of `filterChatsByTab`. */
    method GroupChats() returns (kept: seq<Chat>)
      ensures ChatValues(kept) == TabView(ChatValues(chatList), Some("Groups"), currentUserId)
      ensures forall c :: c in kept ==> c in chatList
    {
      var p := TabTest(Some("Groups"), currentUserId);
      kept := [];
      var i := 0;
      while i < |chatList|
        invariant 0 <= i <= |chatList|
        invariant ChatValues(kept) == KeepIf(ChatValues(chatList[..i]), p)
        invariant forall c :: c in kept ==> c in chatList
      {
        var chat := chatList[i];
        ChatValuesPrefix(chatList, i);
        KeepIfSnoc(ChatValues(chatList[..i]), chat.Value(), p);
        ChatValuesAppend(kept, chat);
        if chat.isGroup {
          kept := kept + [chat];
        }
        i := i + 1;
      }
      assert chatList[..i] == chatList;
    }

    /** The Favourites loop of `filterChatsByTab`. */
    method FavouriteChats() returns (kept: seq<Chat>)
      ensures ChatValues(kept) == TabView(ChatValues(chatList), Some("Favourites"), currentUserId)
      ensures forall c :: c in kept ==> c in chatList
    {
      var p := TabTest(Some("Favourites"), currentUserId);
      kept := [];
      var i := 0;
      while i < |chatList|
        invariant 0 <= i <= |chatList|
        invariant ChatValues(kept) == KeepIf(ChatValues(chatList[..i]), p)
        invariant forall c :: c in kept ==> c in chatList
      {
        var chat := chatList[i];
        ChatValuesPrefix(chatList, i);
        KeepIfSnoc(ChatValues(chatList[..i]), chat.Value(), p);
        ChatValuesAppend(kept, chat);
        if chat.favourite.Some? && currentUserId in chat.favourite.value {
          kept := kept + [chat];
        }
        i := i + 1;
      }
      assert chatList[..i] == chatList;
    }

    /** The chats of the current tab, as the branches of `filterChatsByTab`
        collect them. */
    method TabChats() returns (kept: seq<Chat>)
      ensures ChatValues(kept) == TabView(ChatValues(chatList), currentTab, currentUserId)
      ensures forall c :: c in kept ==> c in chatList
    {
      if currentTab == Some("Groups") {
        kept := GroupChats();
      } else if currentTab == Some("Favourites") {
        kept := FavouriteChats();
      } else {
        kept := chatList;
        TabViewSpec(ChatValues(chatList), currentTab, currentUserId);
      }
    }

    /** `filterChatsByTab`: the button shows only on the Groups tab, and the
        adapter is given the chats of the current tab. */
    method FilterChatsByTab()
      modifies this`createGroupButtonVisible, adapter`chatList, adapter`filteredList
      ensures createGroupButtonVisible <==> currentTab == Some("Groups")
      ensures ChatValues(adapter.chatList) == TabView(ChatValues(chatList), currentTab, currentUserId)
      ensures adapter.filteredList == adapter.chatList
      ensures forall c :: c in adapter.chatList ==> c in chatList
    {
      var filtered := TabChats();
      createGroupButtonVisible := currentTab == Some("Groups");
      adapter.SetChats(filtered);
    }

    /** A tab is selected: it becomes the current tab and the view is
        rebuilt. */
    method OnTabSelected(tab: string)
      modifies this`currentTab, this`createGroupButtonVisible, adapter`chatList, adapter`filteredList
      ensures currentTab == Some(tab)
      ensures createGroupButtonVisible <==> tab == "Groups"
      ensures ChatValues(adapter.chatList) == TabView(ChatValues(chatList), Some(tab), currentUserId)
      ensures adapter.filteredList == adapter.chatList
    {
      currentTab := Some(tab);
      FilterChatsByTab();
    }

    /** The chat the listener builds from a change. */
    method PrepareChat(ch: ChatChange) returns (chat: Chat)
      ensures fresh(chat) && chat.Value() == Prepared(ch, currentUserId)
    {
      chat := new Chat.FromDocument(ch.doc);
      chat.SetId(Some(ch.docId));
      ghost var d := ch.doc.(id := Some(ch.docId));
      if ch.unreadCount.Some? {
        chat.SetUnreadCounts(chat.unreadCounts[currentUserId := ch.unreadCount.value]);
        d := d.(unreadCounts := d.unreadCounts[currentUserId := ch.unreadCount.value]);
      }
      assert chat.Value() == d;
      if !chat.isGroup {
        var other := FindOtherParticipant(chat.participants, currentUserId);
        if ch.userNames.Some? && other.Some? && other.value in ch.userNames.value {
          chat.SetOtherUserName(Some(ch.userNames.value[other.value]));
        } else {
          chat.SetOtherUserName(Some("?"));
        }
        assert chat.Value() == d.(otherUserName := Some(OtherUserName(d.participants, currentUserId, ch.userNames)));
      }
    }

    /** `chatList.add(index, chat)`, which throws outside `[0, size]`. */
    method InsertChat(index: int, chat: Chat) returns (crashed: bool)
      modifies this`chatList
      ensures var o := InsertOrCrash(old(ChatValues(chatList)), index, chat.Value());
        ChatValues(chatList) == o.chats && crashed == o.crashed
    {
      if !(0 <= index <= |chatList|) {
        return true;
      }
      ChatValuesInsert(chatList, index, chat);
      chatList := InsertAt(chatList, index, chat);
      return false;
    }

    /** `chatList.remove(index)`. */
    method RemoveChat(index: nat)
      requires index < |chatList|
      modifies this`chatList
      ensures ChatValues(chatList) == RemoveAt(old(ChatValues(chatList)), index)
    {
      ChatValuesRemove(chatList, index);
      chatList := RemoveAt(chatList, index);
    }

    /** The list surgery of one change, for the chat `chat` built from it:
        `changed` tells whether the list was touched, which is when the
        listener re-filters. */
    method ApplyToList(ch: ChatChange, chat: Chat) returns (crashed: bool, changed: bool)
      modifies this`chatList
      ensures var o := Reconcile(old(ChatValues(chatList)), ch.kind, ch.docId, ch.newIndex, chat.Value());
        ChatValues(chatList) == o.chats && crashed == o.crashed
      ensures changed <==> !crashed && (ch.kind != Removed || ChatIndex(old(ChatValues(chatList)), ch.docId) != -1)
    {
      var i := FindChatIndex(ch.docId);
      crashed, changed := false, true;
      match ch.kind {
        case Added =>
          if i == -1 {
            crashed := InsertChat(ch.newIndex, chat);
            changed := !crashed;
          } else {
            ChatValuesUpdate(chatList, i, chat);
            chatList := chatList[i := chat];
          }
        case Modified =>
          if i != -1 {
            RemoveChat(i);
          }
          crashed := InsertChat(ch.newIndex, chat);
          changed := !crashed;
        case Removed =>
          if i != -1 {
            RemoveChat(i);
          } else {
            changed := false;
          }
      }
    }

    /** One pass of the listener's loop: the chat list follows
        `ApplyChatChange`, and every change that alters the list re-filters
        the tab view. */
    method ApplyChange(ch: ChatChange) returns (crashed: bool)
      requires UniqueIds(ChatValues(chatList))
      modifies this`chatList, this`createGroupButtonVisible, adapter`chatList, adapter`filteredList
      ensures var o := ApplyChatChange(old(ChatValues(chatList)), ch, currentUserId);
        ChatValues(chatList) == o.chats && crashed == o.crashed
      ensures UniqueIds(ChatValues(chatList))
      ensures !crashed && (ch.kind != Removed || ChatIndex(old(ChatValues(chatList)), ch.docId) != -1) ==>
        && ChatValues(adapter.chatList) == TabView(ChatValues(chatList), currentTab, currentUserId)
        && adapter.filteredList == adapter.chatList
        && (createGroupButtonVisible <==> currentTab == Some("Groups"))
      ensures crashed || (ch.kind == Removed && ChatIndex(old(ChatValues(chatList)), ch.docId) == -1) ==>
        && adapter.chatList == old(adapter.chatList) && adapter.filteredList == old(adapter.filteredList)
        && createGroupButtonVisible == old(createGroupButtonVisible)
    {
      ghost var s := ChatValues(chatList);
      ghost var o := ApplyChatChange(s, ch, currentUserId);
      ChatChangeKeepsUnique(s, ch, currentUserId);
      var chat := PrepareChat(ch);
      assert o == Reconcile(s, ch.kind, ch.docId, ch.newIndex, chat.Value());
      assert ChatValues(chatList) == s;
      var changed;
      crashed, changed := ApplyToList(ch, chat);
      assert ChatValues(chatList) == o.chats && crashed == o.crashed;
      if changed {
        FilterChatsByTab();
      }
      assert ChatValues(chatList) == o.chats;
    }

    /** The chats listener. An error changes nothing; an empty result clears
        the list; otherwise every change is applied in order, and at the end
        the adapter is handed the whole list, whatever the tab. */
    method OnChatsSnapshot(failed: bool, changes: Option<seq<ChatChange>>) returns (crashed: bool)
      requires UniqueIds(ChatValues(chatList))
      modifies this`chatList, this`createGroupButtonVisible, adapter`chatList, adapter`filteredList
      ensures failed ==>
        && !crashed && chatList == old(chatList)
        && adapter.chatList == old(adapter.chatList) && adapter.filteredList == old(adapter.filteredList)
        && createGroupButtonVisible == old(createGroupButtonVisible)
      ensures !failed && changes.None? ==>
        && !crashed && chatList == [] && adapter.chatList == [] && adapter.filteredList == []
        && (createGroupButtonVisible <==> currentTab == Some("Groups"))
      ensures createGroupButtonVisible == old(createGroupButtonVisible) || (createGroupButtonVisible <==> currentTab == Some("Groups"))
      ensures crashed ==>
        || (adapter.chatList == old(adapter.chatList) && adapter.filteredList == old(adapter.filteredList))
        || adapter.filteredList == adapter.chatList
      ensures !failed && changes.Some? ==>
        var o := ApplyAll(old(ChatValues(chatList)), changes.value, currentUserId);
        ChatValues(chatList) == o.chats && crashed == o.crashed
      ensures !failed && changes.Some? && !crashed ==> adapter.chatList == chatList && adapter.filteredList == chatList
      ensures UniqueIds(ChatValues(chatList))
    {
      crashed := false;
      if failed {
        return;
      }
      if changes.None? {
        chatList := [];
        FilterChatsByTab();
        return;
      }
      crashed := ApplyChanges(changes.value);
      if !crashed {
        adapter.SetChats(chatList);
      }
    }

    /** The loop of the chats listener over the changes of one snapshot: it
        stops at the first change that throws. */
    method ApplyChanges(cs: seq<ChatChange>) returns (crashed: bool)
      requires UniqueIds(ChatValues(chatList))
      modifies this`chatList, this`createGroupButtonVisible, adapter`chatList, adapter`filteredList
      ensures var o := ApplyAll(old(ChatValues(chatList)), cs, currentUserId);
        ChatValues(chatList) == o.chats && crashed == o.crashed
      ensures UniqueIds(ChatValues(chatList))
      ensures createGroupButtonVisible == old(createGroupButtonVisible) || (createGroupButtonVisible <==> currentTab == Some("Groups"))
      ensures || (adapter.chatList == old(adapter.chatList) && adapter.filteredList == old(adapter.filteredList))
              || adapter.filteredList == adapter.chatList
    {
      ghost var s0 := ChatValues(chatList);
      var k := 0;
      while k < |cs|
        invariant 0 <= k <= |cs|
        invariant ApplyAll(s0, cs[..k], currentUserId) == Outcome(ChatValues(chatList), false)
        invariant UniqueIds(ChatValues(chatList))
        invariant createGroupButtonVisible == old(createGroupButtonVisible) || (createGroupButtonVisible <==> currentTab == Some("Groups"))
        invariant || (adapter.chatList == old(adapter.chatList) && adapter.filteredList == old(adapter.filteredList))
                  || adapter.filteredList == adapter.chatList
      {
        ApplyAllSnoc(s0, cs, k, currentUserId);
        crashed := ApplyChange(cs[k]);
        if crashed {
          ApplyAllStopsAtCrash(s0, cs, k + 1, currentUserId);
          return;
        }
        k := k + 1;
      }
      assert cs[..k] == cs;
      crashed := false;
    }

    /** The users query for the dialog replaces the loaded users. */
    method OnAllUsersLoaded(users: seq<User>)
      modifies this`allUsers
      ensures allUsers == users
    {
      allUsers := users;
    }

    /** The check boxes of the Create Group dialog: every loaded user but the
        current one, in order, each labelled with `getName()`. The label
        throws for a user with no usable name, which ends the dialog's
        set-up (`crashed`) with the boxes built so far. */
    method GroupCandidates() returns (ids: seq<string>, crashed: bool)
      ensures var k := ListablePrefix(UserIds(allUsers), DisplayNames(allUsers), currentUserId);
        (crashed <==> k < |allUsers|) && ids == KeepIf(UserIds(allUsers)[..k], NotSelf(currentUserId))
      ensures currentUserId !in ids
    {
      ids, crashed := CandidatesLoop(UserIds(allUsers), DisplayNames(allUsers), currentUserId);
    }

    /** The Create button: the current user and the checked users are
        collected; a blank name or an empty selection creates nothing, and
        otherwise a group chat named by the trimmed name is built. */
    method OnCreateGroupConfirmed(nameText: string, candidates: seq<string>, checked: seq<bool>, now: Timestamp)
      returns (group: Chat?)
      requires |checked| == |candidates|
      ensures group == null <==> GroupRequest(nameText, currentUserId, candidates, checked).None?
      ensures group != null ==>
        var req := GroupRequest(nameText, currentUserId, candidates, checked).value;
        && fresh(group)
        && group.Value() == ChatValue(None, req.1, None, "Group created", Some(now), true, Some(req.0), Some([]), map[])
    {
      var groupName := Trim(nameText);
      var selected := [currentUserId];
      var i := 0;
      while i < |candidates|
        invariant 0 <= i <= |candidates|
        invariant selected == [currentUserId] + Checked(candidates[..i], checked[..i])
      {
        assert candidates[..i + 1][..i] == candidates[..i];
        assert checked[..i + 1][..i] == checked[..i];
        if checked[i] {
          selected := selected + [candidates[i]];
        }
        i := i + 1;
      }
      assert candidates[..i] == candidates && checked[..i] == checked;
      if groupName == [] || |selected| < 2 {
        return null;
      }
      group := new Chat.WithGroup(selected, "Group created", Some(now), true, Some(groupName));
    }

    /** A group was stored: the Groups tab is selected. When it is already
        the current tab, `select()` only reselects it, and the reselect
        listener does nothing, so the view stays as it was; otherwise the
        tab change rebuilds the view for Groups. */
    method OnGroupCreated()
      modifies this`currentTab, this`createGroupButtonVisible, adapter`chatList, adapter`filteredList
      ensures currentTab == Some("Groups")
      ensures old(currentTab) == Some("Groups") ==>
        && createGroupButtonVisible == old(createGroupButtonVisible)
        && adapter.chatList == old(adapter.chatList) && adapter.filteredList == old(adapter.filteredList)
      ensures old(currentTab) != Some("Groups") ==>
        && createGroupButtonVisible
        && ChatValues(adapter.chatList) == TabView(ChatValues(chatList), Some("Groups"), currentUserId)
        && adapter.filteredList == adapter.chatList
    {
      if currentTab != Some("Groups") {
        OnTabSelected("Groups");
      }
    }
  }
}

=== FILE: chat_list_adapter.dfy ===
/** The adapter behind the chat list: the full list it was last given, the
    filtered list it shows, the name search, and what a click on a row opens. */
module ChatListAdapters {
  import opened Platform
  import opened Chats

  /** The name search: a group by its group name, a direct chat by the other
      user's name, each lower-cased and required to contain `q`. A chat
      whose name is missing never matches. */
  predicate MatchesSearch(c: ChatValue, q: string)
  {
    if c.isGroup then c.groupName.Some? && Contains(ToLower(c.groupName.value), q)
    else c.otherUserName.Some? && Contains(ToLower(c.otherUserName.value), q)
  }

  /** The search test for lower-cased text `q`, as a function value. */
  function Matcher(q: string): ChatValue -> bool
  {
    c => MatchesSearch(c, q)
  }

  /** The rows shown for search text `text`: everything for the empty text,
      otherwise the chats matching the lower-cased text, in order. */
  function SearchView(s: seq<ChatValue>, text: string): seq<ChatValue>
  {
    if text == [] then s else KeepIf(s, Matcher(ToLower(text)))
  }

  /** The search keeps exactly the matching chats, drops nothing for the
      empty text, and keeps the list order. */
  lemma SearchViewSpec(s: seq<ChatValue>, text: string)
    ensures text == [] ==> SearchView(s, text) == s
    ensures text != [] ==> forall c :: c in SearchView(s, text) <==> c in s && MatchesSearch(c, ToLower(text))
    ensures IsSubsequence(SearchView(s, text), s)
  {
    var p := Matcher(ToLower(text));
    KeepIfMembership(s, p);
    KeepIfSubsequence(s, p);
    if text == [] {
      IsSubsequenceRefl(s);
    }
  }

  /** What a click on a chat opens: a group by its id and name; a direct chat
      with the first participant other than the current user, or nothing
      when there is none. */
  function ClickIntent(c: ChatValue, uid: string): (r: Option<ChatIntent>)
    ensures c.isGroup ==> r == Some(ChatIntent(c.id, None, true, c.groupName))
    ensures !c.isGroup ==> (r.None? <==> forall i :: 0 <= i < |c.participants| ==> c.participants[i] == uid)
    ensures !c.isGroup && r.Some? ==>
      && r.value.chatId == c.id && !r.value.isGroup
      && r.value.otherUserId == FirstOther(c.participants, uid)
      && r.value.otherUserId != Some(uid)
  {
    if c.isGroup then Some(ChatIntent(c.id, None, true, c.groupName))
    else
      match FirstOther(c.participants, uid)
      case None => None
      case Some(o) => Some(ChatIntent(c.id, Some(o), false, None))
  }

  /** Every chat with an id that the list opens is one the chat screen
      accepts. */
  lemma ClickIntentOpens(c: ChatValue, uid: string)
    requires c.id.Some? && ClickIntent(c, uid).Some?
    ensures Opens(ClickIntent(c, uid).value)
  {
  }

  class ChatListAdapter {
    const currentUserId: string
    var chatList: seq<Chat>
    var filteredList: seq<Chat>

    /** The constructor shows every chat of the list it is given. */
    constructor (uid: string, chats: seq<Chat>)
      ensures currentUserId == uid && chatList == chats && filteredList == chats
    {
      currentUserId := uid;
      chatList := chats;
      filteredList := chats;
    }

    /** `getItemCount()`: the number of rows shown. */
    function ItemCount(): nat
      reads this
    {
      |filteredList|
    }

    /** `filter(text)`: rebuilds the shown rows from the full list; the full
        list itself is left alone. */
    method Filter(text: string)
      modifies this`filteredList
      ensures ChatValues(filteredList) == SearchView(ChatValues(chatList), text)
      ensures forall c :: c in filteredList ==> c in chatList
      ensures text == [] ==> filteredList == chatList
      ensures ItemCount() == |SearchView(ChatValues(chatList), text)|
    {
      if text == [] {
        filteredList := chatList;
      } else {
        var kept := MatchingChats(text);
        filteredList := kept;
      }
    }

    /** The loop of `filter` for non-empty text: the chats of the full list
        whose name contains the lower-cased text, in order. */
    method MatchingChats(text: string) returns (kept: seq<Chat>)
      requires text != []
      ensures ChatValues(kept) == SearchView(ChatValues(chatList), text)
      ensures forall c :: c in kept ==> c in chatList
    {
      var q := ToLower(text);
      var p := Matcher(q);
      kept := [];
      var i := 0;
      while i < |chatList|
        invariant 0 <= i <= |chatList|
        invariant ChatValues(kept) == KeepIf(ChatValues(chatList[..i]), p)
        invariant forall c :: c in kept ==> c in chatList
      {
        var c := chatList[i];
        ChatValuesPrefix(chatList, i);
        KeepIfSnoc(ChatValues(chatList[..i]), c.Value(), p);
        ChatValuesAppend(kept, c);
        if MatchesSearch(c.Value(), q) {
          kept := kept + [c];
        }
        i := i + 1;
      }
      assert chatList[..i] == chatList;
    }

    /** `setChats(chats)`: both lists become copies of `chats`, so an active
        search is dropped. */
    method SetChats(chats: seq<Chat>)
      modifies this`chatList, this`filteredList
      ensures chatList == chats && filteredList == chats
      ensures ItemCount() == |chats|
    {
      chatList := chats;
      filteredList := chats;
    }

    /** The click handler of the row at `position`. */
    method OnItemClick(position: nat) returns (intent: Option<ChatIntent>)
      requires position < |filteredList|
      ensures intent == ClickIntent(filteredList[position].Value(), currentUserId)
    {
      var chat := filteredList[position];
      if chat.isGroup {
        intent := Some(ChatIntent(chat.id, None, true, chat.groupName));
      } else {
        var other := FindOtherParticipant(chat.participants, currentUserId);
        if other.Some? {
          intent := Some(ChatIntent(chat.id, other, false, None));
        } else {
          intent := None;
        }
      }
    }
  }
}

=== FILE: group_participants.dfy ===
/** The adapter of the group-info dialog: a click on a participant opens
    the direct chat with them, creating it when there is none. Unlike the
    new-chat screen, only a two-person chat counts as the direct chat. */
module GroupParticipantsAdapters {
  import opened Platform
  import opened Chats
  import opened Users
  import opened UserAdapters

  /** The position of the first chat whose participants are exactly two and
      include `pid`, or -1; chats without participants are skipped. */
  function DirectChatIndex(docs: seq<ChatDoc>, pid: string): (r: int)
    ensures -1 <= r < |docs|
    ensures r >= 0 ==> IsDirectWith(docs[r], pid)
    ensures forall j :: 0 <= j < |docs| && (r == -1 || j < r) ==> !IsDirectWith(docs[j], pid)
  {
    if docs == [] then -1
    else if IsDirectWith(docs[0], pid) then 0
    else
      var r := DirectChatIndex(docs[1..], pid);
      if r == -1 then -1 else r + 1
  }

  predicate IsDirectWith(d: ChatDoc, pid: string)
  {
    d.participants.Some? && |d.participants.value| == 2 && pid in d.participants.value
  }

  /** Every chat of the lookup includes the current user, so the chat found
      for another user holds exactly the two of them. */
  lemma DirectChatIsPair(docs: seq<ChatDoc>, cur: string, pid: string)
    requires cur != pid
    requires forall j :: 0 <= j < |docs| ==> docs[j].participants.Some? && cur in docs[j].participants.value
    requires DirectChatIndex(docs, pid) >= 0
    ensures var ps := docs[DirectChatIndex(docs, pid)].participants.value;
      ps == [cur, pid] || ps == [pid, cur]
  {
    var ps := docs[DirectChatIndex(docs, pid)].participants.value;
    assert ps == [ps[0], ps[1]];
  }

  /** The two lookups differ: the group that the new-chat screen opens for
      "b" is not a direct chat here, so a new chat is created instead. */
  lemma LookupsDiffer()
    ensures var docs := [ChatDoc("g", Some(["me", "b", "c"]))];
      LookupResult(docs, "b") == OpenExisting("g") && DirectChatIndex(docs, "b") == -1
  {
    GroupMatches();
  }

  class GroupParticipantsAdapter {
    const currentUserId: string
    const participants: seq<User>

    constructor (uid: string, ps: seq<User>)
      ensures currentUserId == uid && participants == ps
    {
      currentUserId := uid;
      participants := ps;
    }

    function ItemCount(): (r: nat)
      reads this
      ensures r == |participants|
    {
      |participants|
    }

    /** The loop over the chats of the current user, breaking at the first
      direct chat with `pid`. */
    method FindDirectChat(docs: seq<ChatDoc>, pid: string) returns (chatId: Option<string>)
      ensures DirectChatIndex(docs, pid) == -1 ==> chatId.None?
      ensures DirectChatIndex(docs, pid) >= 0 ==> chatId == Some(docs[DirectChatIndex(docs, pid)].id)
    {
      chatId := None;
      var i := 0;
      while i < |docs|
        invariant 0 <= i <= |docs|
        invariant forall j :: 0 <= j < i ==> !IsDirectWith(docs[j], pid)
      {
        var ps := docs[i].participants;
        if ps.Some? && |ps.value| == 2 && pid in ps.value {
          chatId := Some(docs[i].id);
          DirectChatAt(docs, pid, i);
          break;
        }
        i := i + 1;
      }
    }

    /** The click on participant `p`, once the lookup of the current user's
      chats has answered `docs`; `newKey` is the key a created chat gets.
      Clicking oneself does nothing; otherwise the chat screen is started on
      the direct chat found, or on a new chat of the two users created with
      an empty text and no time, which makes it not a group. */
    method OnParticipantClick(p: User, docs: seq<ChatDoc>, newKey: string)
      returns (created: Chat?, intent: Option<ChatIntent>)
      ensures p.uid == currentUserId ==> created == null && intent.None?
      ensures p.uid != currentUserId && DirectChatIndex(docs, p.uid) >= 0 ==>
        created == null &&
        intent == Some(ChatIntent(Some(docs[DirectChatIndex(docs, p.uid)].id), Some(p.uid), false, None))
      ensures p.uid != currentUserId && DirectChatIndex(docs, p.uid) == -1 ==>
        && created != null && fresh(created)
        && created.Value() == ChatValue(None, [currentUserId, p.uid], None, "", None, false, None, Some([]), map[])
        && intent == Some(ChatIntent(Some(newKey), Some(p.uid), false, None))
      ensures intent.Some? ==> Opens(intent.value) && !intent.value.isGroup && intent.value.otherUserId == Some(p.uid)
    {
      var pid := p.uid;
      if currentUserId == pid {
        return null, None;
      }
      var chatId := FindDirectChat(docs, pid);
      if chatId.Some? {
        return null, Some(ChatIntent(chatId, Some(pid), false, None));
      }
      created := new Chat.OfParticipants([currentUserId, pid], "", None);
      intent := Some(ChatIntent(Some(newKey), Some(pid), false, None));
    }
  }

  /** When no chat before `i` is a direct chat with `pid` and chat `i` is,
      the lookup finds `i`. */
  lemma {:induction false} DirectChatAt(docs: seq<ChatDoc>, pid: string, i: nat)
    requires i < |docs| && IsDirectWith(docs[i], pid)
    requires forall j :: 0 <= j < i ==> !IsDirectWith(docs[j], pid)
    ensures DirectChatIndex(docs, pid) == i
  {
    if i > 0 {
      DirectChatAt(docs[1..], pid, i - 1);
    }
  }
}

=== FILE: login.dfy ===
/** The login screen: the input rules checked before signing in or
    registering, the error shown on each field, and the two buttons that are
    disabled while a request is in flight. */
module Logins {
  import opened Platform
  import opened Users

  const EMAIL_ERROR: string := "Please enter a valid email address"
  const PASSWORD_ERROR: string := "Password must be at least 6 characters"
  const NAME_ERROR: string := "Please enter your name"
  const MIN_PASSWORD: nat := 6

  /** `isValidEmail`: non-empty and matched by the platform's email pattern
      (given as `pattern`). */
  function IsValidEmail(pattern: string -> bool, email: string): (r: bool)
    ensures r ==> email != [] && pattern(email)
    ensures email == [] ==> !r
  {
    email != [] && pattern(email)
  }

  predicate PasswordOk(password: string)
  {
    |password| >= MIN_PASSWORD
  }

  /** `TextUtils.isEmpty`: only the empty text; blanks are not empty. */
  predicate NameOk(name: string)
  {
    name != []
  }

  /** The name a registered account is stored under: the trimmed name, or
      the part of the trimmed email before '@' when the name is blank. */
  function RegisteredName(nameText: string, emailText: string): Option<string>
  {
    DisplayName(Some(Trim(nameText)), Trim(emailText))
  }

  /** A non-empty name made only of blanks passes the check, and the account
      is then stored under the part of the trimmed email before '@', not
      under the name that was typed. */
  lemma BlankNamePasses(nameText: string, emailText: string)
    requires nameText != [] && Blank(nameText)
    ensures NameOk(nameText)
    ensures RegisteredName(nameText, emailText) == LocalPart(Trim(emailText))
  {
    assert Blank([]) by {
      assert TrimStart([]) == [];
    }
  }

  class LoginActivity {
    /** The platform's email pattern. */
    const pattern: string -> bool
    var emailText: string
    var passwordText: string
    var nameText: string
    var emailError: Option<string>
    var passwordError: Option<string>
    var nameError: Option<string>
    var loginEnabled: bool
    var registerEnabled: bool
    /** The screen has handed over to the chat list. */
    var finished: bool

    /** `onCreate`: a user who is already signed in is sent on at once. */
    constructor (p: string -> bool, signedIn: bool)
      ensures pattern == p && finished == signedIn
      ensures emailText == "" && passwordText == "" && nameText == ""
      ensures emailError.None? && passwordError.None? && nameError.None?
      ensures loginEnabled && registerEnabled
    {
      pattern := p;
      emailText := "";
      passwordText := "";
      nameText := "";
      emailError := None;
      passwordError := None;
      nameError := None;
      loginEnabled := true;
      registerEnabled := true;
      finished := signedIn;
    }

    /** `validateInputs`: every check runs, each failing field gets its
      error, no error is cleared, and the result is whether all pass. */
    method ValidateInputs() returns (valid: bool)
      modifies this`emailError, this`passwordError, this`nameError
      ensures valid <==> IsValidEmail(pattern, emailText) && PasswordOk(passwordText) && NameOk(nameText)
      ensures emailError == (if IsValidEmail(pattern, emailText) then old(emailError) else Some(EMAIL_ERROR))
      ensures passwordError == (if PasswordOk(passwordText) then old(passwordError) else Some(PASSWORD_ERROR))
      ensures nameError == (if NameOk(nameText) then old(nameError) else Some(NAME_ERROR))
    {
      valid := true;
      if !IsValidEmail(pattern, emailText) {
        emailError := Some(EMAIL_ERROR);
        valid := false;
      }
      if |passwordText| < MIN_PASSWORD {
        passwordError := Some(PASSWORD_ERROR);
        valid := false;
      }
      if nameText == [] {
        nameError := Some(NAME_ERROR);
        valid := false;
      }
    }

    /** The focus listener of the email field: leaving it with an invalid
      value shows the error, any other focus change clears it. */
    method OnEmailFocusChange(hasFocus: bool)
      modifies this`emailError
      ensures emailError == (if !hasFocus && !IsValidEmail(pattern, emailText) then Some(EMAIL_ERROR) else None)
    {
      if !hasFocus && !IsValidEmail(pattern, emailText) {
        emailError := Some(EMAIL_ERROR);
      } else {
        emailError := None;
      }
    }

    method OnPasswordFocusChange(hasFocus: bool)
      modifies this`passwordError
      ensures passwordError == (if !hasFocus && !PasswordOk(passwordText) then Some(PASSWORD_ERROR) else None)
    {
      if !hasFocus && |passwordText| < MIN_PASSWORD {
        passwordError := Some(PASSWORD_ERROR);
      } else {
        passwordError := None;
      }
    }

    method OnNameFocusChange(hasFocus: bool)
      modifies this`nameError
      ensures nameError == (if !hasFocus && !NameOk(nameText) then Some(NAME_ERROR) else None)
    {
      if !hasFocus && nameText == [] {
        nameError := Some(NAME_ERROR);
      } else {
        nameError := None;
      }
    }

    /** A click on either button: with valid inputs both buttons are
      disabled and the request is sent (`submitted`); otherwise the buttons
      stay as they were. */
    method OnSubmit() returns (submitted: bool)
      modifies this`emailError, this`passwordError, this`nameError, this`loginEnabled, this`registerEnabled
      ensures submitted <==> IsValidEmail(pattern, emailText) && PasswordOk(passwordText) && NameOk(nameText)
      ensures emailError == (if IsValidEmail(pattern, emailText) then old(emailError) else Some(EMAIL_ERROR))
      ensures passwordError == (if PasswordOk(passwordText) then old(passwordError) else Some(PASSWORD_ERROR))
      ensures nameError == (if NameOk(nameText) then old(nameError) else Some(NAME_ERROR))
      ensures submitted ==> !loginEnabled && !registerEnabled
      ensures !submitted ==> loginEnabled == old(loginEnabled) && registerEnabled == old(registerEnabled)
    {
      submitted := ValidateInputs();
      if submitted {
        loginEnabled := false;
        registerEnabled := false;
      }
    }

    /** The answer to a sign-in request: success hands over to the chat
      list, failure enables both buttons again. */
    method OnLoginResult(success: bool)
      modifies this`loginEnabled, this`registerEnabled, this`finished
      ensures success ==> finished && loginEnabled == old(loginEnabled) && registerEnabled == old(registerEnabled)
      ensures !success ==> loginEnabled && registerEnabled && finished == old(finished)
    {
      if success {
        finished := true;
      } else {
        loginEnabled := true;
        registerEnabled := true;
      }
    }

    /** The answers to a registration: the account request, then the write
      of the user document built from the trimmed email and name (`user` is
      that document, `null` when no request is made or the name cannot be
      computed). Any failure enables both buttons again; when the name cannot
      be computed the callback throws and the buttons stay disabled. */
    method OnRegisterResult(uid: string, now: int, authOk: bool, saveOk: bool) returns (user: User?)
      modifies this`loginEnabled, this`registerEnabled, this`finished
      ensures !authOk ==> user == null && loginEnabled && registerEnabled && finished == old(finished)
      ensures authOk ==> (user == null <==> old(RegisteredName(nameText, emailText)).None?)
      ensures authOk && user == null ==>
        loginEnabled == old(loginEnabled) && registerEnabled == old(registerEnabled) && finished == old(finished)
      ensures authOk && user != null ==>
        && fresh(user)
        && user.uid == uid && user.email == old(Trim(emailText))
        && user.name == old(RegisteredName(nameText, emailText)) && !user.isOnline
        && (saveOk ==> finished && loginEnabled == old(loginEnabled) && registerEnabled == old(registerEnabled))
        && (!saveOk ==> loginEnabled && registerEnabled && finished == old(finished))
    {
      if !authOk {
        loginEnabled := true;
        registerEnabled := true;
        return null;
      }
      var email := Trim(emailText);
      var name := Trim(nameText);
      if DisplayName(Some(name), email).None? {
        return null;
      }
      user := new User(uid, email, Some(name), now);
      if saveOk {
        finished := true;
      } else {
        loginEnabled := true;
        registerEnabled := true;
      }
    }
  }
}

=== FILE: message.dfy ===
/** The message bean: one document of a chat's `messages` sub-collection,
    with its two constructors and setters, and the list of messages that the
    chat screen and its adapter share. */
module Messages {
  import opened Platform

  /** The statuses the app writes; the bean documents exactly these three. */
  const SENT: string := "sent"
  const DELIVERED: string := "delivered"
  const READ: string := "read"

  predicate KnownStatus(s: Option<string>)
  {
    s == Some(SENT) || s == Some(DELIVERED) || s == Some(READ)
  }

  /** The fields of a message, as a value. A message document is read as one
      of these; a `Message` object exposes its current fields as one. */
  datatype MessageValue = MessageValue(
    id: Option<string>,
    chatId: Option<string>,
    senderId: string,
    text: string,
    timestamp: Option<Timestamp>,
    status: Option<string>)

  class Message {
    var id: Option<string>
    var chatId: Option<string>
    var senderId: string
    var text: string
    var timestamp: Option<Timestamp>
    var status: Option<string>

    function Value(): MessageValue
      reads this
    {
      MessageValue(id, chatId, senderId, text, timestamp, status)
    }

    /** `toObject(Message.class)`: every field holds the document's value. */
    constructor FromDocument(doc: MessageValue)
      ensures Value() == doc
    {
      id := doc.id;
      chatId := doc.chatId;
      senderId := doc.senderId;
      text := doc.text;
      timestamp := doc.timestamp;
      status := doc.status;
    }

    /** The three-argument constructor of an outgoing message: sender, text and
        time as given, status "sent", no id and no chat yet. */
    constructor Outgoing(sender: string, body: string, time: Option<Timestamp>)
      ensures senderId == sender && text == body && timestamp == time
      ensures status == Some(SENT) && KnownStatus(status)
      ensures id == None && chatId == None
    {
      id := None;
      chatId := None;
      senderId := sender;
      text := body;
      timestamp := time;
      status := Some(SENT);
    }

    method SetId(v: Option<string>)
      modifies this`id
      ensures id == v
    {
      id := v;
    }

    method SetChatId(v: Option<string>)
      modifies this`chatId
      ensures chatId == v
    {
      chatId := v;
    }

    method SetSenderId(v: string)
      modifies this`senderId
      ensures senderId == v
    {
      senderId := v;
    }

    method SetText(v: string)
      modifies this`text
      ensures text == v
    {
      text := v;
    }

    method SetTimestamp(v: Option<Timestamp>)
      modifies this`timestamp
      ensures timestamp == v
    {
      timestamp := v;
    }

    method SetStatus(v: Option<string>)
      modifies this`status
      ensures status == v
    {
      status := v;
    }
  }

  /** The `ArrayList<Message>` the chat screen creates and hands to its
      adapter: both hold the same list object. */
  class MessageList {
    var items: seq<Message>

    constructor ()
      ensures items == []
    {
      items := [];
    }

    /** `add(i, m)`. */
    method Insert(i: nat, m: Message)
      requires i <= |items|
      modifies this
      ensures items == InsertAt(old(items), i, m)
    {
      items := InsertAt(items, i, m);
    }

    /** `set(i, m)`. */
    method Set(i: nat, m: Message)
      requires i < |items|
      modifies this
      ensures items == old(items)[i := m]
    {
      items := items[i := m];
    }

    /** `remove(i)`. */
    method Remove(i: nat)
      requires i < |items|
      modifies this
      ensures items == RemoveAt(old(items), i)
    {
      items := RemoveAt(items, i);
    }
  }

  /** The fields of every message of `s`, in order. */
  function MessageValues(s: seq<Message>): (r: seq<MessageValue>)
    reads s
    ensures |r| == |s|
    ensures forall i :: 0 <= i < |s| ==> r[i] == s[i].Value()
  {
    seq(|s|, i requires 0 <= i < |s| reads s => s[i].Value())
  }

  lemma MessageValuesPrefix(s: seq<Message>, i: nat)
    requires i < |s|
    ensures MessageValues(s[..i + 1]) == MessageValues(s[..i]) + [s[i].Value()]
  {
  }

  lemma MessageValuesInsert(s: seq<Message>, i: nat, m: Message)
    requires i <= |s|
    ensures MessageValues(InsertAt(s, i, m)) == InsertAt(MessageValues(s), i, m.Value())
  {
  }

  lemma MessageValuesRemove(s: seq<Message>, i: nat)
    requires i < |s|
    ensures MessageValues(RemoveAt(s, i)) == RemoveAt(MessageValues(s), i)
  {
  }

  lemma MessageValuesUpdate(s: seq<Message>, i: nat, m: Message)
    requires i < |s|
    ensures MessageValues(s[i := m]) == MessageValues(s)[i := m.Value()]
  {
  }

  /** `findMessageIndex`: the first position whose id is `id`, or -1. */
  function MessageIndex(s: seq<MessageValue>, id: string): (r: int)
    ensures -1 <= r < |s|
    ensures r == -1 <==> forall i :: 0 <= i < |s| ==> s[i].id != Some(id)
    ensures r >= 0 ==> s[r].id == Some(id) && forall i :: 0 <= i < r ==> s[i].id != Some(id)
  {
    if s == [] then -1
    else if s[0].id == Some(id) then 0
    else
      var r := MessageIndex(s[1..], id);
      if r == -1 then -1 else r + 1
  }
}

=== FILE: message_adapter.dfy ===
/** The adapter behind the message list of a chat screen: the two row types,
    the read receipt written when a row is bound, who may delete a message,
    and how the chat's last-message summary is recomputed after a delete. */
module MessageAdapters {
  import opened Platform
  import opened Chats
  import opened Messages
  import opened Store

  const VIEW_TYPE_SENT: int := 1
  const VIEW_TYPE_RECEIVED: int := 2

  /** `getItemViewType`: the current user's own messages are drawn as sent,
      every other message as received. */
  function ViewType(m: MessageValue, uid: string): (r: int)
    ensures r == VIEW_TYPE_SENT || r == VIEW_TYPE_RECEIVED
    ensures r == VIEW_TYPE_SENT <==> m.senderId == uid
  {
    if m.senderId == uid then VIEW_TYPE_SENT else VIEW_TYPE_RECEIVED
  }

  /** Binding a row marks it read when someone else sent it and it is not
      read yet. */
  predicate ShouldMarkRead(m: MessageValue, uid: string)
  {
    m.senderId != uid && m.status != Some(READ)
  }

  /** Only the sender is offered the delete options. */
  predicate CanDelete(m: MessageValue, uid: string)
  {
    m.senderId == uid
  }

  /** Once the read receipt has come back, binding the row again writes
      nothing; a row the current user sent never gets one. */
  lemma MarkReadOnce(ds: seq<MessageDoc>, key: string, uid: string)
    ensures forall i :: 0 <= i < |ds| && ds[i].key == key ==>
      !ShouldMarkRead(WithStatus(ds, key, READ)[i].fields, uid)
    ensures forall i :: 0 <= i < |ds| && ds[i].fields.senderId == uid ==> !ShouldMarkRead(ds[i].fields, uid)
  {
  }

  /** The last-message fields of a chat document. */
  datatype Summary = Summary(text: string, time: Option<Timestamp>)

  /** What is written when there is no message to show: ("", null). */
  const NO_SUMMARY: Summary := Summary("", None)

  function SummaryOf(d: MessageDoc): Summary
  {
    Summary(d.fields.text, d.fields.timestamp)
  }

  /** The summary from the `timestamp`-descending, `limit(1)` query: the
      newest document, or ("", null) when there is none. */
  function TailSummary(ds: seq<MessageDoc>): Summary
  {
    if ds == [] then NO_SUMMARY else SummaryOf(ds[|ds| - 1])
  }

  /** A chat document with its last-message fields replaced. */
  function WithSummary(c: ChatValue, s: Summary): (r: ChatValue)
    ensures r.lastMessageText == s.text && r.lastMessageTime == s.time
    ensures r.(lastMessageText := c.lastMessageText, lastMessageTime := c.lastMessageTime) == c
  {
    c.(lastMessageText := s.text, lastMessageTime := s.time)
  }

  function KeyIsNot(key: string): MessageDoc -> bool
  {
    (d: MessageDoc) => d.key != key
  }

  /** A message the user `uid` has not deleted for themself. */
  function VisibleTo(marks: set<(string, string)>, uid: string): MessageDoc -> bool
  {
    (d: MessageDoc) => (d.key, uid) !in marks
  }

  /** The summary a user should see: the newest message they have not
      deleted for themself, or ("", null). */
  function VisibleTailSummary(ds: seq<MessageDoc>, marks: set<(string, string)>, uid: string): Summary
  {
    TailSummary(KeepIf(ds, VisibleTo(marks, uid)))
  }

  /** `ds[i]` is the newest document that `uid` has not hidden. */
  predicate NewestVisibleAt(ds: seq<MessageDoc>, marks: set<(string, string)>, uid: string, i: int)
  {
    0 <= i < |ds| && (ds[i].key, uid) !in marks
    && forall j :: i < j < |ds| ==> (ds[j].key, uid) in marks
  }

  /** The visible summary is that of the newest document the user has not
      hidden, and ("", null) when they have hidden every document. */
  lemma {:induction false} VisibleTailSummarySpec(ds: seq<MessageDoc>, marks: set<(string, string)>, uid: string)
    ensures (forall j :: 0 <= j < |ds| ==> (ds[j].key, uid) in marks) ==>
      VisibleTailSummary(ds, marks, uid) == NO_SUMMARY
    ensures forall i :: NewestVisibleAt(ds, marks, uid, i) ==>
      VisibleTailSummary(ds, marks, uid) == SummaryOf(ds[i])
  {
    if ds != [] {
      var n := |ds| - 1;
      var init := ds[..n];
      var p := VisibleTo(marks, uid);
      assert ds == init + [ds[n]];
      KeepIfSnoc(init, ds[n], p);
      if (ds[n].key, uid) !in marks {
        assert KeepIf(ds, p) == KeepIf(init, p) + [ds[n]];
        assert forall i :: NewestVisibleAt(ds, marks, uid, i) ==> i == n;
      } else {
        assert KeepIf(ds, p) == KeepIf(init, p);
        VisibleTailSummarySpec(init, marks, uid);
        forall i | NewestVisibleAt(ds, marks, uid, i)
          ensures NewestVisibleAt(init, marks, uid, i) && init[i] == ds[i]
        {
        }
      }
    }
  }

  /** With the documents in time order, the visible summary carries the
      latest time of any message the user has not hidden. */
  lemma VisibleTailIsNewest(ds: seq<MessageDoc>, marks: set<(string, string)>, uid: string)
    requires InTimeOrder(ds)
    ensures forall d :: d in ds && (d.key, uid) !in marks ==>
      NotLater(d.fields.timestamp, VisibleTailSummary(ds, marks, uid).time)
  {
    var p := VisibleTo(marks, uid);
    var kept := KeepIf(ds, p);
    KeepIfMembership(ds, p);
    KeepIfInTimeOrder(ds, p);
    if kept != [] {
      LastIsNewest(kept);
    }
  }

  /** The summary the final query of `deleteMessageForMe` writes: that of the
      newest document if the user has not hidden it, ("", null) otherwise. */
  function ForMeSummaryAsWritten(ds: seq<MessageDoc>, marks: set<(string, string)>, uid: string): Summary
  {
    if ds == [] then NO_SUMMARY
    else if (ds[|ds| - 1].key, uid) in marks then NO_SUMMARY
    else SummaryOf(ds[|ds| - 1])
  }

  /** The written summary agrees with the intended one whenever the newest
      document is not hidden or every document is. */
  lemma ForMeSummaryAgreement(ds: seq<MessageDoc>, marks: set<(string, string)>, uid: string)
    requires ds == [] || (ds[|ds| - 1].key, uid) !in marks
      || forall j :: 0 <= j < |ds| ==> (ds[j].key, uid) in marks
    ensures ForMeSummaryAsWritten(ds, marks, uid) == VisibleTailSummary(ds, marks, uid)
  {
    VisibleTailSummarySpec(ds, marks, uid);
    if ds != [] && (ds[|ds| - 1].key, uid) !in marks {
      assert NewestVisibleAt(ds, marks, uid, |ds| - 1);
    }
  }

  /** Two messages, the newer one just hidden by its reader: the written
      query clears the summary although the older message is still
      visible to that reader. */
  lemma ForMeSummaryClearsVisibleMessage()
    ensures var m1 := MessageDoc("m1", MessageValue(Some("m1"), Some("c"), "a", "hello", Some(1), Some(SENT)));
      var m2 := MessageDoc("m2", MessageValue(Some("m2"), Some("c"), "a", "bye", Some(2), Some(SENT)));
      && ForMeSummaryAsWritten([m1, m2], {("m2", "a")}, "a") == NO_SUMMARY
      && VisibleTailSummary([m1, m2], {("m2", "a")}, "a") == Summary("hello", Some(1))
  {
    var m1 := MessageDoc("m1", MessageValue(Some("m1"), Some("c"), "a", "hello", Some(1), Some(SENT)));
    var m2 := MessageDoc("m2", MessageValue(Some("m2"), Some("c"), "a", "bye", Some(2), Some(SENT)));
    VisibleTailSummarySpec([m1, m2], {("m2", "a")}, "a");
    assert NewestVisibleAt([m1, m2], {("m2", "a")}, "a", 0);
  }

  /** Every message of the list carries its id, as the chat screen's
      listener sets it on each one. */
  predicate AllHaveIds(s: seq<Message>)
    reads s
  {
    forall i :: 0 <= i < |s| ==> s[i].id.Some?
  }

  class MessageAdapter {
    const currentUserId: string
    const chatId: Option<string>
    /** The list object the chat screen also holds. */
    const messages: MessageList

    constructor (uid: string, list: MessageList, chat: Option<string>)
      ensures currentUserId == uid && messages == list && chatId == chat
    {
      currentUserId := uid;
      messages := list;
      chatId := chat;
    }

    /** `getItemCount()`. */
    function ItemCount(): (r: nat)
      reads this, messages
      ensures r == |messages.items|
    {
      |messages.items|
    }

    method GetItemViewType(position: nat) returns (t: int)
      requires position < |messages.items|
      ensures t == ViewType(messages.items[position].Value(), currentUserId)
    {
      var m := messages.items[position];
      if m.senderId == currentUserId {
        t := VIEW_TYPE_SENT;
      } else {
        t := VIEW_TYPE_RECEIVED;
      }
    }

    /** `onBindViewHolder`: a message someone else sent that is not read yet
        gets its stored status set to "read"; the row itself is unchanged
        until the listener reports the change. */
    method OnBindViewHolder(position: nat, store: ChatStore)
      requires position < |messages.items| && messages.items[position].id.Some?
      modifies store`messages
      ensures var m := messages.items[position].Value();
        store.messages == if ShouldMarkRead(m, currentUserId)
          then WithStatus(old(store.messages), m.id.value, READ)
          else old(store.messages)
      ensures InTimeOrder(old(store.messages)) ==> InTimeOrder(store.messages)
    {
      var m := messages.items[position];
      if m.senderId != currentUserId && m.status != Some(READ) {
        store.messages := WithStatus(store.messages, m.id.value, READ);
      }
    }

    /** The long-press handler: whether the delete options are shown. */
    method OnLongClick(position: nat) returns (offered: bool)
      requires position < |messages.items|
      ensures offered <==> CanDelete(messages.items[position].Value(), currentUserId)
    {
      offered := messages.items[position].senderId == currentUserId;
    }

    /** `findMessageIndex`; unlike the chat screen's it calls `equals` on
        each message's id, so it relies on every message having one. */
    method FindMessageIndex(id: string) returns (r: int)
      requires AllHaveIds(messages.items)
      ensures r == MessageIndex(MessageValues(messages.items), id)
    {
      var i := 0;
      while i < |messages.items|
        invariant 0 <= i <= |messages.items|
        invariant forall j :: 0 <= j < i ==> messages.items[j].id != Some(id)
      {
        if messages.items[i].id.value == id {
          return i;
        }
        i := i + 1;
      }
      return -1;
    }

    /** `deleteMessageForEveryone`: the document is deleted, then the chat
        summary becomes the newest remaining message, or ("", null). */
    method DeleteMessageForEveryone(m: Message, store: ChatStore)
      requires m.id.Some?
      modifies store`messages, store`chat
      ensures store.messages == KeepIf(old(store.messages), KeyIsNot(m.id.value))
      ensures store.chat == WithSummary(old(store.chat), TailSummary(store.messages))
      ensures InTimeOrder(old(store.messages)) ==> InTimeOrder(store.messages)
    {
      if InTimeOrder(store.messages) {
        KeepIfInTimeOrder(store.messages, KeyIsNot(m.id.value));
      }
      store.messages := KeepIf(store.messages, KeyIsNot(m.id.value));
      var s := TailSummary(store.messages);
      store.chat := WithSummary(store.chat, s);
    }

    /** The newest message the current user has not hidden, searched from
        the newest down. */
    method NewestVisible(ds: seq<MessageDoc>, marks: set<(string, string)>) returns (s: Summary)
      ensures s == VisibleTailSummary(ds, marks, currentUserId)
    {
      var p := VisibleTo(marks, currentUserId);
      var i := |ds|;
      assert ds[..i] == ds;
      while i > 0
        invariant 0 <= i <= |ds|
        invariant KeepIf(ds, p) == KeepIf(ds[..i], p)
      {
        var d := ds[i - 1];
        assert ds[..i] == ds[..i - 1] + [d];
        KeepIfSnoc(ds[..i - 1], d, p);
        if (d.key, currentUserId) !in marks {
          return SummaryOf(d);
        }
        i := i - 1;
      }
      return NO_SUMMARY;
    }

    /** `deleteMessageForMe`: only the current user's marker is written; when
        the message was the last row, the chat summary becomes the newest
        message the user can still see, or ("", null). */
    method DeleteMessageForMe(m: Message, store: ChatStore)
      requires m.id.Some? && AllHaveIds(messages.items)
      modifies store`deletedFor, store`chat
      ensures store.deletedFor == old(store.deletedFor) + {(m.id.value, currentUserId)}
      ensures var i := MessageIndex(MessageValues(messages.items), m.id.value);
        store.chat == if i != -1 && i == |messages.items| - 1
          then WithSummary(old(store.chat), VisibleTailSummary(store.messages, store.deletedFor, currentUserId))
          else old(store.chat)
    {
      var i := FindMessageIndex(m.id.value);
      store.deletedFor := store.deletedFor + {(m.id.value, currentUserId)};
      if i != -1 && i == |messages.items| - 1 {
        RefreshForMeSummary(store);
      }
    }

    /** The final query of `deleteMessageForMe`, as intended: the chat
        summary becomes the newest message the user can still see. */
    method RefreshForMeSummary(store: ChatStore)
      modifies store`chat
      ensures store.chat == WithSummary(old(store.chat), VisibleTailSummary(store.messages, store.deletedFor, currentUserId))
    {
      var s := NewestVisible(store.messages, store.deletedFor);
      store.chat := WithSummary(store.chat, s);
    }
  }

  /** After delete-for-everyone the deleted message is gone and the summary is
      that of the last remaining message, or ("", null) if none remain; with
      the documents in time order, that message is a newest remaining one. */
  lemma DeleteForEveryoneSummary(ds: seq<MessageDoc>, key: string)
    ensures var rest := KeepIf(ds, KeyIsNot(key));
      && (forall d :: d in rest <==> d in ds && d.key != key)
      && (rest == [] ==> TailSummary(rest) == NO_SUMMARY)
      && (rest != [] ==> TailSummary(rest) == SummaryOf(rest[|rest| - 1]) && rest[|rest| - 1] in ds)
      && (InTimeOrder(ds) ==>
            && InTimeOrder(rest)
            && (forall d :: d in ds && d.key != key ==> NotLater(d.fields.timestamp, TailSummary(rest).time)))
  {
    var rest := KeepIf(ds, KeyIsNot(key));
    KeepIfMembership(ds, KeyIsNot(key));
    if InTimeOrder(ds) {
      KeepIfInTimeOrder(ds, KeyIsNot(key));
      if rest != [] {
        LastIsNewest(rest);
      }
    }
  }
}

=== FILE: new_chat.dfy ===
/** The new-chat screen: the list of other users, rebuilt from each users
    snapshot, and the name search that rebuilds it from a fresh query. */
module NewChats {
  import opened Platform
  import opened Users
  import opened UserAdapters

  /** The search test: the lower-cased display name contains the
      lower-cased query. */
  predicate NameMatches(name: string, query: string)
  {
    Contains(ToLower(name), ToLower(query))
  }

  /** The empty query matches every name. */
  lemma EmptyQueryMatches(name: string)
    ensures NameMatches(name, "")
  {
    ContainsEmpty(ToLower(name));
  }

  /** The number of leading names that can be computed: the loops of the
      screen call `getName()` on every user in order, and it throws on the
      first whose name is missing and whose email is made only of '@', which
      ends that callback. */
  function NamedPrefix(names: seq<Option<string>>): (r: nat)
    ensures r <= |names|
    ensures forall i :: 0 <= i < r ==> names[i].Some?
    ensures r < |names| ==> names[r].None?
  {
    if names == [] || names[0].None? then 0 else 1 + NamedPrefix(names[1..])
  }

  /** The users of `s` whose display name (given alongside in `names`)
      matches `query`, in order. */
  function Matching(s: seq<User>, names: seq<Option<string>>, query: string): (r: seq<User>)
    requires |names| == |s| && forall i :: 0 <= i < |s| ==> names[i].Some?
    ensures |r| <= |s|
  {
    if s == [] then []
    else
      var n := |s| - 1;
      Matching(s[..n], names[..n], query) + (if NameMatches(names[n].value, query) then [s[n]] else [])
  }

  lemma MatchingSnoc(s: seq<User>, names: seq<Option<string>>, query: string, i: nat)
    requires |names| == |s| && i < |s| && forall j :: 0 <= j <= i ==> names[j].Some?
    ensures Matching(s[..i + 1], names[..i + 1], query) ==
      Matching(s[..i], names[..i], query) + (if NameMatches(names[i].value, query) then [s[i]] else [])
  {
    assert s[..i + 1][..i] == s[..i];
    assert names[..i + 1][..i] == names[..i];
  }

  /** Every kept user stands at a position whose name matches. */
  lemma {:induction false} MatchingOnlyMatches(s: seq<User>, names: seq<Option<string>>, query: string)
    requires |names| == |s| && forall i :: 0 <= i < |s| ==> names[i].Some?
    ensures forall u :: u in Matching(s, names, query) ==>
      exists i :: 0 <= i < |s| && s[i] == u && NameMatches(names[i].value, query)
  {
    if s != [] {
      var n := |s| - 1;
      MatchingOnlyMatches(s[..n], names[..n], query);
      MatchingSnoc(s, names, query, n);
      assert s[..n + 1] == s && names[..n + 1] == names;
      forall v | v in Matching(s, names, query)
        ensures exists i :: 0 <= i < |s| && s[i] == v && NameMatches(names[i].value, query)
      {
        if v in Matching(s[..n], names[..n], query) {
          var i :| 0 <= i < n && s[..n][i] == v && NameMatches(names[..n][i].value, query);
          assert s[i] == v && names[i] == names[..n][i];
        } else {
          assert s[n] == v;
        }
      }
    }
  }

  /** Every user whose name matches is kept. */
  lemma {:induction false} MatchingKeepsMatches(s: seq<User>, names: seq<Option<string>>, query: string)
    requires |names| == |s| && forall i :: 0 <= i < |s| ==> names[i].Some?
    ensures forall i :: 0 <= i < |s| && NameMatches(names[i].value, query) ==> s[i] in Matching(s, names, query)
  {
    if s != [] {
      var n := |s| - 1;
      MatchingKeepsMatches(s[..n], names[..n], query);
      MatchingSnoc(s, names, query, n);
      assert s[..n + 1] == s && names[..n + 1] == names;
      forall i | 0 <= i < n && NameMatches(names[i].value, query)
        ensures s[i] in Matching(s, names, query)
      {
        assert s[..n][i] == s[i] && names[..n][i] == names[i];
      }
    }
  }

  /** The kept users keep their order, and the empty query keeps them
      all. */
  lemma {:induction false} MatchingSubsequence(s: seq<User>, names: seq<Option<string>>, query: string)
    requires |names| == |s| && forall i :: 0 <= i < |s| ==> names[i].Some?
    ensures IsSubsequence(Matching(s, names, query), s)
    ensures query == "" ==> Matching(s, names, query) == s
  {
    if s != [] {
      var n := |s| - 1;
      var init := s[..n];
      var u := s[n];
      MatchingSubsequence(init, names[..n], query);
      MatchingSnoc(s, names, query, n);
      assert s[..n + 1] == s && names[..n + 1] == names;
      assert init + [u] == s;
      var m := Matching(init, names[..n], query);
      if NameMatches(names[n].value, query) {
        SubsequenceAppend(m, init, u);
        assert Matching(s, names, query) == m + [u];
      } else {
        SubsequenceExtend(m, init, u);
        assert Matching(s, names, query) == m;
      }
      if query == "" {
        EmptyQueryMatches(names[n].value);
      }
    }
  }

  /** The loop of the search callback, over the fetched users and their
      display names: it appends each matching user and stops at the first
      name that cannot be computed. */
  method SearchLoop(query: string, results: seq<User>, names: seq<Option<string>>)
    returns (kept: seq<User>, crashed: bool)
    requires |names| == |results|
    ensures var k := NamedPrefix(names);
      (crashed <==> k < |results|) && kept == Matching(results[..k], names[..k], query)
  {
    kept := [];
    var i := 0;
    while i < |results|
      invariant 0 <= i <= |results| && i <= NamedPrefix(names)
      invariant kept == Matching(results[..i], names[..i], query)
    {
      var name := names[i];
      if name.None? {
        return kept, true;
      }
      MatchingSnoc(results, names, query, i);
      if NameMatches(name.value, query) {
        kept := kept + [results[i]];
      }
      i := i + 1;
    }
    assert results[..i] == results && names[..i] == names;
    return kept, false;
  }

  /** The loop of the users listener: it appends every user and stops at
      the first name that cannot be computed. */
  method LoadLoop(s: seq<User>, names: seq<Option<string>>) returns (kept: seq<User>, crashed: bool)
    requires |names| == |s|
    ensures var k := NamedPrefix(names);
      (crashed <==> k < |s|) && kept == s[..k]
  {
    kept := [];
    var i := 0;
    while i < |s|
      invariant 0 <= i <= |s| && i <= NamedPrefix(names)
      invariant kept == s[..i]
    {
      if names[i].None? {
        return kept, true;
      }
      kept := kept + [s[i]];
      assert s[..i + 1] == s[..i] + [s[i]];
      i := i + 1;
    }
    assert s[..i] == s;
    return kept, false;
  }

  class NewChatActivity {
    const currentUserId: string
    /** The list object shared with the user adapter. */
    const userList: UserList
    const adapter: UserAdapter

    /** `onCreate`: an empty list shared with a new adapter. */
    constructor (uid: string)
      ensures currentUserId == uid && fresh(userList) && userList.items == []
      ensures fresh(adapter) && adapter.userList == userList && adapter.currentUserId == uid
    {
      currentUserId := uid;
      var list := new UserList();
      userList := list;
      adapter := new UserAdapter(uid, list);
    }

    /** The users snapshot listener of `loadUsers`: on an error nothing
      changes; otherwise the list is cleared and refilled with the users of
      the snapshot (none when it is null), stopping with `crashed` at a user
      whose name cannot be computed (the listener logs every name). */
    method OnUsersSnapshot(failed: bool, value: Option<seq<User>>) returns (crashed: bool)
      modifies userList
      ensures failed ==> userList.items == old(userList.items) && !crashed
      ensures !failed && value.None? ==> userList.items == [] && !crashed
      ensures !failed && value.Some? ==>
        var k := NamedPrefix(DisplayNames(value.value));
        (crashed <==> k < |value.value|) && userList.items == value.value[..k]
    {
      crashed := false;
      if failed {
        return;
      }
      userList.items := [];
      if value.None? {
        return;
      }
      var names := DisplayNames(value.value);
      var kept;
      kept, crashed := LoadLoop(value.value, names);
      userList.items := kept;
    }

    /** The success callback of `searchUsers`: the list is cleared and holds
      the fetched users whose name matches the query, in the order of the
      results, up to a user whose name cannot be computed. */
    method OnSearchResults(query: string, results: seq<User>) returns (crashed: bool)
      modifies userList
      ensures var names := DisplayNames(results);
        var k := NamedPrefix(names);
        (crashed <==> k < |results|) && userList.items == Matching(results[..k], names[..k], query)
    {
      var names := DisplayNames(results);
      var kept;
      kept, crashed := SearchLoop(query, results, names);
      userList.items := kept;
    }
  }
}

=== FILE: platform.dfy ===
/** What the Java, Android and Firebase platform gives the messenger: nullable
    references, the `java.lang.String` operations the app calls, 32-bit `int`
    arithmetic, Firestore timestamps and change kinds, and the `java.util.List`
    operations used to patch the in-memory lists. */
module Platform {

  /** A Java reference that may be `null`. */
  datatype Option<+T> = None | Some(value: T)

  /** A Firestore `Timestamp`; its `compareTo` is a total order, modelled by
      the integer order. */
  type Timestamp = int

  /** The kind of a Firestore `DocumentChange`. */
  datatype ChangeKind = Added | Modified | Removed

  // ---------------------------------------------------------------------
  // java.lang.String

  /** `String.trim` strips every character whose code is at most U+0020. */
  predicate IsTrimmable(c: char) { c <= ' ' }

  function TrimStart(s: string): (r: string)
    ensures |r| <= |s| && r == s[|s| - |r|..]
    ensures r == [] || !IsTrimmable(r[0])
    ensures forall i :: 0 <= i < |s| - |r| ==> IsTrimmable(s[i])
  {
    if s != [] && IsTrimmable(s[0]) then
      var t := TrimStart(s[1..]);
      assert s[1..][|s| - 1 - |t|..] == s[|s| - |t|..];
      t
    else s
  }

  function TrimEnd(s: string): (r: string)
    ensures |r| <= |s| && r == s[..|r|]
    ensures r == [] || !IsTrimmable(r[|r| - 1])
    ensures forall i :: |r| <= i < |s| ==> IsTrimmable(s[i])
  {
    if s != [] && IsTrimmable(s[|s| - 1]) then TrimEnd(s[..|s| - 1]) else s
  }

  /** `s.trim()`: the longest slice of `s` that neither starts nor ends with
      a trimmable character. */
  function Trim(s: string): (r: string)
    ensures r == [] || (!IsTrimmable(r[0]) && !IsTrimmable(r[|r| - 1]))
    ensures var k := |s| - |TrimStart(s)|; k + |r| <= |s| && r == s[k..k + |r|]
    ensures var k := |s| - |TrimStart(s)|;
      (forall i :: 0 <= i < k ==> IsTrimmable(s[i])) && (forall i :: k + |r| <= i < |s| ==> IsTrimmable(s[i]))
  {
    TrimEnd(TrimStart(s))
  }

  /** `s.trim().isEmpty()` holds exactly when every character is trimmable. */
  lemma {:induction false} TrimEmptyIff(s: string)
    ensures Trim(s) == [] <==> forall i :: 0 <= i < |s| ==> IsTrimmable(s[i])
  {
    var t := TrimStart(s);
    if t != [] {
      assert !IsTrimmable(s[|s| - |t|]);
    }
  }

  /** Trimming twice trims no more than once. */
  lemma TrimTwice(s: string)
    ensures Trim(Trim(s)) == Trim(s)
  {
    var r := Trim(s);
    if r != [] {
      assert TrimStart(r) == r;
      assert TrimEnd(r) == r;
    }
  }

  /** `s.trim().isEmpty()`. */
  predicate Blank(s: string)
  {
    Trim(s) == []
  }

  /** `Character.toLowerCase` on ASCII letters; other characters unchanged. */
  function LowerChar(c: char): char
  {
    if 'A' <= c <= 'Z' then (c as int + 32) as char else c
  }

  /** `Character.toUpperCase` on ASCII letters; other characters unchanged. */
  function UpperChar(c: char): char
  {
    if 'a' <= c <= 'z' then (c as int - 32) as char else c
  }

  /** `s.toLowerCase()`, character by character. */
  function ToLower(s: string): (r: string)
    ensures |r| == |s| && forall i :: 0 <= i < |s| ==> r[i] == LowerChar(s[i])
  {
    seq(|s|, i requires 0 <= i < |s| => LowerChar(s[i]))
  }

  /** `s.contains(t)`: `t` occurs in `s` as a contiguous block. */
  predicate Contains(s: string, t: string)
  {
    exists i :: 0 <= i <= |s| - |t| && OccursAt(s, t, i)
  }

  /** `t` occurs in `s` starting at index `i`. */
  predicate OccursAt(s: string, t: string, i: nat)
  {
    i + |t| <= |s| && s[i..i + |t|] == t
  }

  lemma ContainsEmpty(s: string)
    ensures Contains(s, "")
  {
    assert OccursAt(s, "", 0);
  }

  /** The characters of `s` before its first `c` (all of `s` when there is none). */
  function PrefixBefore(s: string, c: char): (r: string)
    ensures |r| <= |s| && r == s[..|r|] && c !in r
    ensures |r| < |s| ==> s[|r|] == c
  {
    if s == [] || s[0] == c then [] else [s[0]] + PrefixBefore(s[1..], c)
  }

  /** `email.split("@")[0]`. `split` drops trailing empty strings, so a
      non-empty string made only of '@' yields an empty array and indexing it
      throws: that case is `None`. */
  function LocalPart(email: string): (r: Option<string>)
    ensures r.None? <==> |email| > 0 && forall i :: 0 <= i < |email| ==> email[i] == '@'
    ensures r.Some? ==> r.value == PrefixBefore(email, '@')
  {
    if |email| > 0 && forall i :: 0 <= i < |email| ==> email[i] == '@' then None
    else Some(PrefixBefore(email, '@'))
  }

  // ---------------------------------------------------------------------
  // 32-bit int

  const INT_MIN: int := -0x8000_0000
  const INT_MAX: int := 0x7FFF_FFFF

  /** Two's-complement wrap-around of an `int` result. */
  function WrapInt(x: int): (r: int)
    ensures INT_MIN <= r <= INT_MAX
    ensures (r - x) % 0x1_0000_0000 == 0
  {
    (x - INT_MIN) % 0x1_0000_0000 + INT_MIN
  }

  /** `Math.abs(int)`: the negation of `Integer.MIN_VALUE` overflows back to itself. */
  function JavaAbs(x: int): (r: int)
    requires INT_MIN <= x <= INT_MAX
    ensures r == INT_MIN <==> x == INT_MIN
    ensures x != INT_MIN ==> 0 <= r <= INT_MAX && (r == x || r == -x)
  {
    if x == INT_MIN then INT_MIN else if x < 0 then -x else x
  }

  /** Java's `/` on `int`: the quotient truncated toward zero. */
  function JavaQuot(a: int, b: int): (q: int)
    requires b > 0
    ensures a >= 0 ==> q >= 0
    ensures a < 0 ==> q <= 0
  {
    if a >= 0 then a / b else -((-a) / b)
  }

  /** Java's `%`: truncates toward zero, so the remainder has the sign of `a`;
      it is what is left of `a` after `JavaQuot(a, b)` times `b`. */
  function JavaRem(a: int, b: int): (r: int)
    requires b > 0
    ensures a >= 0 ==> 0 <= r < b
    ensures a < 0 ==> -b < r <= 0
    ensures a == b * JavaQuot(a, b) + r
  {
    if a >= 0 then a % b else
      var q := (-a) / b;
      assert -a == b * q + (-a) % b;
      assert b * -q == -(b * q);
      -((-a) % b)
  }

  /** A non-zero multiple of a positive `b` is at least `b` away from 0. */
  lemma MultipleBounds(b: int, k: int)
    requires b > 0
    ensures k >= 1 ==> b * k >= b
    ensures k <= -1 ==> b * k <= -b
  {
    if k >= 1 {
      assert b * k == b + b * (k - 1);
    } else if k <= -1 {
      assert b * k == -b + b * (k + 1);
    }
  }

  /** The contract of `JavaRem` leaves exactly one value: any `r` with the
      sign-dependent bounds that differs from `a` by a multiple of `b` is
      `JavaRem(a, b)`, and its quotient is `JavaQuot(a, b)`. */
  lemma {:induction false} JavaRemUnique(a: int, b: int, q: int, r: int)
    requires b > 0
    requires a >= 0 ==> 0 <= r < b
    requires a < 0 ==> -b < r <= 0
    requires a == b * q + r
    ensures r == JavaRem(a, b) && q == JavaQuot(a, b)
  {
    var q0 := JavaQuot(a, b);
    var d := JavaRem(a, b);
    assert b * (q0 - q) == b * q0 - b * q;
    assert b * (q0 - q) == r - d;
    MultipleBounds(b, q0 - q);
  }

  /** Java's `%` is Dafny's `%` on a non-negative dividend and is odd in the
      dividend. */
  lemma JavaRemAgrees(a: int, b: int)
    requires b > 0
    ensures a >= 0 ==> JavaRem(a, b) == a % b
    ensures JavaRem(-a, b) == -JavaRem(a, b)
  {
    if a > 0 {
      assert JavaRem(-a, b) == -(a % b);
    } else if a < 0 {
      assert JavaRem(-a, b) == (-a) % b;
    }
  }

  // ---------------------------------------------------------------------
  // java.util.List

  /** `list.add(i, x)`. */
  function InsertAt<T>(s: seq<T>, i: nat, x: T): (r: seq<T>)
    requires i <= |s|
    ensures |r| == |s| + 1 && r[i] == x
    ensures r[..i] == s[..i] && r[i + 1..] == s[i..]
    ensures multiset(r) == multiset(s) + multiset{x}
  {
    assert s == s[..i] + s[i..];
    s[..i] + [x] + s[i..]
  }

  /** `list.remove(i)`. */
  function RemoveAt<T>(s: seq<T>, i: nat): (r: seq<T>)
    requires i < |s|
    ensures |r| == |s| - 1
    ensures r[..i] == s[..i] && r[i..] == s[i + 1..]
    ensures multiset(r) == multiset(s) - multiset{s[i]}
  {
    assert s == s[..i] + [s[i]] + s[i + 1..];
    s[..i] + s[i + 1..]
  }

  /** Where each element of `s` lands after `InsertAt`. */
  lemma InsertAtIndex<T>(s: seq<T>, i: nat, x: T)
    requires i <= |s|
    ensures forall a :: 0 <= a < i ==> InsertAt(s, i, x)[a] == s[a]
    ensures forall a :: i < a <= |s| ==> InsertAt(s, i, x)[a] == s[a - 1]
  {
    var r := InsertAt(s, i, x);
    forall a | 0 <= a < i
      ensures r[a] == s[a]
    {
      assert r[a] == r[..i][a];
    }
    forall a | i < a <= |s|
      ensures r[a] == s[a - 1]
    {
      assert r[a] == r[i + 1..][a - i - 1];
    }
  }

  /** The element at position `a` after `InsertAt`. */
  lemma InsertAtElem<T>(s: seq<T>, i: nat, x: T, a: nat)
    requires i <= |s| && a <= |s|
    ensures InsertAt(s, i, x)[a] == if a < i then s[a] else if a == i then x else s[a - 1]
  {
    var r := InsertAt(s, i, x);
    if a < i {
      assert r[a] == r[..i][a];
    } else if a > i {
      assert r[a] == r[i + 1..][a - i - 1];
    }
  }

  /** Where each element of `s` lands after `RemoveAt`. */
  lemma RemoveAtIndex<T>(s: seq<T>, i: nat)
    requires i < |s|
    ensures forall a :: 0 <= a < i ==> RemoveAt(s, i)[a] == s[a]
    ensures forall a :: i <= a < |s| - 1 ==> RemoveAt(s, i)[a] == s[a + 1]
  {
    var t := RemoveAt(s, i);
    forall a | 0 <= a < i
      ensures t[a] == s[a]
    {
      assert t[a] == t[..i][a];
    }
    forall a | i <= a < |s| - 1
      ensures t[a] == s[a + 1]
    {
      assert t[a] == t[i..][a - i];
    }
  }

  /** Removing what was just inserted gives back the list. */
  lemma RemoveAtInsertAt<T>(s: seq<T>, i: nat, x: T)
    requires i <= |s|
    ensures RemoveAt(InsertAt(s, i, x), i) == s
  {
    var r := InsertAt(s, i, x);
    assert RemoveAt(r, i) == r[..i] + r[i + 1..];
    assert s == s[..i] + s[i..];
  }

  /** The elements of a prefix one longer. */
  lemma MultisetPrefix<T>(s: seq<T>, i: nat)
    requires i < |s|
    ensures multiset(s[..i + 1]) == multiset(s[..i]) + multiset{s[i]}
  {
    assert s[..i + 1] == s[..i] + [s[i]];
  }

  /** `list.remove(x)`: drops the first occurrence of `x`, if any. */
  function RemoveFirst<T(==)>(s: seq<T>, x: T): (r: seq<T>)
    ensures x !in s ==> r == s
    ensures x in s ==> |r| == |s| - 1 && multiset(r) == multiset(s) - multiset{x}
  {
    if s == [] then []
    else
      assert s == [s[0]] + s[1..];
      if s[0] == x then s[1..]
      else [s[0]] + RemoveFirst(s[1..], x)
  }

  /** `a` is `b` with some elements left out, the rest in their order. */
  predicate IsSubsequence<T(==)>(a: seq<T>, b: seq<T>)
  {
    if a == [] then true
    else if b == [] then false
    else if a[|a| - 1] == b[|b| - 1] then IsSubsequence(a[..|a| - 1], b[..|b| - 1])
    else IsSubsequence(a, b[..|b| - 1])
  }

  lemma {:induction false} SubsequenceDropLast<T>(a: seq<T>, b: seq<T>)
    requires a != [] && IsSubsequence(a, b)
    ensures IsSubsequence(a[..|a| - 1], b)
    decreases |b|, 0
  {
    if a[|a| - 1] == b[|b| - 1] {
      SubsequenceExtend(a[..|a| - 1], b[..|b| - 1], b[|b| - 1]);
      assert b[..|b| - 1] + [b[|b| - 1]] == b;
    } else {
      SubsequenceDropLast(a, b[..|b| - 1]);
      SubsequenceExtend(a[..|a| - 1], b[..|b| - 1], b[|b| - 1]);
      assert b[..|b| - 1] + [b[|b| - 1]] == b;
    }
  }

  lemma {:induction false} SubsequenceExtend<T>(a: seq<T>, b: seq<T>, x: T)
    requires IsSubsequence(a, b)
    ensures IsSubsequence(a, b + [x])
    decreases |b|, 1
  {
    var bx := b + [x];
    assert bx[..|bx| - 1] == b;
    if a != [] && a[|a| - 1] == x {
      SubsequenceDropLast(a, b);
    }
  }

  lemma {:induction false} IsSubsequenceRefl<T>(s: seq<T>)
    ensures IsSubsequence(s, s)
  {
    if s != [] {
      IsSubsequenceRefl(s[..|s| - 1]);
    }
  }

  /** Appending the same element to both sides keeps the relation. */
  lemma SubsequenceAppend<T>(a: seq<T>, b: seq<T>, x: T)
    requires IsSubsequence(a, b)
    ensures IsSubsequence(a + [x], b + [x])
  {
    assert (a + [x])[..|a|] == a;
    assert (b + [x])[..|b|] == b;
  }

  /** The elements of `s` that pass `p`, in their order: what a loop that
      appends each passing element to an empty list builds. */
  function KeepIf<T>(s: seq<T>, p: T -> bool): (r: seq<T>)
    ensures |r| <= |s|
  {
    if s == [] then [] else KeepIf(s[..|s| - 1], p) + (if p(s[|s| - 1]) then [s[|s| - 1]] else [])
  }

  lemma KeepIfSnoc<T>(s: seq<T>, x: T, p: T -> bool)
    ensures KeepIf(s + [x], p) == KeepIf(s, p) + (if p(x) then [x] else [])
  {
    assert (s + [x])[..|s|] == s;
  }

  /** Filtering one more element of a prefix. */
  lemma KeepIfPrefix<T>(s: seq<T>, i: nat, p: T -> bool)
    requires i < |s|
    ensures KeepIf(s[..i + 1], p) == KeepIf(s[..i], p) + (if p(s[i]) then [s[i]] else [])
  {
    assert s[..i + 1] == s[..i] + [s[i]];
    KeepIfSnoc(s[..i], s[i], p);
  }

  /** An element is kept exactly when it is in `s` and passes `p`. */
  lemma {:induction false} KeepIfMembership<T>(s: seq<T>, p: T -> bool)
    ensures forall x :: x in KeepIf(s, p) <==> x in s && p(x)
  {
    if s != [] {
      var init := s[..|s| - 1];
      KeepIfMembership(init, p);
      assert s == init + [s[|s| - 1]];
    }
  }

  /** The kept elements keep their relative order. */
  lemma {:induction false} KeepIfSubsequence<T>(s: seq<T>, p: T -> bool)
    ensures IsSubsequence(KeepIf(s, p), s)
  {
    if s != [] {
      var init := s[..|s| - 1];
      var x := s[|s| - 1];
      KeepIfSubsequence(init, p);
      assert init + [x] == s;
      if p(x) {
        assert KeepIf(s, p) == KeepIf(init, p) + [x];
        SubsequenceAppend(KeepIf(init, p), init, x);
      } else {
        assert KeepIf(s, p) == KeepIf(init, p);
        SubsequenceExtend(KeepIf(init, p), init, x);
      }
    }
  }

  /** When every element passes, nothing is dropped. */
  lemma {:induction false} KeepIfAll<T>(s: seq<T>, p: T -> bool)
    requires forall i :: 0 <= i < |s| ==> p(s[i])
    ensures KeepIf(s, p) == s
  {
    if s != [] {
      KeepIfAll(s[..|s| - 1], p);
    }
  }

  /** When no element passes, everything is dropped. */
  lemma {:induction false} KeepIfNone<T>(s: seq<T>, p: T -> bool)
    requires forall i :: 0 <= i < |s| ==> !p(s[i])
    ensures KeepIf(s, p) == []
  {
    if s != [] {
      KeepIfNone(s[..|s| - 1], p);
    }
  }

  /** Filtering a concatenation filters each part. */
  lemma {:induction false} KeepIfAppend<T>(a: seq<T>, b: seq<T>, p: T -> bool)
    ensures KeepIf(a + b, p) == KeepIf(a, p) + KeepIf(b, p)
  {
    if b != [] {
      var n := |b| - 1;
      KeepIfAppend(a, b[..n], p);
      assert a + b == (a + b[..n]) + [b[n]];
      assert b == b[..n] + [b[n]];
      KeepIfSnoc(a + b[..n], b[n], p);
      KeepIfSnoc(b[..n], b[n], p);
    } else {
      assert a + b == a;
    }
  }

  /** Filtering an element placed between two parts filters each part. */
  lemma KeepIfAround<T>(a: seq<T>, x: T, b: seq<T>, p: T -> bool)
    ensures KeepIf(a + [x] + b, p) == KeepIf(a, p) + (if p(x) then [x] else []) + KeepIf(b, p)
  {
    KeepIfAppend(a + [x], b, p);
    KeepIfSnoc(a, x, p);
  }

  /** Filtering `s` filters its two parts on either side of `k`. */
  lemma {:induction false} KeepIfSplit<T>(s: seq<T>, k: nat, p: T -> bool)
    requires k <= |s|
    ensures KeepIf(s, p) == KeepIf(s[..k], p) + KeepIf(s[k..], p)
  {
    if k == |s| {
      assert s[..k] == s;
      assert s[k..] == [];
    } else {
      var n := |s| - 1;
      var init, mid, last := s[..n], s[k..n], s[n];
      var e := if p(last) then [last] else [];
      KeepIfSplit(init, k, p);
      assert init[..k] == s[..k];
      assert init[k..] == mid;
      var a, b := KeepIf(s[..k], p), KeepIf(mid, p);
      assert KeepIf(init, p) == a + b;
      assert KeepIf(s, p) == (a + b) + e;
      assert s[k..] == mid + [last];
      KeepIfSnoc(mid, last, p);
      assert KeepIf(s[k..], p) == b + e;
      assert (a + b) + e == a + (b + e);
    }
  }

  /** An element that fails `p` can be left out before filtering. */
  lemma KeepIfSkip<T>(a: seq<T>, x: T, b: seq<T>, p: T -> bool)
    requires !p(x)
    ensures KeepIf(a + [x] + b, p) == KeepIf(a + b, p)
  {
    KeepIfAround(a, x, b, p);
    KeepIfAppend(a, b, p);
  }

  /** Nothing is kept from a suffix in which no element passes. */
  lemma KeepIfNoneFrom<T>(s: seq<T>, k: nat, p: T -> bool)
    requires k <= |s|
    requires forall j :: k <= j < |s| ==> !p(s[j])
    ensures KeepIf(s[k..], p) == []
  {
    var tail := s[k..];
    forall j | 0 <= j < |tail|
      ensures !p(tail[j])
    {
      assert tail[j] == s[k + j];
    }
    KeepIfNone(tail, p);
  }

  /** Inserting an element that fails `p` leaves the kept elements as they
      were. */
  lemma KeepIfInsertFailing<T>(s: seq<T>, k: nat, x: T, p: T -> bool)
    requires k <= |s| && !p(x)
    ensures KeepIf(InsertAt(s, k, x), p) == KeepIf(s, p)
  {
    KeepIfSkip(s[..k], x, s[k..], p);
    KeepIfSplit(s, k, p);
    KeepIfAppend(s[..k], s[k..], p);
  }

  /** Inserting a passing element after every passing one appends it to the
      kept elements. */
  lemma KeepIfInsertLast<T>(s: seq<T>, k: nat, x: T, p: T -> bool)
    requires k <= |s| && p(x)
    requires forall j :: k <= j < |s| ==> !p(s[j])
    ensures KeepIf(InsertAt(s, k, x), p) == KeepIf(s, p) + [x]
  {
    KeepIfAround(s[..k], x, s[k..], p);
    KeepIfSplit(s, k, p);
    KeepIfNoneFrom(s, k, p);
    var ka := KeepIf(s[..k], p);
    assert ka + [x] + [] == ka + [x];
    assert ka + [] == ka;
  }
}

=== FILE: profile_settings.dfy ===
/** The profile screen: the name field, the save button and its progress
    indicator, and the `isSaving` flag that keeps a second save from
    starting while one is in flight. */
module ProfileSettings {
  import opened Platform
  import opened Users
  import opened TextDrawable

  /** The letter avatar as drawn: its initial and its background colour. */
  datatype Avatar = Avatar(initial: string, color: string)

  class ProfileSettingsActivity {
    var isSaving: bool
    var saveEnabled: bool
    var progressVisible: bool
    var nameText: string
    var finished: bool
    /** The avatar shown, `None` before one is drawn. */
    var avatar: Option<Avatar>

    /** `onCreate`: the profile is being loaded, so the progress indicator
      shows and the button is disabled. */
    constructor ()
      ensures !isSaving && !finished && nameText == "" && avatar.None?
      ensures progressVisible && !saveEnabled
    {
      avatar := None;
      isSaving := false;
      nameText := "";
      finished := false;
      progressVisible := true;
      saveEnabled := false;
    }

    /** `showLoading`. */
    method ShowLoading(loading: bool)
      modifies this`progressVisible, this`saveEnabled
      ensures progressVisible == loading && saveEnabled == !loading
    {
      progressVisible := loading;
      saveEnabled := !loading;
    }

    /** The answer to the profile load, with `user` the stored document
      (`null` when it is missing). The field shows the display name and the
      avatar is drawn from it, then loading ends. `crashed` is an exception
      that ends the callback first: `getName()` throws for a user with no
      usable name, and the avatar's colour lookup throws for a name whose
      hash code is `Integer.MIN_VALUE`; loading then stays shown. */
    method OnUserLoaded(user: User?) returns (crashed: bool)
      modifies this`nameText, this`avatar, this`progressVisible, this`saveEnabled
      ensures user == null ==>
        !crashed && nameText == old(nameText) && avatar == old(avatar)
      ensures user != null ==>
        var name := user.GetName();
        && (crashed <==> name.None? || ColorIndexAsWritten(name).None?)
        && nameText == (if name.Some? then name.value else old(nameText))
        && avatar == (if crashed then old(avatar) else Some(Avatar(Initial(name), ColorFor(name))))
        && (!crashed ==> avatar.value.color == PALETTE[ColorIndexAsWritten(name).value])
      ensures crashed ==> progressVisible == old(progressVisible) && saveEnabled == old(saveEnabled)
      ensures !crashed ==> !progressVisible && saveEnabled
    {
      crashed := false;
      if user != null {
        var name := user.GetName();
        if name.None? {
          return true;
        }
        nameText := name.value;
        if ColorIndexAsWritten(name).None? {
          return true;
        }
        ColorIndexAgrees(name);
        avatar := Some(Avatar(Initial(name), ColorFor(name)));
      }
      ShowLoading(false);
    }

    method OnLoadFailed()
      modifies this`progressVisible, this`saveEnabled
      ensures !progressVisible && saveEnabled
    {
      ShowLoading(false);
    }

    /** `saveProfile`: nothing happens while a save is in flight or when the
      trimmed name is empty; otherwise saving starts, the button is disabled,
      and the trimmed name is sent (`sent`). */
    method SaveProfile() returns (sent: Option<string>)
      modifies this`isSaving, this`progressVisible, this`saveEnabled
      ensures old(isSaving) || Blank(nameText) ==>
        sent.None? && isSaving == old(isSaving)
        && progressVisible == old(progressVisible) && saveEnabled == old(saveEnabled)
      ensures !old(isSaving) && !Blank(nameText) ==>
        sent == Some(Trim(nameText)) && isSaving && progressVisible && !saveEnabled
    {
      if isSaving {
        return None;
      }
      var newName := Trim(nameText);
      if newName == [] {
        return None;
      }
      isSaving := true;
      ShowLoading(true);
      return Some(newName);
    }

    /** `handleSaveComplete`. */
    method HandleSaveComplete()
      modifies this`isSaving, this`progressVisible, this`saveEnabled
      ensures !isSaving && !progressVisible && saveEnabled
    {
      isSaving := false;
      ShowLoading(false);
    }

    /** A successful save hides the progress and enables the button but
      leaves `isSaving` set, so a further save is refused until the screen
      is closed from the dialog (`confirmed`). */
    method OnSaveSucceeded(confirmed: bool)
      modifies this`progressVisible, this`saveEnabled, this`finished
      ensures !progressVisible && saveEnabled
      ensures finished == (old(finished) || confirmed)
    {
      progressVisible := false;
      saveEnabled := true;
      if confirmed {
        finished := true;
      }
    }

    /** A failed save ends the save. */
    method OnSaveFailed()
      modifies this`isSaving, this`progressVisible, this`saveEnabled
      ensures !isSaving && !progressVisible && saveEnabled
    {
      HandleSaveComplete();
    }

    /** `onSupportNavigateUp`: the screen closes only when no save is in
      flight. */
    method OnSupportNavigateUp() returns (handled: bool)
      modifies this`finished
      ensures handled == !isSaving
      ensures finished == (old(finished) || !isSaving)
    {
      if !isSaving {
        finished := true;
        return true;
      }
      return false;
    }

    /** `onDestroy` always ends any save. */
    method OnDestroy()
      modifies this`isSaving, this`progressVisible, this`saveEnabled
      ensures !isSaving && !progressVisible && saveEnabled
    {
      HandleSaveComplete();
    }
  }

  /** The name a save stores: the trimmed name is never blank, so the stored
      user keeps it rather than falling back to the email. */
  lemma SavedNameKept(nameText: string, email: string)
    requires !Blank(nameText)
    ensures DisplayName(Some(Trim(nameText)), email) == Some(Trim(nameText))
  {
    TrimTwice(nameText);
  }
}

=== FILE: store.dfy ===
/** The part of the Firestore database one chat screen reads and writes: the
    chat document, its `messages` sub-collection and the per-user
    `deletedFor` markers. Writes are field assignments; the network, the
    asynchronous completion of each request and its failure are not part of
    this module. */
module Store {
  import opened Platform
  import opened Chats
  import opened Messages

  /** A document of the `messages` sub-collection: its key and its fields. */
  datatype MessageDoc = MessageDoc(key: string, fields: MessageValue)

  class ChatStore {
    /** The chat document. */
    var chat: ChatValue
    /** The `messages` sub-collection in the order of the `timestamp` field,
        oldest first: the order every message query of the app uses, so the
        newest message is the last. `InTimeOrder` states that order; every
        write of the model keeps it (see the `InTimeOrder` clauses of the
        methods that write this field). */
    var messages: seq<MessageDoc>
    /** `(message key, user id)` for every `deletedFor/<uid>` document. */
    var deletedFor: set<(string, string)>

    constructor (c: ChatValue, ms: seq<MessageDoc>, marks: set<(string, string)>)
      ensures chat == c && messages == ms && deletedFor == marks
    {
      chat := c;
      messages := ms;
      deletedFor := marks;
    }
  }

  /** `a` does not come after `b` in the order of the `timestamp` field,
      where a missing value comes first. */
  predicate NotLater(a: Option<Timestamp>, b: Option<Timestamp>)
  {
    a.None? || (b.Some? && a.value <= b.value)
  }

  /** The documents are in the order of their `timestamp` field, oldest
      first. */
  predicate InTimeOrder(ds: seq<MessageDoc>)
  {
    forall i, j :: 0 <= i < j < |ds| ==> NotLater(ds[i].fields.timestamp, ds[j].fields.timestamp)
  }

  /** In documents in time order the last one is a newest one. */
  lemma LastIsNewest(ds: seq<MessageDoc>)
    requires InTimeOrder(ds) && ds != []
    ensures forall d :: d in ds ==> NotLater(d.fields.timestamp, ds[|ds| - 1].fields.timestamp)
  {
    forall d | d in ds
      ensures NotLater(d.fields.timestamp, ds[|ds| - 1].fields.timestamp)
    {
      var k :| 0 <= k < |ds| && ds[k] == d;
    }
  }

  /** Adding a document not older than any stored one keeps the order. */
  lemma AppendInTimeOrder(ds: seq<MessageDoc>, d: MessageDoc)
    requires InTimeOrder(ds)
    requires forall e :: e in ds ==> NotLater(e.fields.timestamp, d.fields.timestamp)
    ensures InTimeOrder(ds + [d])
  {
    var r := ds + [d];
    forall i, j | 0 <= i < j < |r|
      ensures NotLater(r[i].fields.timestamp, r[j].fields.timestamp)
    {
      assert r[i] == ds[i];
      if j == |ds| {
        assert ds[i] in ds;
      }
    }
  }

  /** Removing documents keeps the order of the others. */
  lemma {:induction false} KeepIfInTimeOrder(ds: seq<MessageDoc>, p: MessageDoc -> bool)
    requires InTimeOrder(ds)
    ensures InTimeOrder(KeepIf(ds, p))
  {
    if ds != [] {
      var n := |ds| - 1;
      var init := ds[..n];
      assert ds == init + [ds[n]];
      KeepIfInTimeOrder(init, p);
      KeepIfSnoc(init, ds[n], p);
      KeepIfMembership(init, p);
      var kept := KeepIf(init, p);
      if p(ds[n]) {
        forall d | d in kept
          ensures NotLater(d.fields.timestamp, ds[n].fields.timestamp)
        {
          var k :| 0 <= k < n && init[k] == d;
        }
        AppendInTimeOrder(kept, ds[n]);
      }
    }
  }

  /** The message documents with their status field set to `status` where the
      key is `key`: `document(key).update("status", status)`, which changes
      nothing when there is no such document. */
  function WithStatus(ds: seq<MessageDoc>, key: string, status: string): (r: seq<MessageDoc>)
    ensures |r| == |ds|
    ensures forall i :: 0 <= i < |ds| ==> r[i].key == ds[i].key
    ensures forall i :: 0 <= i < |ds| && ds[i].key == key ==> r[i].fields == ds[i].fields.(status := Some(status))
    ensures forall i :: 0 <= i < |ds| && ds[i].key != key ==> r[i] == ds[i]
    ensures InTimeOrder(ds) ==> InTimeOrder(r)
  {
    seq(|ds|, i requires 0 <= i < |ds| =>
      if ds[i].key == key then ds[i].(fields := ds[i].fields.(status := Some(status))) else ds[i])
  }
}

=== FILE: text_drawable.dfy ===
/** The letter avatar: which initial is drawn and which of the nine palette
    colours fills the circle. The bitmap drawing itself is not modelled. */
module TextDrawable {
  import opened Platform

  /** The nine background colours, in palette order. */
  const PALETTE: seq<string> :=
    ["#F44336", "#E91E63", "#9C27B0", "#3F51B5", "#03A9F4",
     "#009688", "#4CAF50", "#FF9800", "#795548"]

  /** The initial drawn on the avatar: "?" for a missing or empty name,
      otherwise the first character, upper-cased. */
  function Initial(name: Option<string>): (r: string)
    ensures name.None? || name.value == [] ==> r == "?"
    ensures name.Some? && name.value != [] ==> r == [UpperChar(name.value[0])]
  {
    if name.Some? && name.value != [] then [UpperChar(name.value[0])] else "?"
  }

  /** Two names with the same first character get the same initial. */
  lemma InitialOfFirstChar(a: string, b: string)
    requires a != [] && b != [] && a[0] == b[0]
    ensures Initial(Some(a)) == Initial(Some(b))
  {
  }

  /** `String.hashCode()`: `h = 31 * h + c` over the characters, in 32-bit
      arithmetic. */
  function HashCode(s: string): (r: int)
    ensures INT_MIN <= r <= INT_MAX
  {
    if s == [] then 0
    else WrapInt(31 * HashCode(s[..|s| - 1]) + s[|s| - 1] as int)
  }

  /** `c * 31^e`, as repeated multiplication by 31. */
  function Scaled(c: int, e: nat): int
  {
    if e == 0 then c else 31 * Scaled(c, e - 1)
  }

  /** The documented value of `String.hashCode()` before any overflow:
      `s[0]*31^(n-1) + s[1]*31^(n-2) + ... + s[n-1]`. */
  function HashSum(s: string): int
  {
    if s == [] then 0 else Scaled(s[0] as int, |s| - 1) + HashSum(s[1..])
  }

  /** One more character multiplies the sum so far by 31 and adds the code. */
  lemma {:induction false} HashSumSnoc(s: string, c: char)
    ensures HashSum(s + [c]) == 31 * HashSum(s) + c as int
  {
    var t := s + [c];
    if s != [] {
      assert t[0] == s[0];
      assert t[1..] == s[1..] + [c];
      HashSumSnoc(s[1..], c);
      assert HashSum(t) == Scaled(s[0] as int, |s|) + HashSum(s[1..] + [c]);
    } else {
      assert t[1..] == [];
      assert HashSum(t) == Scaled(c as int, 0) + HashSum([]);
    }
  }

  /** Numbers that differ by a multiple of 2^32 wrap to the same `int`. */
  lemma SameWrap(a: int, b: int, q: int)
    requires a - b == 0x1_0000_0000 * q
    ensures WrapInt(a) == WrapInt(b)
  {
    assert a - INT_MIN == (b - INT_MIN) + 0x1_0000_0000 * q;
  }

  /** The running 32-bit hash is the documented sum wrapped to `int`. */
  lemma {:induction false} HashCodeClosedForm(s: string)
    ensures HashCode(s) == WrapInt(HashSum(s))
  {
    if s != [] {
      var n := |s| - 1;
      var p := s[..n];
      var c := s[n] as int;
      assert s == p + [s[n]];
      HashCodeClosedForm(p);
      HashSumSnoc(p, s[n]);
      var h := HashCode(p);
      var sum := HashSum(p);
      var d := h - sum;
      assert d % 0x1_0000_0000 == 0;
      var q := d / 0x1_0000_0000;
      assert d == 0x1_0000_0000 * q;
      SameWrap(31 * h + c, 31 * sum + c, 31 * q);
      assert HashCode(s) == WrapInt(31 * h + c);
    }
  }

  /** The palette index as written: `Math.abs(hash) % 9`, with hash 0 for a
      missing name. `None` is the `ArrayIndexOutOfBoundsException` a negative
      index raises. */
  function ColorIndexAsWritten(name: Option<string>): (r: Option<nat>)
    ensures r.Some? ==> r.value < |PALETTE|
    ensures name.None? ==> r == Some(0)
    ensures r.None? <==> name.Some? && HashCode(name.value) == INT_MIN
  {
    var hash := if name.Some? then JavaAbs(HashCode(name.value)) else 0;
    var i := JavaRem(hash, |PALETTE|);
    if 0 <= i < |PALETTE| then Some(i) else None
  }

  /** `hashCode` is the last entry of any table of running hashes that
      starts at 0 and follows `h = 31 * h + c` in 32-bit arithmetic. */
  lemma {:induction false} HashChain(s: string, hs: seq<int>)
    requires |hs| == |s| + 1 && hs[0] == 0
    requires forall k :: 0 <= k < |s| ==> hs[k + 1] == WrapInt(31 * hs[k] + s[k] as int)
    ensures HashCode(s) == hs[|s|]
  {
    if s != [] {
      var n := |s| - 1;
      HashChain(s[..n], hs[..n + 1]);
    }
  }

  /** The name whose hash code is `Integer.MIN_VALUE`, so that `Math.abs`
      leaves it negative and the palette lookup fails. */
  lemma MinValueNameCrashes()
    ensures HashCode("polygenelubricants") == INT_MIN
    ensures ColorIndexAsWritten(Some("polygenelubricants")).None?
  {
    // The running hashes of "", "p", "po", ..., "polygenelubricants".
    HashChain("polygenelubricants",
      [0, 112, 3583, 111181, 3446732,
       106848795, -982654550, -397519868, 561786081, 235499435,
       -1289451990, -1318305928, 2082189306, 123359151, -470833516,
       -1710937011, -1499439679, 762010323, -2147483648]);
  }

  /** The palette index as intended: the remainder is taken before the
      absolute value, `Math.abs(hash % 9)`, which is never negative. */
  function ColorIndex(name: Option<string>): (r: nat)
    ensures r < |PALETTE|
    ensures name.None? ==> r == 0
  {
    if name.Some? then JavaAbs(JavaRem(HashCode(name.value), |PALETTE|)) else 0
  }

  /** The intended index agrees with the written one on every name for which
      the written one does not fail. */
  lemma ColorIndexAgrees(name: Option<string>)
    ensures ColorIndexAsWritten(name).Some? ==> ColorIndexAsWritten(name).value == ColorIndex(name)
  {
    if name.Some? {
      var h := HashCode(name.value);
      if h < 0 && h != INT_MIN {
        assert JavaRem(JavaAbs(h), 9) == (-h) % 9;
        assert JavaRem(h, 9) == -((-h) % 9);
      }
    }
  }

  /** `getColorForName`: the colour the avatar circle is filled with. */
  function ColorFor(name: Option<string>): (r: string)
    ensures r in PALETTE
    ensures name.None? ==> r == PALETTE[0]
  {
    PALETTE[ColorIndex(name)]
  }
}

=== FILE: user.dfy ===
/** The user bean: a document of the `users` collection, with the display-name
    fallback that both the constructor and `getName` apply. */
module Users {
  import opened Platform

  /** `name != null && !name.trim().isEmpty() ? name : email.split("@")[0]`.
      `None` stands for the exception `split` leads to when the email is
      non-empty and made only of '@'. */
  function DisplayName(name: Option<string>, email: string): (r: Option<string>)
    ensures name.Some? && !Blank(name.value) ==> r == name
    ensures name.None? || Blank(name.value) ==>
      && (r.None? <==> |email| > 0 && forall i :: 0 <= i < |email| ==> email[i] == '@')
      && (r.Some? ==> '@' !in r.value && |r.value| <= |email| && r.value == email[..|r.value|])
      && (r.Some? && |r.value| < |email| ==> email[|r.value|] == '@')
  {
    if name.Some? && !Blank(name.value) then name else LocalPart(email)
  }

  /** Applying the fallback to its own result changes nothing: a stored name
      that came from the email is reproduced from the email. */
  lemma DisplayNameIdempotent(name: Option<string>, email: string)
    requires DisplayName(name, email).Some?
    ensures DisplayName(DisplayName(name, email), email) == DisplayName(name, email)
  {
  }

  class User {
    var uid: string
    var email: string
    var name: Option<string>
    var isOnline: bool
    var lastSeen: int

    /** `new User(uid, email, name)`: the name falls back to the part of the
        email before the first '@'; the user starts offline, last seen at
        `now` (the clock reading `System.currentTimeMillis()`). */
    constructor (id: string, mail: string, given: Option<string>, now: int)
      requires DisplayName(given, mail).Some?
      ensures uid == id && email == mail && name == DisplayName(given, mail)
      ensures !isOnline && lastSeen == now
    {
      uid := id;
      email := mail;
      name := DisplayName(given, mail);
      isOnline := false;
      lastSeen := now;
    }

    /** `getName()`: the same fallback, applied when the name is read. */
    function GetName(): (r: Option<string>)
      reads this
      ensures r == DisplayName(name, email)
    {
      DisplayName(name, email)
    }

    method SetUid(v: string)
      modifies this`uid
      ensures uid == v
    {
      uid := v;
    }

    method SetEmail(v: string)
      modifies this`email
      ensures email == v
    {
      email := v;
    }

    method SetName(v: Option<string>)
      modifies this`name
      ensures name == v
    {
      name := v;
    }

    method SetOnline(v: bool)
      modifies this`isOnline
      ensures isOnline == v
    {
      isOnline := v;
    }

    method SetLastSeen(v: int)
      modifies this`lastSeen
      ensures lastSeen == v
    {
      lastSeen := v;
    }
  }

  /** The `ArrayList<User>` the new-chat screen creates and hands to its
      adapter: both hold the same list object. */
  class UserList {
    var items: seq<User>

    constructor ()
      ensures items == []
    {
      items := [];
    }
  }

  /** The uid of every user of `s`, in order. */
  function UserIds(s: seq<User>): (r: seq<string>)
    reads s
    ensures |r| == |s|
    ensures forall i :: 0 <= i < |s| ==> r[i] == s[i].uid
  {
    seq(|s|, i requires 0 <= i < |s| reads s => s[i].uid)
  }

  /** The display name of every user of `s`, as `getName()` gives it. */
  function DisplayNames(s: seq<User>): (r: seq<Option<string>>)
    reads s
    ensures |r| == |s|
    ensures forall i :: 0 <= i < |s| ==> r[i] == s[i].GetName()
  {
    seq(|s|, i requires 0 <= i < |s| reads s => s[i].GetName())
  }
}

=== FILE: user_adapter.dfy ===
/** The adapter of the new-chat screen: a click on a user opens the first
    chat of the current user that includes them, or creates a direct chat
    with both display names. */
module UserAdapters {
  import opened Platform
  import opened Chats
  import opened Users

  /** How the existing-chat lookup of a click ends. */
  datatype Lookup = OpenExisting(chatId: string) | CreateNew | LookupCrashed

  /** The position where the loop over the current user's chats stops: the
      first chat whose participants include `otherId`, or the first whose
      participants are null (reading them throws there); `|docs|` when it
      runs to the end. */
  function StopIndex(docs: seq<ChatDoc>, otherId: string): (r: nat)
    ensures r <= |docs|
    ensures forall j :: 0 <= j < r ==> docs[j].participants.Some? && otherId !in docs[j].participants.value
    ensures r < |docs| ==> docs[r].participants.None? || otherId in docs[r].participants.value
  {
    if docs == [] then 0
    else if docs[0].participants.None? || otherId in docs[0].participants.value then 0
    else 1 + StopIndex(docs[1..], otherId)
  }

  /** `createOrOpenChat`: open the chat where the loop stops, create a new
      one when it runs to the end. */
  function LookupResult(docs: seq<ChatDoc>, otherId: string): (r: Lookup)
  {
    var k := StopIndex(docs, otherId);
    if k == |docs| then CreateNew
    else if docs[k].participants.None? then LookupCrashed
    else OpenExisting(docs[k].id)
  }

  /** An opened chat is the first one that includes the other user, and a
      new chat is created only when none of them does. */
  lemma LookupResultSpec(docs: seq<ChatDoc>, otherId: string)
    requires forall j :: 0 <= j < |docs| ==> docs[j].participants.Some?
    ensures LookupResult(docs, otherId).CreateNew? <==>
      forall j :: 0 <= j < |docs| ==> otherId !in docs[j].participants.value
    ensures LookupResult(docs, otherId).OpenExisting? ==>
      exists k :: 0 <= k < |docs| && docs[k].id == LookupResult(docs, otherId).chatId
        && otherId in docs[k].participants.value
        && forall j :: 0 <= j < k ==> otherId !in docs[j].participants.value
  {
    var k := StopIndex(docs, otherId);
    if k < |docs| {
      assert otherId in docs[k].participants.value;
    }
  }

  /** The match does not ask for a two-person chat: a group that includes
      the other user is opened as if it were the direct chat. */
  lemma GroupMatches()
    ensures LookupResult([ChatDoc("g", Some(["me", "b", "c"]))], "b") == OpenExisting("g")
  {
    assert StopIndex([ChatDoc("g", Some(["me", "b", "c"]))], "b") == 0;
  }

  /** The fields of the chat document `createNewChat` adds. */
  datatype NewChatData = NewChatData(
    participants: seq<string>,
    lastMessageText: string,
    lastMessageTime: Option<Timestamp>,
    userNames: map<string, string>)

  class UserAdapter {
    const currentUserId: string
    /** The list object shared with the new-chat screen. */
    const userList: UserList

    constructor (uid: string, list: UserList)
      ensures currentUserId == uid && userList == list
    {
      currentUserId := uid;
      userList := list;
    }

    function ItemCount(): (r: nat)
      reads this, userList
      ensures r == |userList.items|
    {
      |userList.items|
    }

    /** The success callback of the lookup in `createOrOpenChat`, over the
      chats that include the current user. */
    method CreateOrOpenChat(other: User, docs: seq<ChatDoc>) returns (r: Lookup)
      ensures r == LookupResult(docs, other.uid)
    {
      var i := 0;
      while i < |docs|
        invariant 0 <= i <= StopIndex(docs, other.uid)
      {
        var ps := docs[i].participants;
        if ps.None? {
          return LookupCrashed;
        }
        if other.uid in ps.value {
          return OpenExisting(docs[i].id);
        }
        i := i + 1;
      }
      return CreateNew;
    }

    /** `createNewChat`, once the current user's document has been read
      (`None` when it does not exist), at device time `now`. The result is
      `None` when a display name cannot be computed. */
    method CreateNewChat(other: User, current: Option<User>, now: Timestamp) returns (data: Option<NewChatData>)
      ensures data.None? <==>
        (current.Some? && current.value.GetName().None?) || other.GetName().None?
      ensures data.Some? ==>
        var curName := if current.Some? then current.value.GetName().value else "";
        data.value == NewChatData([currentUserId, other.uid], "Chat started", Some(now),
                                  map[currentUserId := curName][other.uid := other.GetName().value])
    {
      var currentUserName := "";
      if current.Some? {
        var n := current.value.GetName();
        if n.None? {
          return None;
        }
        currentUserName := n.value;
      }
      var otherName := other.GetName();
      if otherName.None? {
        return None;
      }
      var userNames := map[currentUserId := currentUserName][other.uid := otherName.value];
      return Some(NewChatData([currentUserId, other.uid], "Chat started", Some(now), userNames));
    }

    /** `openChat`: the chat screen is started on the chat with the other
      user, as a direct chat. */
    method OpenChat(chatId: string, otherId: string) returns (intent: ChatIntent)
      ensures intent == ChatIntent(Some(chatId), Some(otherId), false, None) && Opens(intent)
    {
      intent := ChatIntent(Some(chatId), Some(otherId), false, None);
    }
  }
}
